=== FILE: README.md ===
# OnYou core, modelled in Dafny

OnYou is a small web app for self-reflection. A user answers a twelve-question
self survey, which is scored into a six-dimension radar chart ("discover").
Friends then answer the same questions about the user, either through an
invite link or as signed-in friends. Their answers are averaged into a
second radar layer and quoted back as text.

This project models the rules behind that flow as pure Dafny functions over
immutable data:

- the scoring of self and peer surveys;
- the request validators, the string sanitiser and the fixed-window rate limiter;
- the invite-gated feedback endpoint and its `usedCount <= maxUses` invariant;
- the dashboard's sums, response rate and suggested next step;
- invite code generation;
- the response envelopes and the pagination arithmetic;
- the fixed question table;
- the two CSV exporters, together with a reader that shows what they write can be read back;
- the client-side state machines of the three survey forms and the friend search filter.

State that the program keeps elsewhere is passed in and handed back
explicitly. That covers the invite and feedback tables, the rate limiter's
map, the clock, and the random draws.

Modules follow the program's files:

| module | file |
|---|---|
| `Js` | JavaScript values: truthiness, `typeof`, property reads |
| `Records` | the stored records and the radar item |
| `Text` | trimming, `includes`, `join` |
| `SurveyQuestions` | `src/constants/survey-questions.ts` |
| `Discover` | `src/app/api/discover/route.ts` |
| `Validation` | `src/lib/validation.ts` (validators and sanitiser) |
| `RateLimit` | `src/lib/validation.ts` (`checkRateLimit` and its sweep) |
| `ApiResponse` | `src/lib/api-response.ts` |
| `Invites` | `src/app/api/invites/route.ts` |
| `Feedback` | `src/app/api/feedback/route.ts` |
| `Dashboard` | `src/app/api/dashboard/route.ts` |
| `Csv` | `export_csv.js` and `scripts/export_to_csv.js` |
| `SurveyForm` | the multiple-choice toggle and the answer shapes shared by the forms |
| `SelfSurvey` | `src/components/discover/SelfSurvey.tsx` |
| `FriendSurvey` | `src/components/invite/FriendSurvey.tsx` |
| `RegisteredFriendSurvey` | `src/components/friends/RegisteredFriendSurvey.tsx` and `src/app/api/friends/feedback/route.ts` |
| `PeerSurvey` | `src/components/friends/PeerSurvey.tsx` |

Each form component is modelled as a state machine.
- `Step(form, event)` gives the reaction to one user or timer event.
- `Run` folds a whole event sequence through `Step`.
- A button that is hidden or disabled on screen becomes an event that changes nothing.
- The delayed `setTimeout` advances are kept as pending entries in the state, and a `TimerFires` event takes one of them.
- In `FriendSurvey` and `RegisteredFriendSurvey` the timer closes over the step at the moment of the click, so each pending entry records the step it will set.
- `SelfSurvey` uses a functional `prev + 1` update instead, so there only a count of pending advances is kept.

Where the code does something its names or comments do not suggest, the model follows the code:
- **Peer scoring.** The peer formulas differ from the self formulas. Resilience reads `past1`, not `basic1`. Pride reads `past2` only. A missing peer key counts as 0, not 3.
- **`present-select`.** It is a SCALE question despite its name.
- **The invite survey's table.** `FriendSurvey.tsx` imports a `peerSurveyQuestions` table that `survey-questions.ts` does not export (see Findings). The rest of the model gives that form the peer-evaluation table (`FRIEND_EVALUATION_QUESTIONS`), whose ids the discover endpoint reads.
- **Empty search term.** An empty search term does not keep every friend. It keeps exactly the friends that have a name, a relation or at least one tag (`PeerSurvey.EmptyTermKeepsDescribed`).
- **Sanitising twice.** `sanitizeString` is not idempotent (`Validation.SanitizeIsNotIdempotent`). It trims before it removes angle brackets, so `"< a"` becomes `" a"`, and sanitising again gives `"a"`. This is reported as a property rather than as a defect, because nothing sanitises twice.
- **Unvalidated friend feedback.** The signed-in friend feedback route stores whatever scores and answers it is sent, without `validateScores`. The 1 to 5 guarantee on stored scores (`Feedback.AcceptedScoresInScale`) therefore holds on the invite path only. A stored `null` answers value makes every later discover request for that user fail (`RegisteredFriendSurvey.NullAnswersBreakDiscover`).

## Model

| member | source | states |
|---|---|---|
| SurveyQuestions.FriendTableHasTwelveDistinctIds | src/constants/survey-questions.ts:24-122 | the peer table has exactly twelve questions, no two with the same id |
| SurveyQuestions.FriendTableScaleIds | src/constants/survey-questions.ts:26-113 | the SCALE ids are exactly basic1, past1, past2, present1, present2, present-select, future1, future2, in table order |
| SurveyQuestions.FriendTableTextIds | src/constants/survey-questions.ts:59-121 | the TEXT ids are exactly past-text, present-text, future-text |
| SurveyQuestions.FriendTableChoiceIds | src/constants/survey-questions.ts:50-57 | past-select is the only MULTIPLE_CHOICE question, and it has three options |
| SurveyQuestions.IdsOfTypeMembers | src/constants/survey-questions.ts:24-122 | an id is listed for a type exactly when some question of that type carries it |
| SurveyQuestions.SelfTableMatchesFriendTable | src/components/discover/SelfSurvey.tsx:21-113 | the self survey's own table has the same ids, types and sections, in the same order, as the peer table |
| Discover.GetScore | src/app/api/discover/route.ts:12 | a numeric answer reads as itself; an absent key or any non-number reads as 3 |
| Discover.SelfRadar | src/app/api/discover/route.ts:14-28 | six items in chart order, each with its dimension's Korean label, the self score and full mark 5 |
| Discover.SelfScoresInScale | src/app/api/discover/route.ts:12-19 | if each of the eight read keys is absent, non-numeric or in [1, 5], every self score lies in [1, 5] |
| Discover.SelfRadarExample | src/app/api/discover/route.ts:14-19 | the example answers of the repository's discover test score [4, 4.5, 4, 3.5, 5, 4] |
| Discover.SubmitSelfSurvey | src/app/api/discover/route.ts:4-45 | a null or undefined body or answers value ends in the 500 failure; otherwise the stored radar is the self radar of the body's answers, stored for the mock user together with the raw answers |
| Discover.DimensionOf | src/app/api/discover/route.ts:106-113 | a label the peer switch recognises names the dimension whose label it is |
| Discover.SubjectRoundTrip | src/app/api/discover/route.ts:106-113 | every dimension's label is recognised as that dimension, so the six labels are distinct |
| Discover.PeerRead | src/app/api/discover/route.ts:90-95 | a numeric score reads as itself and a missing or falsy one as 0 |
| Discover.TotalAppend | src/app/api/discover/route.ts:83-95 | a dimension's running total adds up over any split of the feedback list |
| Discover.PeerScoreInRange | src/app/api/discover/route.ts:90-95 | one respondent whose read scores lie in [0, 5] contributes a value in [0, 5] to every dimension (missing keys count 0) |
| Discover.TotalInRange | src/app/api/discover/route.ts:83-95 | over N such respondents a total lies in [0, 5N] |
| Discover.WithPeerScore | src/app/api/discover/route.ts:104-115 | writing the peer score keeps the item's label, self score and full mark |
| Discover.PeerRadar | src/app/api/discover/route.ts:103-119 | same length and the same label, self score and full mark per item; with no feedback every B is 0; otherwise B is the dimension's unrounded total over N, or 0 for an unknown label |
| Discover.PeerRadarInRange | src/app/api/discover/route.ts:90-112 | if every respondent's read scores lie in [0, 5], every peer score lies in [0, 5] |
| Discover.PeerRadarExample | src/app/api/discover/route.ts:90-107 | two respondents scoring past1 as 5 and 3 give resilience a peer score of 4 |
| Discover.Author | src/app/api/discover/route.ts:86 | a quote's author is never empty: the respondent's name, or 친구 when the name is empty |
| Discover.Quotes | src/app/api/discover/route.ts:97-100 | a key is quoted at most once per feedback |
| Discover.QuotesAppend | src/app/api/discover/route.ts:83-101 | quoting distributes over a split of the feedbacks, so quotes keep the feedbacks' order |
| Discover.QuotesMembers | src/app/api/discover/route.ts:97-100 | every quote is the truthy text answer of some feedback, with that feedback's author, and every truthy text answer is quoted |
| Discover.PeerQuotes | src/app/api/discover/route.ts:70-100 | q1, q2 and q3 quote past-text, present-text and future-text respectively |
| Discover.GetDiscover | src/app/api/discover/route.ts:47-132 | no self survey gives the "exists: false" answer; with one, a feedback whose stored scores or answers are null or undefined makes the property reads throw into the 500 "Failed to fetch survey"; otherwise the stored answers, the peer radar, the three quote lists, and a peer count equal to the number of feedbacks |
| Discover.PeerKeysAgreeWithQuestionTable | src/app/api/discover/route.ts:90-100 | every score key the peer formulas read is a SCALE id of the question table, every quoted key is a TEXT id, and basic1 is asked but never read |
| Discover.SelfKeysAreSelfScaleQuestions | src/components/discover/SelfSurvey.tsx:21-113 | the eight keys the self formulas read are exactly the self survey's SCALE questions, in order |
| Text.Trim | src/lib/validation.ts:12 | the result is an infix of the input with only white space before and after it, neither starting nor ending with white space; a string without white space is kept |
| Validation.SanitizeString | src/lib/validation.ts:8-15 | a non-string gives ""; the result has no angle brackets and at most 10000 characters, and is the longest prefix of at most 10000 characters of the trimmed input with the brackets removed |
| Validation.SanitizeKeepsCleanText | src/lib/validation.ts:8-15 | a string with no surrounding white space, no brackets and at most 10000 characters passes through unchanged |
| Validation.SanitizeIsNotIdempotent | src/lib/validation.ts:11-14 | "< a" sanitises to " a", and sanitising that gives "a" |
| Validation.ValidEmailIff | src/lib/validation.ts:34-39 | a string is accepted exactly when it has at most 254 characters and is three non-empty runs without white space or '@', joined by '@' and then '.' |
| Validation.EmailPatternIsShape | src/lib/validation.ts:37 | the executable pattern test (no white space, one '@' not first, a '.' after it with text on both sides) accepts exactly the strings of the pattern's shape |
| Validation.NonStringEmailRejected | src/lib/validation.ts:35 | anything but a string is rejected |
| Validation.ValidateRequired | src/lib/validation.ts:44-57 | the report lists the blank required fields, and is valid exactly when that list is empty |
| Validation.MissingFieldsMembers | src/lib/validation.ts:48-51 | a field is reported exactly when it was asked for and is undefined, null or "" |
| Validation.MissingFieldsAppend | src/lib/validation.ts:48-51 | the report keeps the order in which the fields were asked for |
| Validation.ZeroAndFalseArePresent | src/lib/validation.ts:50 | 0 and false count as present |
| Validation.FailingKeys | src/lib/validation.ts:72-76 | a key is reported exactly when its test rejects the data's field |
| Validation.ValidateObject | src/lib/validation.ts:62-82 | a non-object or null fails with the single "Data must be an object" error; otherwise there is one error per failing key, in order, and the result is valid exactly when every test passes |
| Validation.ValidateSurveyAnswers | src/lib/validation.ts:87-100 | true exactly for an object (or array) all of whose values are strings, numbers or arrays of strings |
| Validation.ValidateScores | src/lib/validation.ts:105-112 | true exactly for an object (or array) all of whose values are numbers in [1, 5] |
| Validation.EmptyScoresPass | src/lib/validation.ts:105-112 | the empty scores object passes |
| RateLimit.Check | src/lib/validation.ts:120-152 | a missing or elapsed window is replaced by {1, now+window} and allowed with max−1 remaining; inside the window the count grows by one with the same end, the call is allowed exactly when the count stays within the limit, and remaining is the rest or 0; no other identifier's entry changes |
| RateLimit.FirstRequestAllowed | src/lib/validation.ts:133-137 | the first request of a window is allowed even when the limit is 0 or less |
| RateLimit.Sweep | src/lib/validation.ts:157-165 | the clean-up keeps exactly the windows that have not elapsed, unchanged |
| RateLimit.SweepIsUnobservable | src/lib/validation.ts:129-165 | a sweep at an earlier time changes no later decision and no later window for the checked identifier |
| RateLimit.RunInsideWindow | src/lib/validation.ts:140-151 | k requests inside a window allow exactly those whose count stays within the limit, and leave the count k higher with the same end |
| RateLimit.WindowAdmitsAtMostLimit | src/lib/validation.ts:118-151 | in a window opened by the first of a run of requests, at most max(1, limit) of them are allowed |
| ApiResponse.SuccessResponse | src/lib/api-response.ts:27-36 | success with the given data; a message exactly when one was given and is non-empty; status 200 by default |
| ApiResponse.ErrorResponse | src/lib/api-response.ts:41-58 | failure with the message; code INTERNAL_ERROR and status 500 by default; details exactly when they are truthy |
| ApiResponse.ApiErrorResponse | src/lib/api-response.ts:63-84 | each helper sends its own code and status and its default message; only badRequest and validationError pass details on |
| ApiResponse.ErrorTableIsInjective | src/lib/api-response.ts:63-84 | no two helpers share a status or a code, and the status determines the helper |
| ApiResponse.TotalPages | src/lib/api-response.ts:111 | for a limit of at least 1, and for a negative limit, the page count is a whole number: the ceiling of total/limit |
| ApiResponse.PaginatedResponse | src/lib/api-response.ts:105-124 | the items are passed through; page 1 and limit 10 by default; hasMore exactly when page < totalPages |
| ApiResponse.EmptyListHasNoMore | src/lib/api-response.ts:111-112 | a total of 0 gives 0 pages, and no page of at least 1 has more |
| ApiResponse.PageParam | src/lib/api-response.ts:131 | an absent page is 1, a parsed one is at least 1, and an unparsable one is NaN |
| ApiResponse.LimitParam | src/lib/api-response.ts:132 | an absent limit is 10; a parsed one is clamped into [1, 100] and kept when already inside; an unparsable one is NaN |
| ApiResponse.ParsedLimitGivesPages | src/lib/api-response.ts:111-132 | a parsed or default limit always gives a finite page count |
| Invites.GenerateCode | src/app/api/invites/route.ts:5-12 | the code has the requested length (none for a negative one); character i is the alphabet entry at the i-th draw, so every character is A–Z or 0–9 |
| Invites.FindInvite | src/app/api/feedback/route.ts:41-45 | the position found holds an invite with that code, and none is found exactly when no invite has it |
| Invites.CreateInvite | src/app/api/invites/route.ts:14-35 | a created invite is for the mock user, has the drawn six-character code and expires 604800000 ms after now; creation fails and changes nothing exactly when the code is taken; codes stay unique |
| Feedback.ValidationFailure | src/app/api/feedback/route.ts:11-29 | no message exactly when the required fields are present, code and name are strings, and the scores and answers validate; otherwise the message of the first failing check, in the route's order: the blank fields joined by ", " after "Missing required fields: ", then the type message, then the scores message, then the answers message |
| Feedback.Lookup | src/app/api/feedback/route.ts:41-78 | 404 exactly for an unknown code, 400 exactly for an expired or exhausted invite, 200 otherwise; on 200 one feedback for the creator is appended and that invite's count is one higher; nothing else changes |
| Feedback.Submit | src/app/api/feedback/route.ts:5-84 | a null body is the 500 failure; a validation failure is a 422 that changes nothing; the limiter is consumed before the lookup; 429 exactly when the limiter refuses; only a 200 changes the tables |
| Feedback.LookupKeepsInvariant | src/app/api/feedback/route.ts:41-73 | the invite lookup and its increment keep every invite within its maximum and keep codes unique |
| Feedback.SubmitKeepsInvariant | src/app/api/feedback/route.ts:55-73 | a submission keeps every invite within its maximum and keeps codes unique |
| Feedback.SubmitAllKeepsInvariant | src/app/api/feedback/route.ts:55-73 | however many submissions arrive, no invite is used more than its maximum |
| Feedback.AcceptedScoresInScale | src/app/api/feedback/route.ts:23-25 | an accepted submission is stored for the invite's creator with the body's scores value itself, which passes the score validator: an object whose every property, or an array whose every element, is a number in [1, 5] |
| Dashboard.Mine | src/app/api/dashboard/route.ts:30-32 | an invite is among the user's exactly when it is in the table and was created by the user; there are at most as many as in the table |
| Dashboard.About | src/app/api/dashboard/route.ts:23-26 | a feedback is among the user's exactly when it is in the table and is about the user; there are at most as many as in the table |
| Dashboard.ResponseRate | src/app/api/dashboard/route.ts:35 | 0 when nothing was offered; otherwise the integer nearest 100·responses/offered, halves rounding up |
| Dashboard.ChoosePrimaryAction | src/app/api/dashboard/route.ts:48-58 | exactly one action: no_survey without a self survey, else no_invite without invites, else waiting_feedback without feedback, else has_feedback |
| Dashboard.GetDashboard | src/app/api/dashboard/route.ts:5-80 | 401 exactly without a user id; otherwise the counts, the sums of maxUses and usedCount over the user's invites, the rate of those sums and the primary action |
| Dashboard.SumsAppend | src/app/api/dashboard/route.ts:33-34 | the offered and used sums add up over any split of the invite list |
| Dashboard.UsedWithinOffered | src/app/api/dashboard/route.ts:33-34 | when every invite is within its maximum, responses do not exceed the number offered |
| Dashboard.RateBound | src/app/api/dashboard/route.ts:35 | a response count within the number offered gives a rate in [0, 100] |
| Dashboard.RateIsPercentage | src/app/api/dashboard/route.ts:33-35 | when every invite is within its maximum, the dashboard's rate lies in [0, 100] |
| Dashboard.AboutAppend | src/app/api/dashboard/route.ts:23-27 | a new feedback raises the feedback count of its subject only |
| Dashboard.UpdateInviteSums | src/app/api/dashboard/route.ts:33-34 | changing one invite's used count changes the creator's response sum by the difference and leaves the offered sum as it was |
| Dashboard.AcceptedFeedbackReachesDashboard | src/app/api/dashboard/route.ts:23-34 | after an accepted feedback, the creator's feedback count and response count are one higher, and invites and offered uses are unchanged |
| Csv.Escape | export_csv.js:22 | escaping adds exactly one character per double quote |
| Csv.CellOf | export_csv.js:19-23 | strings, arrays and objects are quoted; a string's quoted text is the string; null and undefined give an empty bare field |
| Csv.ScriptCellOf | scripts/export_to_csv.js:16-20 | the script's field rule writes the same field as the root exporter's for every value |
| Csv.ToCsv | export_csv.js:12-15 | a missing or empty table gives "No Data"; the text written for any other table is stated by Csv.ExportReadsBack |
| Csv.ToCsvScript | scripts/export_to_csv.js:12-24 | the script's exporter writes what the root exporter writes, on every table |
| Csv.NoDataOnlyForEmptyTables | export_csv.js:13-15 | "No Data" is written exactly for a missing or empty table |
| Csv.EmptyStringIsNotNull | export_csv.js:20-22 | the empty string is written "" (two quotes), null as an empty field |
| Csv.ReadRenderedCell | export_csv.js:19-23 | reading a written field back returns it and stops at the next separator |
| Csv.ReadDocument | export_csv.js:24-26 | reading a whole written document returns its rows of fields |
| Csv.ExportReadsBack | export_csv.js:12-26 | for a table whose keys and numbers need no quoting, reading the export returns the header cells followed by every row's fields, one line per row, with every string recovered exactly |
| SurveyForm.Remove | src/components/discover/SelfSurvey.tsx:174 | removal drops every copy of the option and keeps everything else |
| SurveyForm.Toggle | src/components/discover/SelfSurvey.tsx:171-177 | the option's membership flips and no other option's membership changes |
| SurveyForm.ToggleKeepsDistinct | src/components/invite/FriendSurvey.tsx:45-51 | toggling keeps a list without repeats free of repeats |
| SurveyForm.ToggleTwiceRestores | src/components/friends/RegisteredFriendSurvey.tsx:37-43 | toggling an absent option twice gives the original list back |
| SurveyForm.ToggleAnswer | src/components/discover/SelfSurvey.tsx:171-177 | only the question's answer changes, to the toggled list of options |
| SurveyForm.FormAnswersPassValidation | src/lib/validation.ts:87-100 | answers written by the forms pass the answer validator |
| SurveyForm.FormScoresPassValidation | src/components/invite/FriendSurvey.tsx:189-192 | scores written by the 1–5 buttons pass the score validator |
| SurveyForm.FormAnswersScoreInScale | src/components/discover/SelfSurvey.tsx:296-299 | answers written by the self-survey form always score every dimension in [1, 5] |
| SelfSurvey.Step | src/components/discover/SelfSurvey.tsx:128-185 | no event moves more than one step or drops an answer, only the shown question's answer changes, and a completed form ignores every event but a timer and the revise button, which reopens it |
| SelfSurvey.UpdateAnswer | src/components/discover/SelfSurvey.tsx:157-169 | only the shown question's answer changes; a scale answer before the last question schedules exactly one advance |
| SelfSurvey.IsCurrentStepValid | src/components/discover/SelfSurvey.tsx:179-185 | a multiple-choice step is valid exactly when its answer is a non-empty list (or text); any other step exactly when its answer is defined and not "" |
| SelfSurvey.Next | src/components/discover/SelfSurvey.tsx:128-149 | before the last question one step on; at the last the answers are posted and the form completes with the server's radar, or without one when the server is unreachable |
| SelfSurvey.Fire | src/components/discover/SelfSurvey.tsx:164-167 | a scheduled advance moves one step on only while a later question exists |
| SelfSurvey.RunKeepsValid | src/components/discover/SelfSurvey.tsx:128-185 | with the guarded advance, every event sequence keeps the form on one of its questions with well-formed answers |
| SelfSurvey.AnyRunStaysOnQuestions | src/components/discover/SelfSurvey.tsx:128-169 | from the start, any event sequence leaves the form on one of its questions |
| SelfSurvey.SubmittedRadarInScale | src/components/discover/SelfSurvey.tsx:128-143 | a completed submission shows a radar whose six self scores lie in [1, 5] |
| SelfSurvey.FireAsWritten | src/components/discover/SelfSurvey.tsx:164-167 | the advance as written moves one step on however far the form already is |
| SelfSurvey.AsWrittenDoubleAnswerOvershoots | src/components/discover/SelfSurvey.tsx:157-169 | two scale answers on the second-to-last question move the form past the last question |
| SelfSurvey.AsWrittenLeavesTableFromStart | src/components/discover/SelfSurvey.tsx:157-169 | answering from the first question on and double-clicking a scale button on the second-to-last one leaves the step at 12, past the table |
| SelfSurvey.GuardedDoubleAnswerStays | src/components/discover/SelfSurvey.tsx:164 | with the guard, the same double answer stops at the last question |
| FriendSurvey.Answer | src/components/invite/FriendSurvey.tsx:28-43 | a scale answer goes to both scores and answers and schedules the step after the current one; any other answer goes to answers only |
| FriendSurvey.RunKeepsValid | src/components/invite/FriendSurvey.tsx:28-64 | every event sequence keeps the step within the questions and the nickname step, keeps scores mirrored in answers and limited to SCALE ids, and keeps the values in shape |
| FriendSurvey.AnyRunStaysInRange | src/components/invite/FriendSurvey.tsx:53-64 | from the start the step stays between the first question and the nickname step |
| FriendSurvey.NavigationMovesOneStep | src/components/invite/FriendSurvey.tsx:53-64 | next moves exactly one step on and keeps the answers, from the last question to the nickname step; back moves one step back except on the first question |
| FriendSurvey.BlankNicknameIsRefused | src/components/invite/FriendSurvey.tsx:66-70 | a nickname that is empty once trimmed sends nothing and changes nothing |
| FriendSurvey.PayloadMissingFields | src/components/invite/FriendSurvey.tsx:77-82 | with a nickname, the only required field the endpoint can find blank is the invite code, and only when the link had none |
| FriendSurvey.PayloadValidIffCode | src/components/invite/FriendSurvey.tsx:66-82 | a submitted form passes the feedback endpoint's validation exactly when the link carried a non-empty invite code |
| FriendSurvey.StoredScoresAreFormScores | src/components/invite/FriendSurvey.tsx:28-33 | the endpoint stores exactly the form's scores object; the peer view reads each answered SCALE question's button value back from it, in [1, 5], and 0 for every other key |
| FriendSurvey.Step | src/components/invite/FriendSurvey.tsx:28-70 | a timer only moves the step, no event drops a score or an answer, only the shown question's answer changes, the nickname changes only on the nickname step, and a finished form ignores all but timers |
| FriendSurvey.FirstScreen | src/components/invite/FriendSurvey.tsx:25 | the first render shows a question exactly when the bound table is defined and non-empty, and then its first question |
| FriendSurvey.AsWrittenFirstRenderCrashes | src/components/invite/FriendSurvey.tsx:9 | with the table the import binds as written, the first render throws |
| FriendSurvey.FirstRenderShowsFirstQuestion | src/constants/survey-questions.ts:24-30 | with the exported peer table bound, the first render shows basic1 |
| RegisteredFriendSurvey.Submit | src/components/friends/RegisteredFriendSurvey.tsx:53-81 | a submission posts the current payload and finishes the form exactly when the post is accepted |
| RegisteredFriendSurvey.RunKeepsValid | src/components/friends/RegisteredFriendSurvey.tsx:24-51 | every event sequence keeps the form on its questions and the friend it evaluates unchanged |
| RegisteredFriendSurvey.AnyRunStaysOnQuestions | src/components/friends/RegisteredFriendSurvey.tsx:45-51 | from the start the step never leaves the questions, and every post names the friend being evaluated and carries scores in [1, 5] |
| RegisteredFriendSurvey.NextPostsOnlyAtLastStep | src/components/friends/RegisteredFriendSurvey.tsx:45-51 | on a SCALE question, which shows no next button, next changes nothing; on any other question next posts exactly at the last question, and otherwise moves one step on |
| RegisteredFriendSurvey.Step | src/components/friends/RegisteredFriendSurvey.tsx:24-51 | the friend never changes, no event drops a score or an answer, only the shown question's answer changes, posts are only appended, one at a time, and a finished form ignores all but timers |
| RegisteredFriendSurvey.ScaleQuestionsAnsweredBeforeLeaving | src/components/friends/RegisteredFriendSurvey.tsx:24-51 | from the start, every SCALE question before the current step has a score, so every post carries a number for each of the eight SCALE ids |
| RegisteredFriendSurvey.FriendFeedback | src/app/api/friends/feedback/route.ts:4-30 | a falsy target is the 400 "Missing target"; a null body or a non-string target fails the store; otherwise the feedback is stored for the target string under the fixed respondent name 지수, with the body's scores and answers values as sent |
| RegisteredFriendSurvey.NullAnswersBreakDiscover | src/app/api/friends/feedback/route.ts:16-22 | a post whose answers are null is stored, and the target's discover request then ends in the 500 failure |
| RegisteredFriendSurvey.PostStoredForFriend | src/components/friends/RegisteredFriendSurvey.tsx:60-70 | the form's post is refused exactly when the friend id is empty; otherwise it is stored for that friend with the form's scores object, every score in [1, 5] and one number per SCALE question |
| PeerSurvey.Colored | src/components/friends/PeerSurvey.tsx:37-40 | friend i gets palette entry i mod 5, and nothing else about it changes |
| PeerSurvey.ColorsRepeatEveryFive | src/components/friends/PeerSurvey.tsx:37-40 | colours repeat every five friends and neighbours never share one |
| PeerSurvey.Filter | src/components/friends/PeerSurvey.tsx:69-73 | a friend is kept exactly when its name, its relation or one of its tags contains the term |
| PeerSurvey.FilterAppend | src/components/friends/PeerSurvey.tsx:69 | filtering distributes over a split of the list, so the kept friends keep their order |
| PeerSurvey.EmptyTermKeepsDescribed | src/components/friends/PeerSurvey.tsx:70-72 | the empty term keeps exactly the friends with a name, a relation or at least one tag |
| PeerSurvey.LongerTermNarrows | src/components/friends/PeerSurvey.tsx:69-73 | extending the search term only removes friends |
| PeerSurvey.SearchIgnoresColor | src/components/friends/PeerSurvey.tsx:37-73 | the colour assigned to a friend does not affect the search |

## Left out

- Database access is not modelled. Tables are sequences passed in and returned, and a failed write appears only as the modelled error results (`StoreFailed`, `CreateFailed`).
- Parsing stored JSON is not modelled. Records arrive already parsed into values. A stored null or undefined scores or answers value, which makes the discover GET throw, is modelled (`Discover.GetDiscover`); a blob that is not valid JSON is not.
- Concurrency is not modelled. Requests are handled one after another, and two submissions racing on one invite are out of scope.
- Floating point is not modelled.
  - Means are exact rationals, and the `toFixed(1)` rounding of the peer scores is not applied.
  - The dashboard rate is rounded half up exactly, with no `Math.round` on a float.
  - NaN and infinity appear only where pagination divides by a zero limit.
  - Numbers are real numbers.
- String lengths count Unicode scalar values, not UTF-16 code units. This affects the 10000-character sanitiser cut and the 254-character email limit.
- `Csv.CellOf` leaves how numbers and objects are printed (`String(n)` and `JSON.stringify`) as parameters, because their exact text belongs to the runtime.
- `Csv.ToCsv` does not model the exporters' input checks for anything other than a list of rows or nothing.
  - That covers a non-array object, and the root exporter's catch that returns "Error".
  - The file writing in the scripts' `main` is left out as I/O.
- `ApiResponse.PageParam` and `ApiResponse.LimitParam` take the result of `parseInt` as given. They do not model JavaScript's integer parsing of the query text.
- `Invites.GenerateCode` takes the random draws as an argument, and `Invites.CreateInvite` takes the clock reading as an argument. `Date.now`, `Math.random` and `new Date()` are not modelled.
- `sanitizeHtml` is not modelled; its regular expressions with lookahead are not encoded.
- Authentication and the environment are left out: NextAuth sessions, the middleware, and the environment module. A session is modelled only as an optional user id.
- The thin CRUD routes for friends, the user and letters are left out, as are all rendering, toasts, routing and animation.
  - The dashboard receives the friend and letter counts as numbers.
- The PeerSurvey invite-link handler is left out. It posts to the invite endpoint and copies a link to the clipboard.
- `SurveyForm.Choices` reads a non-array value stored under a multiple-choice id as no choices. The component would throw on calling `includes` on it, but no form ever stores such a value.
- `Validation.ValidateObject` and `Validation.FailingKeys` read an array's properties through the general property read, which gives undefined for index keys ("0", "1", …) and for "length". JavaScript reads the element or the length there, so the errors reported for an array may differ.
- `Discover.PeerRead` reads every truthy score that is not a number as 0, where JavaScript coerces it (discover/route.ts:90-95). Only the signed-in friend route can store such a score.
  - A string is concatenated into the running total, and the division by the respondent count turns the text back into a number. One respondent's "5" gives "05" / 1, so it still averages to 5. The scores "5" and "3" give "053" / 2 = 26.5.
  - `true` adds 1 as a number.
  - For belonging, the string is first joined with the other key's score, so `("5" + 0) / 2` is "50" / 2 = 25. That number is then added numerically.
  - A string that does not read as a number makes the mean NaN.
- The stored records are schema-agnostic: a friend feedback whose body has no scores or answers property is stored with an undefined value. Whether the database would refuse it is not modelled.
- `SelfSurvey.Next` does not model the form's behaviour while a submission is in flight. The same holds for `FriendSurvey` and `RegisteredFriendSurvey`: they have an `isSubmitting` flag, but double submission is a concurrency matter.

## Findings

| source | as written | input that shows it | evidently intended | confidence | as-written member | corrected member |
|---|---|---|---|---|---|---|
| src/components/discover/SelfSurvey.tsx:164-167 | The scale answer's delayed advance is `prev + 1` with no bound. The guard `currentStep < questions.length - 1` is checked against the step at the click, not when the timer fires. | Answer every question up to the second-to-last one (future2, index 10), then press a scale button on it twice within 300 ms. Both timers fire, and the step becomes 12, where `questions[12]` is undefined and the next render reads `currentQuestion.id`. | The step stops at the last question, index 11. | not executed | SelfSurvey.FireAsWritten, SelfSurvey.AsWrittenLeavesTableFromStart | SelfSurvey.Fire, SelfSurvey.AnyRunStaysOnQuestions |
| src/components/invite/FriendSurvey.tsx:9 | The component imports `peerSurveyQuestions` from the questions module, which exports only `FRIEND_EVALUATION_QUESTIONS`. The import binds `undefined`, and line 25 reads `questions[step]`. | Open the invite page with any code. The first render reads index 0 of `undefined` and throws. | The import names `FRIEND_EVALUATION_QUESTIONS`, and the first screen shows basic1. | not executed | FriendSurvey.AsWrittenFirstRenderCrashes | FriendSurvey.FirstRenderShowsFirstQuestion, FriendSurvey.RunKeepsValid |

=== FILE: api_response.dfy ===
/** The standard response envelopes, the named error helpers and the
    pagination arithmetic. */
module ApiResponse {
  import opened Js

  /** A response body: success with data and an optional message, or an
      error with a code, a message and optional details. */
  datatype Envelope<T> =
    | Success(data: T, message: Option<string>)
    | Error(error: ErrorBody)

  datatype ErrorBody = ErrorBody(code: string, message: string, details: Option<Value>)

  datatype Response<T> = Response(body: Envelope<T>, status: int)

  /** `successResponse(data, message?, status = 200)`: the message is kept
      only when it is a non-empty string. */
  function SuccessResponse<T>(data: T, message: Option<string>, status: Option<int>): (r: Response<T>)
    ensures r.body.Success? && r.body.data == data
    ensures r.body.message.Some? <==> message.Some? && message.value != ""
    ensures r.body.message.Some? ==> r.body.message == message
    ensures status.None? ==> r.status == 200
    ensures status.Some? ==> r.status == status.value
  {
    var kept := if message.Some? && message.value != "" then message else None;
    Response(Success(data, kept), if status.Some? then status.value else 200)
  }

  /** `errorResponse(message, code = "INTERNAL_ERROR", status = 500, details?)`:
      the details are kept only when they are truthy. */
  function ErrorResponse<T>(message: string, code: Option<string>, status: Option<int>, details: Value): (r: Response<T>)
    ensures r.body.Error? && r.body.error.message == message
    ensures r.body.error.code == if code.Some? then code.value else "INTERNAL_ERROR"
    ensures r.status == if status.Some? then status.value else 500
    ensures r.body.error.details.Some? <==> Truthy(details)
    ensures r.body.error.details.Some? ==> r.body.error.details.value == details
  {
    Response(
      Error(ErrorBody(if code.Some? then code.value else "INTERNAL_ERROR", message, if Truthy(details) then Some(details) else None)),
      if status.Some? then status.value else 500)
  }

  /** The named helpers of `ApiErrors`. */
  datatype ApiError = Unauthorized | Forbidden | NotFound | BadRequest | ValidationError | InternalError | TooManyRequests

  /** The error code each helper sends. */
  function Code(e: ApiError): string {
    match e
    case Unauthorized => "UNAUTHORIZED"
    case Forbidden => "FORBIDDEN"
    case NotFound => "NOT_FOUND"
    case BadRequest => "BAD_REQUEST"
    case ValidationError => "VALIDATION_ERROR"
    case InternalError => "INTERNAL_ERROR"
    case TooManyRequests => "RATE_LIMIT_EXCEEDED"
  }

  /** The HTTP status each helper sends. */
  function Status(e: ApiError): int {
    match e
    case Unauthorized => 401
    case Forbidden => 403
    case NotFound => 404
    case BadRequest => 400
    case ValidationError => 422
    case InternalError => 500
    case TooManyRequests => 429
  }

  /** The message a helper sends when called without one. */
  function DefaultMessage(e: ApiError): string {
    match e
    case Unauthorized => "Unauthorized"
    case Forbidden => "Forbidden"
    case NotFound => "Resource not found"
    case BadRequest => "Bad request"
    case ValidationError => "Validation failed"
    case InternalError => "Internal server error"
    case TooManyRequests => "Too many requests"
  }

  /** `ApiErrors.<helper>(message?, details?)`. Only `badRequest` and
      `validationError` pass details on. */
  function ApiErrorResponse<T>(e: ApiError, message: Option<string>, details: Value): (r: Response<T>)
    ensures r.body.Error? && r.body.error.code == Code(e) && r.status == Status(e)
    ensures r.body.error.message == if message.Some? then message.value else DefaultMessage(e)
    ensures r.body.error.details.Some? <==> (e == BadRequest || e == ValidationError) && Truthy(details)
  {
    var passed := if e == BadRequest || e == ValidationError then details else Undefined;
    ErrorResponse(if message.Some? then message.value else DefaultMessage(e), Some(Code(e)), Some(Status(e)), passed)
  }

  /** The helper behind a status, when there is one. */
  function ErrorOfStatus(status: int): Option<ApiError> {
    if status == 401 then Some(Unauthorized)
    else if status == 403 then Some(Forbidden)
    else if status == 404 then Some(NotFound)
    else if status == 400 then Some(BadRequest)
    else if status == 422 then Some(ValidationError)
    else if status == 500 then Some(InternalError)
    else if status == 429 then Some(TooManyRequests)
    else None
  }

  /** The helper table: each helper has its own status and its own code, so
      a response's status (or code) tells which helper sent it. */
  lemma ErrorTableIsInjective(e: ApiError, f: ApiError)
    ensures ErrorOfStatus(Status(e)) == Some(e)
    ensures Status(e) == Status(f) <==> e == f
    ensures Code(e) == Code(f) <==> e == f
  {
  }

  // ----- pagination -----

  /** `Math.ceil(total / limit)`: a whole number of pages, or the infinity or
      NaN that dividing by a zero limit gives. */
  datatype PageCount = Pages(n: int) | Infinite(positive: bool) | NotANumber

  function TotalPages(total: int, limit: int): (r: PageCount)
    ensures limit >= 1 ==> r.Pages? && (r.n - 1) * limit < total <= r.n * limit
    ensures limit <= -1 ==> r.Pages? && (r.n - 1) * limit > total >= r.n * limit
  {
    if limit > 0 then Pages(-((-total) / limit))
    else if limit < 0 then Pages(-(total / (-limit)))
    else if total > 0 then Infinite(true)
    else if total < 0 then Infinite(false)
    else NotANumber
  }

  /** `page < totalPages`. */
  predicate HasMore(page: int, pages: PageCount) {
    match pages
    case Pages(n) => page < n
    case Infinite(positive) => positive
    case NotANumber => false
  }

  datatype Pagination = Pagination(page: int, limit: int, total: int, totalPages: PageCount, hasMore: bool)

  datatype Paginated<T> = Paginated(items: seq<T>, pagination: Pagination)

  /** `paginatedResponse(items, total, page = 1, limit = 10)`. */
  function PaginatedResponse<T>(items: seq<T>, total: int, page: Option<int>, limit: Option<int>): (r: Response<Paginated<T>>)
    ensures r.status == 200 && r.body.Success? && r.body.message.None?
    ensures r.body.data.items == items
    ensures var p := r.body.data.pagination;
      && p.page == (if page.Some? then page.value else 1)
      && p.limit == (if limit.Some? then limit.value else 10)
      && p.total == total
      && (p.limit >= 1 ==> p.totalPages.Pages? && (p.totalPages.n - 1) * p.limit < total <= p.totalPages.n * p.limit)
      && (p.limit >= 1 ==> (p.hasMore <==> p.page < p.totalPages.n))
  {
    var pg := if page.Some? then page.value else 1;
    var lim := if limit.Some? then limit.value else 10;
    var pages := TotalPages(total, lim);
    SuccessResponse(Paginated(items, Pagination(pg, lim, total, pages, HasMore(pg, pages))), None, None)
  }

  /** With nothing to list there are no pages and no page has more. */
  lemma EmptyListHasNoMore(page: int, limit: int)
    requires page >= 1 && limit >= 1
    ensures TotalPages(0, limit) == Pages(0)
    ensures !HasMore(page, TotalPages(0, limit))
  {
  }

  /** A query parameter as `parseInt(param || default)` sees it: absent (or
      empty, so the default applies), parsed to an integer, or not a number. */
  datatype QueryParam = Absent | Parsed(n: int) | Unparsable

  /** `Math.max(1, parseInt(page || '1'))`; `None` is NaN, which `Math.max`
      passes through. */
  function PageParam(p: QueryParam): (r: Option<int>)
    ensures p.Absent? ==> r == Some(1)
    ensures p.Parsed? ==> r == Some(if p.n < 1 then 1 else p.n)
    ensures p.Unparsable? <==> r.None?
  {
    match p
    case Absent => Some(1)
    case Parsed(n) => Some(if n < 1 then 1 else n)
    case Unparsable => None
  }

  /** `Math.max(1, Math.min(100, parseInt(limit || '10')))`. */
  function LimitParam(p: QueryParam): (r: Option<int>)
    ensures p.Absent? ==> r == Some(10)
    ensures p.Parsed? ==> r.Some? && 1 <= r.value <= 100
    ensures p.Parsed? && 1 <= p.n <= 100 ==> r == Some(p.n)
    ensures p.Parsed? && p.n < 1 ==> r == Some(1)
    ensures p.Parsed? && p.n > 100 ==> r == Some(100)
    ensures p.Unparsable? <==> r.None?
  {
    match p
    case Absent => Some(10)
    case Parsed(n) => Some(if n > 100 then 100 else if n < 1 then 1 else n)
    case Unparsable => None
  }

  /** A parsed limit always gives a finite page count. */
  lemma ParsedLimitGivesPages(p: QueryParam, total: int)
    requires p.Parsed? || p.Absent?
    ensures LimitParam(p).Some? && TotalPages(total, LimitParam(p).value).Pages?
  {
  }
}

=== FILE: csv.dfy ===
/** The CSV export: every table row becomes one line of fields, strings and
    nested objects are quoted with doubled inner quotes, and an empty table
    becomes the sentinel text "No Data". The model also carries a reader for
    the produced text, so that what the exporter writes is shown to be
    recoverable field by field. */
module Csv {
  import opened Js
  import opened Text

  /** How the runtime prints the values the exporter leaves unquoted or
      wraps: `String(n)` for numbers and `JSON.stringify` for objects and
      arrays. Their exact text is not modelled. */
  datatype Printers = Printers(number: real -> string, json: Value -> string)

  /** A number printed by the runtime never contains a separator or a quote. */
  ghost predicate PlainNumbers(p: Printers) {
    forall x: real :: BareSafe(p.number(x))
  }

  /** A table row: its columns in key order. */
  type Row = seq<(string, Value)>

  /** A field as written: bare text, or text between double quotes. */
  datatype Cell = Bare(text: string) | Quoted(text: string)

  /** Text that may stand unquoted: no separator, no line break, no quote. */
  predicate BareSafe(t: string) {
    ',' !in t && '\n' !in t && '"' !in t
  }

  predicate CellSafe(c: Cell) {
    c.Bare? ==> BareSafe(c.text)
  }

  /** `s.replace(/"/g, '""')`. */
  function Escape(s: string): (r: string)
    ensures |r| == |s| + Count(s, '"')
  {
    if s == [] then []
    else (if s[0] == '"' then "\"\"" else [s[0]]) + Escape(s[1..])
  }

  /** The field the root exporter writes for one value. */
  function CellOf(p: Printers, v: Value): (r: Cell)
    ensures r.Quoted? <==> v.Str? || v.Arr? || v.Obj?
    ensures v.Str? ==> r.text == v.s
    ensures v.Null? || v.Undefined? ==> r == Bare("")
  {
    match v
    case Null => Bare("")
    case Undefined => Bare("")
    case Arr(_) => Quoted(p.json(v))
    case Obj(_) => Quoted(p.json(v))
    case Str(s) => Quoted(s)
    case Num(x) => Bare(p.number(x))
    case Bool(b) => Bare(if b then "true" else "false")
  }

  /** The field the script exporter writes. It only blanks `null` and hands
      everything else that is not a string or object back as it is, so an
      undefined value reaches `join`, which prints it as empty text. */
  function ScriptCellOf(p: Printers, v: Value): (r: Cell)
    ensures r == CellOf(p, v)
  {
    if v.Null? then Bare("")
    else if v.Arr? || v.Obj? then Quoted(p.json(v))
    else if v.Str? then Quoted(v.s)
    else if v.Undefined? then Bare("")
    else if v.Num? then Bare(p.number(v.x))
    else Bare(if v.b then "true" else "false")
  }

  function Render(c: Cell): (r: string)
    ensures c.Bare? ==> r == c.text
    ensures c.Quoted? ==> |r| >= 2 && r[0] == '"' && r[|r| - 1] == '"'
  {
    match c
    case Bare(t) => t
    case Quoted(t) => "\"" + Escape(t) + "\""
  }

  function RenderAll(cells: seq<Cell>): (r: seq<string>)
    ensures |r| == |cells|
    ensures forall i :: 0 <= i < |cells| ==> r[i] == Render(cells[i])
  {
    if cells == [] then [] else [Render(cells[0])] + RenderAll(cells[1..])
  }

  /** One line: the rendered fields joined with commas. */
  function Line(cells: seq<Cell>): string {
    Join(RenderAll(cells), ",")
  }

  function Lines(rows: seq<seq<Cell>>): (r: seq<string>)
    ensures |r| == |rows|
    ensures forall i :: 0 <= i < |rows| ==> r[i] == Line(rows[i])
  {
    if rows == [] then [] else [Line(rows[0])] + Lines(rows[1..])
  }

  /** The whole file: the lines joined with line breaks. */
  function Document(rows: seq<seq<Cell>>): string {
    Join(Lines(rows), "\n")
  }

  /** `Object.keys(data[0])`, written bare. */
  function HeaderCells(row: Row): (r: seq<Cell>)
    ensures |r| == |row|
    ensures forall i :: 0 <= i < |row| ==> r[i] == Bare(row[i].0)
  {
    if row == [] then [] else [Bare(row[0].0)] + HeaderCells(row[1..])
  }

  /** `Object.values(row)`, one field per value. */
  function RecordCells(p: Printers, row: Row): (r: seq<Cell>)
    ensures |r| == |row|
    ensures forall i :: 0 <= i < |row| ==> r[i] == CellOf(p, row[i].1)
  {
    if row == [] then [] else [CellOf(p, row[0].1)] + RecordCells(p, row[1..])
  }

  function AllRecordCells(p: Printers, data: seq<Row>): (r: seq<seq<Cell>>)
    ensures |r| == |data|
    ensures forall i :: 0 <= i < |data| ==> r[i] == RecordCells(p, data[i])
  {
    if data == [] then [] else [RecordCells(p, data[0])] + AllRecordCells(p, data[1..])
  }

  const NoData := "No Data"

  /** The exporter: "No Data" for a missing or empty table, else the header
      line from the first row's keys followed by one line per row. */
  function ToCsv(p: Printers, data: Option<seq<Row>>): (r: string)
    ensures data.None? || data.value == [] ==> r == NoData
  {
    if data.None? || data.value == [] then NoData
    else Document([HeaderCells(data.value[0])] + AllRecordCells(p, data.value))
  }

  function ScriptRecordCells(p: Printers, row: Row): (r: seq<Cell>)
    ensures r == RecordCells(p, row)
  {
    if row == [] then [] else [ScriptCellOf(p, row[0].1)] + ScriptRecordCells(p, row[1..])
  }

  function ScriptAllRecordCells(p: Printers, data: seq<Row>): (r: seq<seq<Cell>>)
    ensures r == AllRecordCells(p, data)
  {
    if data == [] then [] else [ScriptRecordCells(p, data[0])] + ScriptAllRecordCells(p, data[1..])
  }

  /** The script's exporter. It checks only for a missing or empty table
      before writing, and writes each row with its own field rule; on every
      table it writes what the root exporter writes. */
  function ToCsvScript(p: Printers, data: Option<seq<Row>>): (r: string)
    ensures r == ToCsv(p, data)
  {
    if data.None? || |data.value| == 0 then NoData
    else Document([HeaderCells(data.value[0])] + ScriptAllRecordCells(p, data.value))
  }

  // ---------------------------------------------------------------------
  // Reading the text back

  /** The rest of a quoted field after its opening quote: its text, with
      doubled quotes undone, and what follows the closing quote. */
  function ReadQuoted(s: string): (r: Option<(string, string)>)
    ensures r.Some? ==> |r.value.1| < |s|
  {
    if s == [] then None
    else if s[0] == '"' then
      if |s| > 1 && s[1] == '"' then
        match ReadQuoted(s[2..])
        case None => None
        case Some(res) => Some(("\"" + res.0, res.1))
      else Some(([], s[1..]))
    else
      match ReadQuoted(s[1..])
      case None => None
      case Some(res) => Some(([s[0]] + res.0, res.1))
  }

  /** A bare field: everything up to the next comma or line break. */
  function ReadBare(s: string): (r: (string, string))
    ensures |r.1| <= |s|
    ensures r.0 + r.1 == s
  {
    if s == [] || s[0] == ',' || s[0] == '\n' then ([], s)
    else
      var res := ReadBare(s[1..]);
      assert ([s[0]] + res.0) + res.1 == [s[0]] + s[1..] == s;
      ([s[0]] + res.0, res.1)
  }

  function ReadCell(s: string): (r: Option<(Cell, string)>)
    ensures r.Some? ==> |r.value.1| <= |s|
  {
    if s != [] && s[0] == '"' then
      match ReadQuoted(s[1..])
      case None => None
      case Some(res) => Some((Quoted(res.0), res.1))
    else
      var res := ReadBare(s);
      Some((Bare(res.0), res.1))
  }

  /** The lines read after a comma, with `cell` put in front of the first. */
  function OnFirstLine(cell: Cell, lines: Option<seq<seq<Cell>>>): (r: Option<seq<seq<Cell>>>)
    ensures r.Some? <==> lines.Some?
  {
    match lines
    case None => None
    case Some(rows) => if rows == [] then Some([[cell]]) else Some([[cell] + rows[0]] + rows[1..])
  }

  /** Reads a whole file into its lines of fields; a field followed by
      anything but a comma, a line break or the end is malformed. */
  function ReadRows(s: string): (r: Option<seq<seq<Cell>>>)
    ensures r.Some? ==> |r.value| > 0 && |r.value[0]| > 0
    decreases |s|
  {
    match ReadCell(s)
    case None => None
    case Some(res) =>
      var (cell, rest) := res;
      if rest == [] then Some([[cell]])
      else if rest[0] == ',' then OnFirstLine(cell, ReadRows(rest[1..]))
      else if rest[0] == '\n' then
        match ReadRows(rest[1..])
        case None => None
        case Some(rows) => Some([[cell]] + rows)
      else None
  }

  /** What may follow a field: the end, a comma or a line break. */
  predicate FieldEnd(rest: string) {
    rest == [] || rest[0] == ',' || rest[0] == '\n'
  }

  /** Escaped text followed by the closing quote and `rest` reads back as
      the text, with `rest` left over. */
  lemma {:induction false} ReadQuotedEscape(t: string, rest: string)
    requires rest == [] || rest[0] != '"'
    ensures ReadQuoted(Escape(t) + ("\"" + rest)) == Some((t, rest))
  {
    if t == [] {
      assert Escape(t) + ("\"" + rest) == "\"" + rest;
    } else if t[0] == '"' {
      ReadQuotedEscape(t[1..], rest);
      ReadQuotedDoubled(t, "\"" + rest, rest);
    } else {
      ReadQuotedEscape(t[1..], rest);
      ReadQuotedPlain(t, "\"" + rest, rest);
    }
  }

  lemma ReadQuotedDoubled(t: string, tail: string, rest: string)
    requires t != [] && t[0] == '"'
    requires ReadQuoted(Escape(t[1..]) + tail) == Some((t[1..], rest))
    ensures ReadQuoted(Escape(t) + tail) == Some((t, rest))
  {
    var inner := Escape(t[1..]) + tail;
    EscapeCons(t, tail);
    assert (Escape(t) + tail)[2..] == inner;
    assert "\"" + t[1..] == t;
  }

  lemma ReadQuotedPlain(t: string, tail: string, rest: string)
    requires t != [] && t[0] != '"'
    requires ReadQuoted(Escape(t[1..]) + tail) == Some((t[1..], rest))
    ensures ReadQuoted(Escape(t) + tail) == Some((t, rest))
  {
    var inner := Escape(t[1..]) + tail;
    EscapeCons(t, tail);
    assert (Escape(t) + tail)[1..] == inner;
    assert [t[0]] + t[1..] == t;
  }

  /** The first character's escape, split off in front of a tail. */
  lemma EscapeCons(t: string, tail: string)
    requires t != []
    ensures Escape(t) + tail == (if t[0] == '"' then "\"\"" else [t[0]]) + (Escape(t[1..]) + tail)
  {
  }

  lemma {:induction false} ReadBareSafe(t: string, rest: string)
    requires BareSafe(t) && FieldEnd(rest)
    ensures ReadBare(t + rest) == (t, rest)
  {
    if t == [] {
      assert t + rest == rest;
    } else {
      assert t[0] in t;
      assert BareSafe(t[1..]) by {
        assert forall c :: c in t[1..] ==> c in t;
      }
      ReadBareSafe(t[1..], rest);
      assert (t + rest)[1..] == t[1..] + rest;
      assert [t[0]] + t[1..] == t;
    }
  }

  /** A rendered field reads back as itself. */
  lemma ReadRenderedCell(c: Cell, rest: string)
    requires CellSafe(c) && FieldEnd(rest)
    ensures ReadCell(Render(c) + rest) == Some((c, rest))
  {
    match c
    case Quoted(t) =>
      QuotedRenderCons(t, rest);
      assert (Render(c) + rest)[1..] == Escape(t) + ("\"" + rest);
      ReadQuotedEscape(t, rest);
    case Bare(t) =>
      ReadBareSafe(t, rest);
      if t != [] {
        assert t[0] in t;
      }
  }

  lemma QuotedRenderCons(t: string, rest: string)
    ensures Render(Quoted(t)) + rest == "\"" + (Escape(t) + ("\"" + rest))
  {
    AppendAssoc("\"" + Escape(t), "\"", rest);
    AppendAssoc("\"", Escape(t), "\"" + rest);
  }

  lemma AppendAssoc(a: string, b: string, c: string)
    ensures (a + b) + c == a + (b + c)
  {
  }

  /** The reader's verdict on a line followed by what comes after it. */
  function ThenRows(line: seq<Cell>, rest: string): Option<seq<seq<Cell>>>
    requires rest == [] || rest[0] == '\n'
  {
    if rest == [] then Some([line])
    else match ReadRows(rest[1..])
      case None => None
      case Some(rows) => Some([line] + rows)
  }

  lemma {:induction false} ReadLine(cells: seq<Cell>, rest: string)
    requires |cells| > 0
    requires forall i :: 0 <= i < |cells| ==> CellSafe(cells[i])
    requires rest == [] || rest[0] == '\n'
    ensures ReadRows(Line(cells) + rest) == ThenRows(cells, rest)
  {
    if |cells| == 1 {
      assert Line(cells) == Render(cells[0]);
      ReadRenderedCell(cells[0], rest);
      assert cells == [cells[0]];
    } else {
      ReadLine(cells[1..], rest);
      ReadLineCons(cells, rest);
    }
  }

  /** One more cell in front of a line that reads back reads back too. */
  lemma ReadLineCons(cells: seq<Cell>, rest: string)
    requires |cells| > 1 && CellSafe(cells[0])
    requires rest == [] || rest[0] == '\n'
    requires ReadRows(Line(cells[1..]) + rest) == ThenRows(cells[1..], rest)
    ensures ReadRows(Line(cells) + rest) == ThenRows(cells, rest)
  {
    LineCons(cells, rest);
    ReadRowsAfterCell(cells[0], Line(cells[1..]) + rest);
    ThenRowsCons(cells, rest);
  }

  /** A line of several fields is its first field, a comma and the rest. */
  lemma LineCons(cells: seq<Cell>, rest: string)
    requires |cells| > 1
    ensures Line(cells) + rest == Render(cells[0]) + ("," + (Line(cells[1..]) + rest))
  {
    var parts := RenderAll(cells);
    assert RenderAll(cells[1..]) == parts[1..];
    var head, more := parts[0], Join(parts[1..], ",");
    assert Join(parts, ",") == head + "," + more;
    assert head + "," + more + rest == head + ("," + (more + rest));
  }

  /** The expected rows with one more field in front of the first line. */
  lemma ThenRowsCons(cells: seq<Cell>, rest: string)
    requires |cells| > 1
    requires rest == [] || rest[0] == '\n'
    ensures ThenRows(cells, rest) == OnFirstLine(cells[0], ThenRows(cells[1..], rest))
  {
    assert [cells[0]] + cells[1..] == cells;
    if rest == [] {
      var one := [cells[1..]];
      assert one[0] == cells[1..] && one[1..] == [];
      assert [[cells[0]] + one[0]] + one[1..] == [cells];
    } else {
      match ReadRows(rest[1..])
      case None =>
      case Some(rows) =>
        var more := [cells[1..]] + rows;
        assert more[0] == cells[1..] && more[1..] == rows;
    }
  }

  /** A safe field followed by a comma reads as that field in front of the
      first line of what follows. */
  lemma ReadRowsAfterCell(c: Cell, tail: string)
    requires CellSafe(c)
    ensures ReadRows(Render(c) + ("," + tail)) == OnFirstLine(c, ReadRows(tail))
  {
    assert ("," + tail)[0] == ',';
    ReadRenderedCell(c, "," + tail);
    ReadAfterComma(Render(c) + ("," + tail), c, tail);
  }

  lemma ReadAfterComma(s: string, cell: Cell, tail: string)
    requires ReadCell(s) == Some((cell, "," + tail))
    ensures ReadRows(s) == OnFirstLine(cell, ReadRows(tail))
  {
    assert ("," + tail)[0] == ',' && ("," + tail)[1..] == tail;
  }

  /** Lines the reader can recover: each has a field, and each field may be
      written as it is. */
  predicate Readable(rows: seq<seq<Cell>>) {
    && (forall i :: 0 <= i < |rows| ==> |rows[i]| > 0)
    && forall i, j :: 0 <= i < |rows| && 0 <= j < |rows[i]| ==> CellSafe(rows[i][j])
  }

  /** A document written from non-empty lines of safe fields reads back as
      exactly those lines. */
  lemma {:induction false} ReadDocument(rows: seq<seq<Cell>>)
    requires |rows| > 0 && Readable(rows)
    ensures ReadRows(Document(rows)) == Some(rows)
  {
    if |rows| == 1 {
      assert Document(rows) + [] == Line(rows[0]);
      ReadLine(rows[0], []);
      assert rows == [rows[0]];
    } else {
      var tail := Document(rows[1..]);
      DocumentCons(rows);
      ReadLine(rows[0], "\n" + tail);
      assert ("\n" + tail)[1..] == tail;
      ReadDocument(rows[1..]);
      assert [rows[0]] + rows[1..] == rows;
    }
  }

  lemma DocumentCons(rows: seq<seq<Cell>>)
    requires |rows| > 1
    ensures Document(rows) == Line(rows[0]) + ("\n" + Document(rows[1..]))
  {
    assert Lines(rows[1..]) == Lines(rows)[1..];
    AppendAssoc(Line(rows[0]), "\n", Document(rows[1..]));
  }

  /** Column names may stand bare when they hold no separator or quote. */
  predicate PlainKeys(row: Row) {
    forall i :: 0 <= i < |row| ==> BareSafe(row[i].0)
  }

  /** The export round trip: a non-empty table whose rows have columns and
      whose column names are plain reads back as the header line followed by
      each row's fields, every string and nested value intact. */
  lemma ExportReadsBack(p: Printers, data: seq<Row>)
    requires PlainNumbers(p)
    requires |data| > 0 && PlainKeys(data[0])
    requires forall i :: 0 <= i < |data| ==> |data[i]| > 0
    ensures ReadRows(ToCsv(p, Some(data))) == Some([HeaderCells(data[0])] + AllRecordCells(p, data))
  {
    var rows := [HeaderCells(data[0])] + AllRecordCells(p, data);
    assert ToCsv(p, Some(data)) == Document(rows);
    ExportedCellsSafe(p, data);
    ReadDocument(rows);
  }

  /** Every field the exporter writes can be read back: a header field is a
      plain key and a bare value is a printed number or nothing. */
  lemma ExportedCellsSafe(p: Printers, data: seq<Row>)
    requires PlainNumbers(p)
    requires |data| > 0 && PlainKeys(data[0])
    requires forall i :: 0 <= i < |data| ==> |data[i]| > 0
    ensures Readable([HeaderCells(data[0])] + AllRecordCells(p, data))
  {
    var rows := [HeaderCells(data[0])] + AllRecordCells(p, data);
    forall i, j | 0 <= i < |rows| && 0 <= j < |rows[i]| ensures CellSafe(rows[i][j]) {
      if i == 0 {
        assert rows[0] == HeaderCells(data[0]);
      } else {
        assert rows[i] == RecordCells(p, data[i - 1]);
        RecordCellSafe(p, data[i - 1], j);
      }
    }
  }

  lemma RecordCellSafe(p: Printers, row: Row, j: int)
    requires PlainNumbers(p) && 0 <= j < |row|
    ensures CellSafe(RecordCells(p, row)[j])
  {
    var v := row[j].1;
    if v.Num? {
      assert BareSafe(p.number(v.x));
    }
  }


  /** A string value and an empty value stay apart in the file: the empty
      string is written as a pair of quotes, null as nothing. */
  lemma EmptyStringIsNotNull(p: Printers)
    ensures Render(CellOf(p, Str(""))) == "\"\""
    ensures Render(CellOf(p, Null)) == ""
  {
  }

  /** The sentinel cannot be mistaken for an export: any non-empty table
      produces at least two lines. */
  lemma NoDataOnlyForEmptyTables(p: Printers, data: Option<seq<Row>>)
    ensures ToCsv(p, data) == NoData <==> data.None? || data.value == []
  {
    if data.Some? && data.value != [] {
      var rows := [HeaderCells(data.value[0])] + AllRecordCells(p, data.value);
      var ls := Lines(rows);
      assert |ls| >= 2;
      assert ToCsv(p, data) == ls[0] + "\n" + Join(ls[1..], "\n");
      assert ToCsv(p, data)[|ls[0]|] == '\n';
      assert '\n' !in NoData;
    }
  }
}

=== FILE: dashboard.dfy ===
/** The dashboard endpoint: counts over the signed-in user's records, the
    response rate of their invites, and the one next step to suggest. */
module Dashboard {
  import opened Js
  import opened Records
  import Feedback
  import Invites
  import RateLimit

  datatype PrimaryAction = NoSurvey | NoInvite | WaitingFeedback | HasFeedback

  /** The invites a user created, in table order. */
  function Mine(invites: seq<Invite>, u: string): (r: seq<Invite>)
    ensures |r| <= |invites|
    ensures forall i :: 0 <= i < |r| ==> r[i].creatorId == u
    ensures forall x :: x in r <==> x in invites && x.creatorId == u
  {
    if invites == [] then []
    else (if invites[0].creatorId == u then [invites[0]] else []) + Mine(invites[1..], u)
  }

  /** The feedbacks about a user, in table order. */
  function About(feedbacks: seq<PeerFeedback>, u: string): (r: seq<PeerFeedback>)
    ensures |r| <= |feedbacks|
    ensures forall i :: 0 <= i < |r| ==> r[i].userId == u
    ensures forall x :: x in r <==> x in feedbacks && x.userId == u
  {
    if feedbacks == [] then []
    else (if feedbacks[0].userId == u then [feedbacks[0]] else []) + About(feedbacks[1..], u)
  }

  /** `invites.reduce((sum, inv) => sum + inv.maxUses, 0)`. */
  function SumMaxUses(invites: seq<Invite>): int {
    if invites == [] then 0 else invites[0].maxUses + SumMaxUses(invites[1..])
  }

  /** `invites.reduce((sum, inv) => sum + inv.usedCount, 0)`. */
  function SumUsed(invites: seq<Invite>): nat {
    if invites == [] then 0 else invites[0].usedCount + SumUsed(invites[1..])
  }

  /** `Math.round(responseCount / totalInvited * 100)` when something was
      offered, else 0: the integer nearest to the percentage, halves rounding
      up, computed exactly. */
  function ResponseRate(responseCount: int, totalInvited: int): (r: int)
    ensures totalInvited <= 0 ==> r == 0
    ensures totalInvited > 0 ==>
      (2 * r - 1) * totalInvited <= 200 * responseCount < (2 * r + 1) * totalInvited
  {
    if totalInvited > 0 then (200 * responseCount + totalInvited) / (2 * totalInvited) else 0
  }

  /** The next step to suggest, in priority order. */
  function ChoosePrimaryAction(hasSelfSurvey: bool, inviteCount: nat, feedbackCount: nat): (r: PrimaryAction)
    ensures r == NoSurvey <==> !hasSelfSurvey
    ensures r == NoInvite <==> hasSelfSurvey && inviteCount == 0
    ensures r == WaitingFeedback <==> hasSelfSurvey && inviteCount > 0 && feedbackCount == 0
    ensures r == HasFeedback <==> hasSelfSurvey && inviteCount > 0 && feedbackCount > 0
  {
    if !hasSelfSurvey then NoSurvey
    else if inviteCount == 0 then NoInvite
    else if feedbackCount == 0 then WaitingFeedback
    else HasFeedback
  }

  datatype Stats = Stats(friendCount: nat, feedbackCount: nat, letterCount: nat, inviteCount: nat)

  datatype Activity = Activity(
    hasSelfSurvey: bool, feedbackCount: nat, totalInvited: int, responseCount: nat,
    responseRate: int, primaryAction: PrimaryAction)

  /** The dashboard answer: 401 without a signed-in user id, else the
      numbers. Friend and letter counts are plain counting queries and come
      in as numbers. */
  datatype DashboardResult = Unauthorized | Summary(stats: Stats, activity: Activity)

  /** The GET handler for the session's user id. A missing or empty id is
      unauthorized and nothing is computed. */
  function GetDashboard(session: Option<string>, surveys: seq<SurveyResponse>, feedbacks: seq<PeerFeedback>,
                        invites: seq<Invite>, friendCount: nat, letterCount: nat): (r: DashboardResult)
    ensures r.Unauthorized? <==> session.None? || session.value == ""
    ensures r.Summary? ==>
      var u := session.value;
      var a := r.activity;
      && a.hasSelfSurvey == (exists i :: 0 <= i < |surveys| && surveys[i].userId == u)
      && a.feedbackCount == r.stats.feedbackCount == |About(feedbacks, u)|
      && r.stats.inviteCount == |Mine(invites, u)|
      && a.totalInvited == SumMaxUses(Mine(invites, u))
      && a.responseCount == SumUsed(Mine(invites, u))
      && a.responseRate == ResponseRate(a.responseCount, a.totalInvited)
      && a.primaryAction == ChoosePrimaryAction(a.hasSelfSurvey, r.stats.inviteCount, a.feedbackCount)
      && r.stats.friendCount == friendCount && r.stats.letterCount == letterCount
  {
    if session.None? || session.value == "" then Unauthorized
    else
      var u := session.value;
      var hasSelfSurvey := exists i | 0 <= i < |surveys| :: surveys[i].userId == u;
      var mine := Mine(invites, u);
      var feedbackCount := |About(feedbacks, u)|;
      var totalInvited := SumMaxUses(mine);
      var responseCount := SumUsed(mine);
      Summary(Stats(friendCount, feedbackCount, letterCount, |mine|),
              Activity(hasSelfSurvey, feedbackCount, totalInvited, responseCount,
                       ResponseRate(responseCount, totalInvited),
                       ChoosePrimaryAction(hasSelfSurvey, |mine|, feedbackCount)))
  }

  /** The reductions add up over any split of the invite list: each is the sum
      of its field over the invites, whatever their order of arrival. */
  lemma {:induction false} SumsAppend(a: seq<Invite>, b: seq<Invite>)
    ensures SumMaxUses(a + b) == SumMaxUses(a) + SumMaxUses(b)
    ensures SumUsed(a + b) == SumUsed(a) + SumUsed(b)
  {
    if a != [] {
      assert (a + b)[1..] == a[1..] + b;
      SumsAppend(a[1..], b);
    } else {
      assert a + b == b;
    }
  }

  /** Invites used within their maximum sum to a response count within the
      number offered. */
  lemma {:induction false} UsedWithinOffered(invites: seq<Invite>)
    requires Feedback.UsesWithinMax(invites)
    ensures SumUsed(invites) <= SumMaxUses(invites)
  {
    if invites != [] {
      assert Feedback.UsesWithinMax(invites[1..]) by {
        forall i | 0 <= i < |invites[1..]| ensures invites[1..][i].usedCount <= invites[1..][i].maxUses {
          assert invites[1..][i] == invites[i + 1];
        }
      }
      UsedWithinOffered(invites[1..]);
    }
  }

  lemma {:induction false} MineKeepsInvariant(invites: seq<Invite>, u: string)
    requires Feedback.UsesWithinMax(invites)
    ensures Feedback.UsesWithinMax(Mine(invites, u))
  {
    if invites != [] {
      assert Feedback.UsesWithinMax(invites[1..]) by {
        forall i | 0 <= i < |invites[1..]| ensures invites[1..][i].usedCount <= invites[1..][i].maxUses {
          assert invites[1..][i] == invites[i + 1];
        }
      }
      MineKeepsInvariant(invites[1..], u);
    }
  }

  /** A response count within the number offered rounds to a percentage. */
  lemma RateBound(responseCount: nat, totalInvited: int)
    requires responseCount <= totalInvited
    ensures 0 <= ResponseRate(responseCount, totalInvited) <= 100
  {
    if totalInvited > 0 {
      var r := ResponseRate(responseCount, totalInvited);
      assert 200 * responseCount <= 200 * totalInvited;
      ScaleCancels(2 * r - 1, 200, totalInvited);
      ScaleCancels(0, 2 * r + 1, totalInvited);
    }
  }

  /** Dividing both sides of an inequality by the same positive factor. */
  lemma ScaleCancels(a: int, b: int, t: int)
    requires t > 0 && a * t <= b * t
    ensures a <= b
  {
  }

  /** While every invite is within its maximum, the response rate is a
      percentage between 0 and 100. */
  lemma RateIsPercentage(session: Option<string>, surveys: seq<SurveyResponse>, feedbacks: seq<PeerFeedback>,
                         invites: seq<Invite>, friendCount: nat, letterCount: nat)
    requires Feedback.UsesWithinMax(invites)
    ensures var r := GetDashboard(session, surveys, feedbacks, invites, friendCount, letterCount);
      r.Summary? ==> 0 <= r.activity.responseRate <= 100
  {
    if session.Some? && session.value != "" {
      MineKeepsInvariant(invites, session.value);
      UsedWithinOffered(Mine(invites, session.value));
      RateBound(SumUsed(Mine(invites, session.value)), SumMaxUses(Mine(invites, session.value)));
    }
  }

  lemma MineUnfold(invites: seq<Invite>, u: string)
    requires invites != []
    ensures var mine := if invites[0].creatorId == u then 1 else 0;
      && |Mine(invites, u)| == mine + |Mine(invites[1..], u)|
      && SumMaxUses(Mine(invites, u)) == mine * invites[0].maxUses + SumMaxUses(Mine(invites[1..], u))
      && SumUsed(Mine(invites, u)) == mine * invites[0].usedCount + SumUsed(Mine(invites[1..], u))
  {
    var rest := Mine(invites[1..], u);
    if invites[0].creatorId == u {
      assert ([invites[0]] + rest)[1..] == rest;
    } else {
      assert [] + rest == rest;
    }
  }

  /** Changing one invite's use counter, and nothing else about it, changes
      its creator's totals by the difference and nobody else's. */
  lemma {:induction false} UpdateInviteSums(invites: seq<Invite>, i: nat, used: nat, u: string)
    requires i < |invites|
    ensures var updated := invites[i := invites[i].(usedCount := used)];
      && |Mine(updated, u)| == |Mine(invites, u)|
      && SumMaxUses(Mine(updated, u)) == SumMaxUses(Mine(invites, u))
      && SumUsed(Mine(updated, u)) + (if invites[i].creatorId == u then invites[i].usedCount else 0)
         == SumUsed(Mine(invites, u)) + (if invites[i].creatorId == u then used else 0)
  {
    var updated := invites[i := invites[i].(usedCount := used)];
    MineUnfold(invites, u);
    MineUnfold(updated, u);
    if i == 0 {
      assert updated[1..] == invites[1..];
    } else {
      assert updated[0] == invites[0];
      assert updated[1..] == invites[1..][i - 1 := invites[i].(usedCount := used)];
      UpdateInviteSums(invites[1..], i - 1, used, u);
    }
  }

  lemma {:induction false} AboutAppend(feedbacks: seq<PeerFeedback>, f: PeerFeedback, u: string)
    ensures About(feedbacks + [f], u) == About(feedbacks, u) + (if f.userId == u then [f] else [])
  {
    if feedbacks == [] {
      assert feedbacks + [f] == [f];
    } else {
      assert (feedbacks + [f])[1..] == feedbacks[1..] + [f];
      AboutAppend(feedbacks[1..], f, u);
    }
  }

  /** An accepted submission shows on its invite creator's dashboard as one
      more feedback and one more response against the same number offered,
      and leaves every other user's numbers as they were. */
  lemma AcceptedFeedbackReachesDashboard(st: Feedback.State, body: Value, now: int, u: string)
    requires Feedback.Submit(st, body, now).response.status == 200
    ensures var st' := Feedback.Submit(st, body, now).state;
      var creator := st.invites[Feedback.Target(st, Feedback.InviteCode(body)).value].creatorId;
      && |About(st'.feedbacks, u)| == |About(st.feedbacks, u)| + (if u == creator then 1 else 0)
      && SumUsed(Mine(st'.invites, u)) == SumUsed(Mine(st.invites, u)) + (if u == creator then 1 else 0)
      && SumMaxUses(Mine(st'.invites, u)) == SumMaxUses(Mine(st.invites, u))
      && |Mine(st'.invites, u)| == |Mine(st.invites, u)|
  {
    var code := Feedback.InviteCode(body);
    assert Feedback.PassesValidation(body) && Feedback.LimitCheck(st, code, now).0.allowed;
    var limits := Feedback.LimitCheck(st, code, now).1;
    AcceptedLookupReachesDashboard(st, limits, code, body, now, u);
  }

  /** The same for the steps after the rate limiter, once it let the body in. */
  lemma AcceptedLookupReachesDashboard(st: Feedback.State, limits: map<string, RateLimit.Window>, code: string,
                                       body: Value, now: int, u: string)
    requires Feedback.Lookup(st, limits, code, body, now).response.status == 200
    ensures var st' := Feedback.Lookup(st, limits, code, body, now).state;
      var creator := st.invites[Feedback.Target(st, code).value].creatorId;
      && |About(st'.feedbacks, u)| == |About(st.feedbacks, u)| + (if u == creator then 1 else 0)
      && SumUsed(Mine(st'.invites, u)) == SumUsed(Mine(st.invites, u)) + (if u == creator then 1 else 0)
      && SumMaxUses(Mine(st'.invites, u)) == SumMaxUses(Mine(st.invites, u))
      && |Mine(st'.invites, u)| == |Mine(st.invites, u)|
  {
    var i := Feedback.Target(st, code).value;
    var st' := Feedback.Lookup(st, limits, code, body, now).state;
    OneMoreUse(st.invites, st.feedbacks, i, Feedback.NewFeedback(st.invites[i], body), st'.invites, st'.feedbacks, u);
  }

  /** One more feedback about an invite's creator, and one more use of that
      invite, raise the creator's feedback and response counts by one. */
  lemma OneMoreUse(invites: seq<Invite>, feedbacks: seq<PeerFeedback>, i: nat, fb: PeerFeedback,
                   invites': seq<Invite>, feedbacks': seq<PeerFeedback>, u: string)
    requires i < |invites| && fb.userId == invites[i].creatorId
    requires invites' == invites[i := invites[i].(usedCount := invites[i].usedCount + 1)]
    requires feedbacks' == feedbacks + [fb]
    ensures |About(feedbacks', u)| == |About(feedbacks, u)| + (if u == invites[i].creatorId then 1 else 0)
    ensures SumUsed(Mine(invites', u)) == SumUsed(Mine(invites, u)) + (if u == invites[i].creatorId then 1 else 0)
    ensures SumMaxUses(Mine(invites', u)) == SumMaxUses(Mine(invites, u))
    ensures |Mine(invites', u)| == |Mine(invites, u)|
  {
    AboutAppend(feedbacks, fb, u);
    UpdateInviteSums(invites, i, invites[i].usedCount + 1, u);
  }
}

=== FILE: discover.dfy ===
/** The discover endpoint: scoring a self survey into six radar dimensions,
    and laying the peer view over the stored self view. */
module Discover {
  import opened Js
  import opened Records
  import opened SurveyQuestions

  datatype Dimension = Resilience | Pride | Influence | Belonging | Potential | Growth

  /** The six dimensions in chart order. */
  const Dimensions: seq<Dimension> := [Resilience, Pride, Influence, Belonging, Potential, Growth]

  /** The chart labels. */
  const ResilienceLabel: string := "회복탄력성"
  const PrideLabel: string := "성취자부심"
  const InfluenceLabel: string := "긍정적 영향"
  const BelongingLabel: string := "소속감"
  const PotentialLabel: string := "잠재력"
  const GrowthLabel: string := "성장기대"

  /** The chart label of a dimension. */
  function Subject(d: Dimension): string {
    match d
    case Resilience => ResilienceLabel
    case Pride => PrideLabel
    case Influence => InfluenceLabel
    case Belonging => BelongingLabel
    case Potential => PotentialLabel
    case Growth => GrowthLabel
  }

  /** The `switch (item.subject)` of the peer update: the dimension a stored
      chart label names, if any. */
  function DimensionOf(subject: string): (r: Option<Dimension>)
    ensures r.Some? ==> Subject(r.value) == subject
  {
    if subject == ResilienceLabel then Some(Resilience)
    else if subject == PrideLabel then Some(Pride)
    else if subject == InfluenceLabel then Some(Influence)
    else if subject == BelongingLabel then Some(Belonging)
    else if subject == PotentialLabel then Some(Potential)
    else if subject == GrowthLabel then Some(Growth)
    else None
  }

  /** Every label is recognised by the switch as its own dimension, so the
      six labels are distinct. */
  lemma SubjectRoundTrip(d: Dimension)
    ensures DimensionOf(Subject(d)) == Some(d)
  {
  }

  // ----- self view -----

  /** `getScore`: a numeric answer reads as itself; an absent key or any other
      kind of value (a string, an array, null) reads as the midpoint 3. */
  function GetScore(answers: Value, key: string): (r: real)
    ensures (key in SelfKeys(answers) && answers.fields[key].Num?) ==> r == answers.fields[key].x
    ensures !(key in SelfKeys(answers) && answers.fields[key].Num?) ==> r == 3.0
  {
    match Field(answers, key)
    case Num(x) => x
    case _ => 3.0
  }

  /** The keys present in an answers object (none for anything else). */
  function SelfKeys(answers: Value): set<string> {
    if answers.Obj? then answers.fields.Keys else {}
  }

  /** The self score of one dimension. */
  function SelfScore(answers: Value, d: Dimension): real {
    match d
    case Resilience => GetScore(answers, Basic1Id)
    case Pride => (GetScore(answers, Past1Id) + GetScore(answers, Past2Id)) / 2.0
    case Influence => GetScore(answers, Present1Id)
    case Belonging => (GetScore(answers, Present2Id) + GetScore(answers, PresentSelectId)) / 2.0
    case Potential => GetScore(answers, Future1Id)
    case Growth => GetScore(answers, Future2Id)
  }

  /** The radar of a self survey: six items in chart order, each with full
      mark 5 and no peer score yet. */
  function SelfRadar(answers: Value): (r: seq<RadarItem>)
    ensures |r| == 6
    ensures forall i :: 0 <= i < 6 ==>
      r[i] == RadarItem(Subject(Dimensions[i]), SelfScore(answers, Dimensions[i]), 5.0, None)
  {
    seq(6, i requires 0 <= i < 6 => RadarItem(Subject(Dimensions[i]), SelfScore(answers, Dimensions[i]), 5.0, None))
  }

  /** The eight keys the self formulas read. */
  const SelfScoreKeys: seq<string> :=
    [Basic1Id, Past1Id, Past2Id, Present1Id, Present2Id, PresentSelectId, Future1Id, Future2Id]

  /** An answer that reads as a score in [1, 5]: absent, not a number, or a
      number between 1 and 5. */
  predicate ReadsInScale(answers: Value, key: string) {
    var v := Field(answers, key);
    !v.Num? || 1.0 <= v.x <= 5.0
  }

  /** When every key the formulas read is absent, non-numeric or in [1, 5],
      every self score lies in [1, 5]. */
  lemma SelfScoresInScale(answers: Value)
    requires forall i :: 0 <= i < |SelfScoreKeys| ==> ReadsInScale(answers, SelfScoreKeys[i])
    ensures forall i :: 0 <= i < 6 ==> 1.0 <= SelfRadar(answers)[i].a <= 5.0
  {
    forall i | 0 <= i < |SelfScoreKeys|
      ensures 1.0 <= GetScore(answers, SelfScoreKeys[i]) <= 5.0
    {
      assert ReadsInScale(answers, SelfScoreKeys[i]);
    }
    var g := (k: string) => GetScore(answers, k);
    assert 1.0 <= g(SelfScoreKeys[0]) <= 5.0;
    assert 1.0 <= g(SelfScoreKeys[1]) <= 5.0;
    assert 1.0 <= g(SelfScoreKeys[2]) <= 5.0;
    assert 1.0 <= g(SelfScoreKeys[3]) <= 5.0;
    assert 1.0 <= g(SelfScoreKeys[4]) <= 5.0;
    assert 1.0 <= g(SelfScoreKeys[5]) <= 5.0;
    assert 1.0 <= g(SelfScoreKeys[6]) <= 5.0;
    assert 1.0 <= g(SelfScoreKeys[7]) <= 5.0;
  }

  /** The free-text and choice answers of the repository's discover test
      scenario. */
  const ExampleChoice: string := "나의 노력과 역량"
  const ExamplePastText: string := "프로젝트를 성공적으로 완료했을 때"
  const ExamplePresentText: string := "항상 긍정적으로 대해줘서"
  const ExampleFutureText: string := "새로운 언어를 배우고 싶다"

  /** The answers of the repository's discover test scenario. */
  function ExampleAnswers(): Value {
    Obj(map[
      Basic1Id := Num(4.0), Past1Id := Num(5.0), Past2Id := Num(4.0),
      PastSelectId := StrArr([ExampleChoice]), PastTextId := Str(ExamplePastText),
      Present1Id := Num(4.0), Present2Id := Num(3.0), PresentSelectId := Num(4.0),
      PresentTextId := Str(ExamplePresentText),
      Future1Id := Num(5.0), Future2Id := Num(4.0), FutureTextId := Str(ExampleFutureText)])
  }

  /** The test scenario scores [4, 4.5, 4, 3.5, 5, 4]. */
  lemma SelfRadarExample()
    ensures var r := SelfRadar(ExampleAnswers());
      r[0].a == 4.0 && r[1].a == 4.5 && r[2].a == 4.0 && r[3].a == 3.5 && r[4].a == 5.0 && r[5].a == 4.0
  {
    SelfRadarReads(ExampleAnswers());
    ExamplePastReads();
    ExampleLaterReads();
  }

  /** Each radar item in terms of the answers it reads. */
  lemma SelfRadarReads(answers: Value)
    ensures var r := SelfRadar(answers);
      && r[0].a == GetScore(answers, Basic1Id)
      && r[1].a == (GetScore(answers, Past1Id) + GetScore(answers, Past2Id)) / 2.0
      && r[2].a == GetScore(answers, Present1Id)
      && r[3].a == (GetScore(answers, Present2Id) + GetScore(answers, PresentSelectId)) / 2.0
      && r[4].a == GetScore(answers, Future1Id)
      && r[5].a == GetScore(answers, Future2Id)
  {
    var r := SelfRadar(answers);
    assert r[0].a == SelfScore(answers, Dimensions[0]);
    assert r[1].a == SelfScore(answers, Dimensions[1]);
    assert r[2].a == SelfScore(answers, Dimensions[2]);
    assert r[3].a == SelfScore(answers, Dimensions[3]);
    assert r[4].a == SelfScore(answers, Dimensions[4]);
    assert r[5].a == SelfScore(answers, Dimensions[5]);
  }

  /** The scenario's answers to the first three scale questions. */
  lemma ExamplePastReads()
    ensures GetScore(ExampleAnswers(), Basic1Id) == 4.0
    ensures GetScore(ExampleAnswers(), Past1Id) == 5.0
    ensures GetScore(ExampleAnswers(), Past2Id) == 4.0
  {
  }

  /** The scenario's answers to the other five scale questions. */
  lemma ExampleLaterReads()
    ensures GetScore(ExampleAnswers(), Present1Id) == 4.0
    ensures GetScore(ExampleAnswers(), Present2Id) == 3.0
    ensures GetScore(ExampleAnswers(), PresentSelectId) == 4.0
    ensures GetScore(ExampleAnswers(), Future1Id) == 5.0
    ensures GetScore(ExampleAnswers(), Future2Id) == 4.0
  {
  }

  /** What the self-survey submission returns: the radar it stored, or the
      500 "Failed to save survey" when reading the answers throws. */
  datatype SelfSubmission = Saved(radar: seq<RadarItem>, record: SurveyResponse) | SaveFailed

  /** The mock user every self submission is stored for. */
  const MockUserId := "1"

  /** The POST handler. Destructuring a `null` or `undefined` body throws, and
      so does reading a key of `null` or `undefined` answers; both end in the
      catch. Otherwise the radar is scored and stored with the raw answers. */
  const AnswersKey: string := "answers"

  function SubmitSelfSurvey(body: Value): (r: SelfSubmission)
    ensures (body.Null? || body.Undefined?) ==> r == SaveFailed
    ensures r.SaveFailed? <==> body.Null? || body.Undefined? || Field(body, AnswersKey).Null? || Field(body, AnswersKey).Undefined?
    ensures r.Saved? ==>
      && r.radar == SelfRadar(Field(body, AnswersKey))
      && r.radar == r.record.radar && r.record.answers == Field(body, AnswersKey)
      && r.record.userId == MockUserId && |r.radar| == 6
  {
    if body.Null? || body.Undefined? then SaveFailed
    else
      var answers := Field(body, AnswersKey);
      if answers.Null? || answers.Undefined? then SaveFailed
      else
        var radar := SelfRadar(answers);
        Saved(radar, SurveyResponse(MockUserId, radar, answers))
  }

  // ----- peer view -----

  /** `scores[key] || 0`: a number reads as itself, and an absent key or any
      other falsy value as 0. */
  function PeerRead(scores: Value, key: string): (r: real)
    ensures Field(scores, key).Num? ==> r == Field(scores, key).x
    ensures !Truthy(Field(scores, key)) ==> r == 0.0
  {
    var v := Field(scores, key);
    if v.Num? then v.x else 0.0
  }

  /** One respondent's contribution to a dimension. Unlike the self formula,
      resilience reads `past1`, pride reads `past2` alone, and `basic1` is not
      read at all. */
  function PeerScore(scores: Value, d: Dimension): real {
    match d
    case Resilience => PeerRead(scores, Past1Id)
    case Pride => PeerRead(scores, Past2Id)
    case Influence => PeerRead(scores, Present1Id)
    case Belonging => (PeerRead(scores, Present2Id) + PeerRead(scores, PresentSelectId)) / 2.0
    case Potential => PeerRead(scores, Future1Id)
    case Growth => PeerRead(scores, Future2Id)
  }

  /** The running total of a dimension over the feedbacks. */
  function Total(fbs: seq<PeerFeedback>, d: Dimension): real {
    if fbs == [] then 0.0 else PeerScore(fbs[0].scores, d) + Total(fbs[1..], d)
  }

  /** The totals add up over a split of the feedback list. */
  lemma {:induction false} TotalAppend(a: seq<PeerFeedback>, b: seq<PeerFeedback>, d: Dimension)
    ensures Total(a + b, d) == Total(a, d) + Total(b, d)
  {
    if a == [] {
      assert a + b == b;
    } else {
      assert (a + b)[1..] == a[1..] + b;
      TotalAppend(a[1..], b, d);
    }
  }

  /** The seven keys the peer formulas read. */
  const PeerScoreKeys: seq<string> :=
    [Past1Id, Past2Id, Present1Id, Present2Id, PresentSelectId, Future1Id, Future2Id]

  /** Every number under a key the peer formulas read lies in [0, 5]. */
  predicate PeerScoresInRange(scores: Value) {
    forall i :: 0 <= i < |PeerScoreKeys| ==> Field(scores, PeerScoreKeys[i]).Num? ==> 0.0 <= Field(scores, PeerScoreKeys[i]).x <= 5.0
  }

  /** A respondent whose read scores are in [0, 5] contributes a value in
      [0, 5] to every dimension. */
  lemma PeerScoreInRange(scores: Value, d: Dimension)
    requires PeerScoresInRange(scores)
    ensures 0.0 <= PeerScore(scores, d) <= 5.0
  {
    forall i | 0 <= i < |PeerScoreKeys|
      ensures 0.0 <= PeerRead(scores, PeerScoreKeys[i]) <= 5.0
    {
    }
    assert PeerScoreKeys[0] == Past1Id && PeerScoreKeys[1] == Past2Id && PeerScoreKeys[2] == Present1Id;
    assert PeerScoreKeys[3] == Present2Id && PeerScoreKeys[4] == PresentSelectId;
    assert PeerScoreKeys[5] == Future1Id && PeerScoreKeys[6] == Future2Id;
  }

  /** Over N respondents with read scores in [0, 5], a total lies in [0, 5N]. */
  lemma {:induction false} TotalInRange(fbs: seq<PeerFeedback>, d: Dimension)
    requires forall i :: 0 <= i < |fbs| ==> PeerScoresInRange(fbs[i].scores)
    ensures 0.0 <= Total(fbs, d) <= 5.0 * |fbs| as real
  {
    if fbs != [] {
      PeerScoreInRange(fbs[0].scores, d);
      TotalInRange(fbs[1..], d);
    }
  }

  /** The peer score written into one stored radar item when there is at
      least one feedback: the dimension's total over N, or 0 for a label the
      switch does not know. The other fields are kept. */
  function WithPeerScore(item: RadarItem, fbs: seq<PeerFeedback>): (r: RadarItem)
    requires |fbs| > 0
    ensures r.subject == item.subject && r.a == item.a && r.fullMark == item.fullMark
  {
    var b := match DimensionOf(item.subject)
      case Some(d) => Total(fbs, d) / |fbs| as real
      case None => 0.0;
    item.(b := Some(b))
  }

  /** The peer view laid over a stored radar: with no feedback every item gets
      B = 0; otherwise each known dimension gets its unrounded mean. */
  function PeerRadar(radar: seq<RadarItem>, fbs: seq<PeerFeedback>): (r: seq<RadarItem>)
    ensures |r| == |radar|
    ensures forall i :: 0 <= i < |r| ==>
      r[i].subject == radar[i].subject && r[i].a == radar[i].a && r[i].fullMark == radar[i].fullMark
    ensures fbs == [] ==> forall i :: 0 <= i < |r| ==> r[i].b == Some(0.0)
    ensures fbs != [] ==> forall i :: 0 <= i < |r| ==>
      r[i].b == Some(if DimensionOf(radar[i].subject).Some?
                     then Total(fbs, DimensionOf(radar[i].subject).value) / |fbs| as real
                     else 0.0)
  {
    if fbs == [] then seq(|radar|, i requires 0 <= i < |radar| => radar[i].(b := Some(0.0)))
    else seq(|radar|, i requires 0 <= i < |radar| => WithPeerScore(radar[i], fbs))
  }

  /** If every respondent's read scores lie in [0, 5], every peer score of
      the overlaid radar lies in [0, 5]. */
  lemma PeerRadarInRange(radar: seq<RadarItem>, fbs: seq<PeerFeedback>)
    requires forall i :: 0 <= i < |fbs| ==> PeerScoresInRange(fbs[i].scores)
    ensures forall i :: 0 <= i < |radar| ==>
      PeerRadar(radar, fbs)[i].b.Some? && 0.0 <= PeerRadar(radar, fbs)[i].b.value <= 5.0
  {
    var r := PeerRadar(radar, fbs);
    forall i | 0 <= i < |radar|
      ensures r[i].b.Some? && 0.0 <= r[i].b.value <= 5.0
    {
      if fbs != [] && DimensionOf(radar[i].subject).Some? {
        var d := DimensionOf(radar[i].subject).value;
        TotalInRange(fbs, d);
        var n := |fbs| as real;
        MeanInRange(Total(fbs, d), n);
      }
    }
  }

  /** A total within [0, 5N] over N > 0 respondents has a mean in [0, 5]. */
  lemma MeanInRange(total: real, n: real)
    requires n > 0.0 && 0.0 <= total <= 5.0 * n
    ensures 0.0 <= total / n <= 5.0
  {
  }

  /** Two respondents scoring `past1` as 5 and 3 give resilience a peer score
      of 4 on the self radar. */
  lemma PeerRadarExample(answers: Value)
    ensures var fbs := [PeerFeedback("1", "a", Obj(map[Past1Id := Num(5.0)]), Obj(map[])),
                        PeerFeedback("1", "b", Obj(map[Past1Id := Num(3.0)]), Obj(map[]))];
      PeerRadar(SelfRadar(answers), fbs)[0].b == Some(4.0)
  {
    var fbs := [PeerFeedback("1", "a", Obj(map[Past1Id := Num(5.0)]), Obj(map[])),
                PeerFeedback("1", "b", Obj(map[Past1Id := Num(3.0)]), Obj(map[]))];
    assert fbs[1..][1..] == [];
    assert PeerScore(fbs[1].scores, Resilience) == 3.0;
    assert Total(fbs[1..], Resilience) == 3.0;
    assert PeerScore(fbs[0].scores, Resilience) == 5.0;
    assert Total(fbs, Resilience) == 8.0;
    SubjectRoundTrip(Resilience);
  }

  // ----- quotes -----

  /** The author shown with a quote: the respondent's name, or '친구' when it
      is empty. */
  function Author(f: PeerFeedback): (r: string)
    ensures r != []
    ensures f.respondentName != [] ==> r == f.respondentName
  {
    if f.respondentName == "" then "친구" else f.respondentName
  }

  /** The quotes for one text question: every feedback whose answer under
      `key` is truthy, in list order. */
  function Quotes(fbs: seq<PeerFeedback>, key: string): (r: seq<PeerTextAnswer>)
    ensures |r| <= |fbs|
  {
    if fbs == [] then []
    else
      var v := Field(fbs[0].answers, key);
      (if Truthy(v) then [PeerTextAnswer(v, Author(fbs[0]))] else []) + Quotes(fbs[1..], key)
  }

  /** Quoting distributes over a split of the feedback list, so quotes keep
      the order of the feedbacks they come from. */
  lemma {:induction false} QuotesAppend(a: seq<PeerFeedback>, b: seq<PeerFeedback>, key: string)
    ensures Quotes(a + b, key) == Quotes(a, key) + Quotes(b, key)
  {
    if a == [] {
      assert a + b == b;
    } else {
      var head := a[0];
      var v := Field(head.answers, key);
      var first := if Truthy(v) then [PeerTextAnswer(v, Author(head))] else [];
      assert (a + b)[0] == head && (a + b)[1..] == a[1..] + b;
      assert Quotes(a + b, key) == first + Quotes(a[1..] + b, key);
      assert Quotes(a, key) == first + Quotes(a[1..], key);
      QuotesAppend(a[1..], b, key);
    }
  }

  /** Every quote is the truthy answer of some feedback, with that feedback's
      author; and every feedback with a truthy answer is quoted. */
  lemma {:induction false} QuotesMembers(fbs: seq<PeerFeedback>, key: string)
    ensures forall q :: q in Quotes(fbs, key) ==>
      exists i :: 0 <= i < |fbs| && Truthy(Field(fbs[i].answers, key))
        && q == PeerTextAnswer(Field(fbs[i].answers, key), Author(fbs[i]))
    ensures forall i :: 0 <= i < |fbs| && Truthy(Field(fbs[i].answers, key)) ==>
      PeerTextAnswer(Field(fbs[i].answers, key), Author(fbs[i])) in Quotes(fbs, key)
  {
    if fbs != [] {
      QuotesMembers(fbs[1..], key);
      forall q | q in Quotes(fbs, key)
        ensures exists i :: 0 <= i < |fbs| && Truthy(Field(fbs[i].answers, key))
                             && q == PeerTextAnswer(Field(fbs[i].answers, key), Author(fbs[i]))
      {
        if q !in Quotes(fbs[1..], key) {
          assert Truthy(Field(fbs[0].answers, key));
        } else {
          var j :| 0 <= j < |fbs[1..]| && Truthy(Field(fbs[1..][j].answers, key))
            && q == PeerTextAnswer(Field(fbs[1..][j].answers, key), Author(fbs[1..][j]));
          assert fbs[j + 1] == fbs[1..][j];
        }
      }
      forall i | 0 <= i < |fbs| && Truthy(Field(fbs[i].answers, key))
        ensures PeerTextAnswer(Field(fbs[i].answers, key), Author(fbs[i])) in Quotes(fbs, key)
      {
        if i > 0 {
          assert fbs[1..][i - 1] == fbs[i];
        }
      }
    }
  }

  /** The three quote lists of the peer view. */
  function PeerQuotes(fbs: seq<PeerFeedback>): (r: PeerAnswers)
    ensures r.q1 == Quotes(fbs, PastTextId)
    ensures r.q2 == Quotes(fbs, PresentTextId)
    ensures r.q3 == Quotes(fbs, FutureTextId)
  {
    PeerAnswers(Quotes(fbs, PastTextId), Quotes(fbs, PresentTextId), Quotes(fbs, FutureTextId))
  }

  /** What the GET handler returns; `FetchFailed` is the 500 "Failed to fetch
      survey". */
  datatype DiscoverView =
    | NoSurvey
    | View(radar: seq<RadarItem>, answers: Value, peerAnswers: PeerAnswers, peerCount: nat)
    | FetchFailed

  /** A stored feedback the aggregation can read. Parsing a missing column
      throws, and so does reading a key of a parsed `null`. */
  predicate Readable(f: PeerFeedback) {
    !f.scores.Null? && !f.scores.Undefined? && !f.answers.Null? && !f.answers.Undefined?
  }

  /** The GET handler, given the user's most recent self survey (if any) and
      the peer feedbacks about the user, newest first. One unreadable feedback
      sends the whole request to the catch. */
  function GetDiscover(latest: Option<SurveyResponse>, fbs: seq<PeerFeedback>): (r: DiscoverView)
    ensures latest.None? <==> r.NoSurvey?
    ensures r.FetchFailed? <==> latest.Some? && exists i :: 0 <= i < |fbs| && !Readable(fbs[i])
    ensures r.View? ==>
      && r.peerCount == |fbs|
      && r.answers == latest.value.answers
      && r.radar == PeerRadar(latest.value.radar, fbs)
      && r.peerAnswers == PeerQuotes(fbs)
  {
    match latest
    case None => NoSurvey
    case Some(s) =>
      if forall i :: 0 <= i < |fbs| ==> Readable(fbs[i]) then View(PeerRadar(s.radar, fbs), s.answers, PeerQuotes(fbs), |fbs|)
      else FetchFailed
  }

  /** Every score key the peer formulas read is a SCALE question of the peer
      table, every quoted key is a TEXT question, and `basic1` is asked but
      never read by the peer formulas. */
  lemma PeerKeysAgreeWithQuestionTable()
    ensures forall i :: 0 <= i < |PeerScoreKeys| ==>
      PeerScoreKeys[i] in SurveyQuestions.IdsOfType(SurveyQuestions.FriendEvaluationQuestions, SurveyQuestions.Scale)
    ensures forall k :: k in [PastTextId, PresentTextId, FutureTextId] ==>
      k in SurveyQuestions.IdsOfType(SurveyQuestions.FriendEvaluationQuestions, SurveyQuestions.TextAnswer)
    ensures Basic1Id in SurveyQuestions.IdsOfType(SurveyQuestions.FriendEvaluationQuestions, SurveyQuestions.Scale)
    ensures Basic1Id !in PeerScoreKeys
  {
    SurveyQuestions.FriendTableScaleIds();
    SurveyQuestions.FriendTableTextIds();
  }

  /** The eight keys the self formulas read are exactly the SCALE questions of
      the self survey, in order. */
  lemma SelfKeysAreSelfScaleQuestions()
    ensures SurveyQuestions.IdsOfType(SurveyQuestions.SelfSurveyQuestions, SurveyQuestions.Scale) == SelfScoreKeys
  {
    SurveyQuestions.FriendTableScaleIds();
    SurveyQuestions.SelfTableMatchesFriendTable();
    SurveyQuestions.SameTypesSameIds(SurveyQuestions.SelfSurveyQuestions, SurveyQuestions.FriendEvaluationQuestions, SurveyQuestions.Scale);
  }
}

=== FILE: feedback.dfy ===
/** The invite-gated feedback endpoint: a fixed chain of checks ending in one
    state change, the new feedback plus one more use of the invite. */
module Feedback {
  import opened Js
  import opened Records
  import opened ApiResponse
  import Validation
  import RateLimit
  import Invites
  import Text

  /** The state the handler reads and writes: the invite table, the feedback
      table and the rate limiter's map. */
  datatype State = State(invites: seq<Invite>, feedbacks: seq<PeerFeedback>, limits: map<string, RateLimit.Window>)

  /** The success payload; a feedback's id is its position in the table. */
  datatype Created = Created(feedbackId: nat)

  datatype Outcome = Outcome(response: Response<Created>, state: State)

  /** The body's properties the handler reads. */
  const InviteCodeKey: string := "inviteCode"
  const RespondentNameKey: string := "respondentName"
  const ScoresKey: string := "scores"
  const AnswersKey: string := "answers"

  const RequiredFields: seq<string> := [InviteCodeKey, RespondentNameKey, ScoresKey, AnswersKey]

  /** Submissions allowed per invite code in one window, and the window. */
  const FeedbackLimit: int := 100
  const FeedbackWindowMs: int := 3600000

  /** The rate limiter key of an invite code. */
  function LimitKey(code: string): string {
    "feedback:" + code
  }

  /** The body's properties as `validateRequired` reads them: a value that is
      not a plain object has none of the required names. */
  function BodyFields(body: Value): (r: map<string, Value>)
    ensures forall k :: Field(Obj(r), k) == Field(body, k)
  {
    if body.Obj? then body.fields else map[]
  }

  /** The validation messages, in the order the checks run. */
  const MissingPrefix: string := "Missing required fields: "
  const TypesMessage: string := "Invalid data types for inviteCode or respondentName"
  const ScoresMessage: string := "Invalid scores format. All scores must be numbers between 1 and 5"
  const AnswersMessage: string := "Invalid answers format"

  /** The message of the first failing validation step, if any: required
      fields, then string types, then scores, then answers. */
  function ValidationFailure(body: Value): (r: Option<string>)
    ensures r.None? <==>
      && Validation.MissingFields(BodyFields(body), RequiredFields) == []
      && Field(body, InviteCodeKey).Str? && Field(body, RespondentNameKey).Str?
      && Validation.ValidateScores(Field(body, ScoresKey))
      && Validation.ValidateSurveyAnswers(Field(body, AnswersKey))
    ensures Validation.MissingFields(BodyFields(body), RequiredFields) != [] ==>
      r == Some(MissingPrefix + Text.Join(Validation.MissingFields(BodyFields(body), RequiredFields), ", "))
    ensures (&& Validation.MissingFields(BodyFields(body), RequiredFields) == []
             && !(Field(body, InviteCodeKey).Str? && Field(body, RespondentNameKey).Str?))
      ==> r == Some(TypesMessage)
    ensures (&& Validation.MissingFields(BodyFields(body), RequiredFields) == []
             && Field(body, InviteCodeKey).Str? && Field(body, RespondentNameKey).Str?
             && !Validation.ValidateScores(Field(body, ScoresKey)))
      ==> r == Some(ScoresMessage)
    ensures (&& Validation.MissingFields(BodyFields(body), RequiredFields) == []
             && Field(body, InviteCodeKey).Str? && Field(body, RespondentNameKey).Str?
             && Validation.ValidateScores(Field(body, ScoresKey))
             && !Validation.ValidateSurveyAnswers(Field(body, AnswersKey)))
      ==> r == Some(AnswersMessage)
  {
    var required := Validation.ValidateRequired(BodyFields(body), RequiredFields);
    if !required.valid then Some(MissingPrefix + Text.Join(required.missing, ", "))
    else if !Field(body, InviteCodeKey).Str? || !Field(body, RespondentNameKey).Str? then Some(TypesMessage)
    else if !Validation.ValidateScores(Field(body, ScoresKey)) then Some(ScoresMessage)
    else if !Validation.ValidateSurveyAnswers(Field(body, AnswersKey)) then Some(AnswersMessage)
    else None
  }

  /** A body the handler gets past validation with. */
  predicate PassesValidation(body: Value) {
    !body.Null? && !body.Undefined? && ValidationFailure(body).None?
  }

  /** An invite has expired when it has an expiry strictly before `now`;
      one without an expiry never expires by time. */
  predicate Expired(invite: Invite, now: int) {
    invite.expiresAt.Some? && invite.expiresAt.value < now
  }

  predicate Exhausted(invite: Invite) {
    invite.usedCount >= invite.maxUses
  }

  /** The invite code of a body; once validation has passed it is a string. */
  function InviteCode(body: Value): (r: string)
    ensures Field(body, InviteCodeKey).Str? ==> Field(body, InviteCodeKey) == Str(r)
  {
    var v := Field(body, InviteCodeKey);
    if v.Str? then v.s else ""
  }

  /** The rate limiter's verdict and map for an invite code. */
  function LimitCheck(st: State, code: string, now: int): (RateLimit.Decision, map<string, RateLimit.Window>) {
    RateLimit.Check(st.limits, LimitKey(code), FeedbackLimit, FeedbackWindowMs, now)
  }

  /** The position of the invite with this code. */
  function Target(st: State, code: string): Option<nat> {
    Invites.FindInvite(st.invites, code)
  }

  /** The handler's messages after the rate limiter. */
  const UnknownCodeMessage: string := "Invalid invite code"
  const ExpiredMessage: string := "This invite code has expired"
  const ExhaustedMessage: string := "This invite code has reached its maximum uses"
  const SubmittedMessage: string := "Feedback submitted successfully"

  /** The handler's messages up to the rate limiter. */
  const FailedMessage: string := "Submission failed"
  const TooManyMessage: string := "Too many feedback submissions for this invite code"

  /** The feedback a submission against `invite` records. */
  function NewFeedback(invite: Invite, body: Value): PeerFeedback {
    PeerFeedback(invite.creatorId, Validation.SanitizeString(Field(body, RespondentNameKey)),
                 Field(body, ScoresKey), Field(body, AnswersKey))
  }

  /** The steps after the rate limiter let a validated body through: look
      the code up, refuse an expired or exhausted invite, otherwise record the
      feedback and use the invite once more. `limits` is the limiter's map
      after the check. */
  function Lookup(st: State, limits: map<string, RateLimit.Window>, code: string, body: Value, now: int): (r: Outcome)
    ensures r.state.limits == limits
    ensures r.response.status == 404 <==> Target(st, code).None?
    ensures Target(st, code).Some? ==>
      var i := Target(st, code).value;
      && (r.response.status == 400 <==> Expired(st.invites[i], now) || Exhausted(st.invites[i]))
      && (r.response.status == 200 <==> !Expired(st.invites[i], now) && !Exhausted(st.invites[i]))
      && (r.response.status == 200 ==>
            && r.response.body.Success? && r.response.body.data == Created(|st.feedbacks|)
            && r.state.feedbacks == st.feedbacks + [NewFeedback(st.invites[i], body)]
            && r.state.invites == st.invites[i := st.invites[i].(usedCount := st.invites[i].usedCount + 1)])
    ensures r.response.status != 200 ==> r.state == st.(limits := limits)
  {
    var limited := st.(limits := limits);
    match Target(st, code)
    case None => Outcome(ApiErrorResponse(NotFound, Some(UnknownCodeMessage), Undefined), limited)
    case Some(i) =>
      var invite := st.invites[i];
      if Expired(invite, now) then
        Outcome(ApiErrorResponse(BadRequest, Some(ExpiredMessage), Undefined), limited)
      else if Exhausted(invite) then
        Outcome(ApiErrorResponse(BadRequest, Some(ExhaustedMessage), Undefined), limited)
      else
        var used := st.invites[i := invite.(usedCount := invite.usedCount + 1)];
        Outcome(SuccessResponse(Created(|st.feedbacks|), Some(SubmittedMessage), None),
                State(used, st.feedbacks + [NewFeedback(invite, body)], limits))
  }

  /** The feedback POST handler at time `now`. */
  function Submit(st: State, body: Value, now: int): (r: Outcome)
    // a body that cannot be destructured ends in the catch
    ensures (body.Null? || body.Undefined?) ==> r.response.status == 500 && r.state == st
    // validation failures are 422 and change nothing
    ensures !body.Null? && !body.Undefined? && !PassesValidation(body) ==>
      && r.response.status == 422 && r.response.body.Error? && r.response.body.error.code == "VALIDATION_ERROR"
      && r.state == st
    // the limiter is consumed before the invite is looked up
    ensures PassesValidation(body) ==> r.state.limits == LimitCheck(st, InviteCode(body), now).1
    ensures r.response.status == 429 <==> PassesValidation(body) && !LimitCheck(st, InviteCode(body), now).0.allowed
    ensures PassesValidation(body) && LimitCheck(st, InviteCode(body), now).0.allowed ==>
      r == Lookup(st, LimitCheck(st, InviteCode(body), now).1, InviteCode(body), body, now)
    ensures r.response.status != 200 ==> r.state.invites == st.invites && r.state.feedbacks == st.feedbacks
  {
    if body.Null? || body.Undefined? then
      Outcome(ApiErrorResponse(InternalError, Some(FailedMessage), Undefined), st)
    else match ValidationFailure(body)
      case Some(message) => Outcome(ApiErrorResponse(ValidationError, Some(message), Undefined), st)
      case None =>
        var (decision, limits') := LimitCheck(st, InviteCode(body), now);
        if !decision.allowed then
          Outcome(ApiErrorResponse(TooManyRequests, Some(TooManyMessage), Undefined),
                  st.(limits := limits'))
        else Lookup(st, limits', InviteCode(body), body, now)
  }

  /** Every invite has been used at most its maximum number of times. */
  predicate UsesWithinMax(invites: seq<Invite>) {
    forall i :: 0 <= i < |invites| ==> invites[i].usedCount <= invites[i].maxUses
  }

  /** A submission keeps every invite within its maximum and keeps codes
      unique: it only increments an invite that is below its maximum. */
  lemma SubmitKeepsInvariant(st: State, body: Value, now: int)
    requires UsesWithinMax(st.invites) && Invites.CodesUnique(st.invites)
    ensures UsesWithinMax(Submit(st, body, now).state.invites)
    ensures Invites.CodesUnique(Submit(st, body, now).state.invites)
  {
    if PassesValidation(body) && LimitCheck(st, InviteCode(body), now).0.allowed {
      var code := InviteCode(body);
      var limits := LimitCheck(st, code, now).1;
      assert Submit(st, body, now) == Lookup(st, limits, code, body, now);
      LookupKeepsInvariant(st, limits, code, body, now);
    } else {
      assert Submit(st, body, now).response.status != 200;
    }
  }

  /** Recording a feedback raises one invite that was below its maximum and
      leaves every code where it was. */
  lemma LookupKeepsInvariant(st: State, limits: map<string, RateLimit.Window>, code: string, body: Value, now: int)
    requires UsesWithinMax(st.invites) && Invites.CodesUnique(st.invites)
    ensures UsesWithinMax(Lookup(st, limits, code, body, now).state.invites)
    ensures Invites.CodesUnique(Lookup(st, limits, code, body, now).state.invites)
  {
    var r := Lookup(st, limits, code, body, now);
    if r.response.status == 200 {
      var i := Target(st, code).value;
      var invites := r.state.invites;
      assert |invites| == |st.invites|;
      assert forall j :: 0 <= j < |invites| ==> invites[j].code == st.invites[j].code;
      assert invites[i].usedCount <= invites[i].maxUses;
    }
  }

  /** Submissions handled one after another, each with its own clock reading. */
  function SubmitAll(st: State, requests: seq<(Value, int)>): State
    decreases |requests|
  {
    if requests == [] then st
    else SubmitAll(Submit(st, requests[0].0, requests[0].1).state, requests[1..])
  }

  /** However many submissions arrive, no invite is ever used more than its
      maximum number of times. */
  lemma {:induction false} SubmitAllKeepsInvariant(st: State, requests: seq<(Value, int)>)
    requires UsesWithinMax(st.invites) && Invites.CodesUnique(st.invites)
    ensures UsesWithinMax(SubmitAll(st, requests).invites)
    ensures Invites.CodesUnique(SubmitAll(st, requests).invites)
    decreases |requests|
  {
    if requests != [] {
      SubmitKeepsInvariant(st, requests[0].0, requests[0].1);
      SubmitAllKeepsInvariant(Submit(st, requests[0].0, requests[0].1).state, requests[1..]);
    }
  }

  /** An accepted feedback is stored for the invite's creator with valid
      scores: an object or array whose every value is a number in [1, 5]. */
  lemma AcceptedScoresInScale(st: State, body: Value, now: int)
    requires Submit(st, body, now).response.status == 200
    ensures var f := Submit(st, body, now).state.feedbacks[|st.feedbacks|];
      && f.userId == st.invites[Target(st, InviteCode(body)).value].creatorId
      && f.scores == Field(body, ScoresKey)
      && (f.scores.Obj? || f.scores.Arr?)
      && Validation.ValidateScores(f.scores)
      && forall k :: Field(f.scores, k) != Undefined ==> Validation.InScale(Field(f.scores, k))
  {
    var scores := Field(body, ScoresKey);
    assert Validation.ValidateScores(scores);
  }
}

=== FILE: friend_survey.dfy ===
/** The survey a friend fills in through an invite link: the peer questions
    one per step, then a nickname step, then one post to the feedback
    endpoint with the invite code taken from the link. */
module FriendSurvey {
  import opened Js
  import opened SurveyQuestions
  import SurveyForm
  import Validation
  import Feedback
  import Discover
  import Text

  const Questions: seq<Question> := FriendEvaluationQuestions

  /** The table the component's import binds as written. The questions
      module exports `FRIEND_EVALUATION_QUESTIONS` and nothing named
      `peerSurveyQuestions`, so the named import is `undefined`. */
  const ImportedTable: Option<seq<Question>> := None

  /** What the first render puts on screen: the question at step 0, or a
      thrown error when `questions[0]` cannot be read or is `undefined`. */
  datatype Screen = Shows(q: Question) | Crash

  function FirstScreen(table: Option<seq<Question>>): (r: Screen)
    ensures r.Shows? <==> table.Some? && |table.value| > 0
    ensures r.Shows? ==> r.q == table.value[0]
  {
    if table.Some? && |table.value| > 0 then Shows(table.value[0]) else Crash
  }

  /** As written, opening the invite page throws on the first render. */
  lemma AsWrittenFirstRenderCrashes()
    ensures FirstScreen(ImportedTable) == Crash
  {
  }

  /** With the exported friend table bound instead, the first render shows
      the first peer question, `basic1`. */
  lemma FirstRenderShowsFirstQuestion()
    ensures FirstScreen(Some(Questions)).Shows?
    ensures FirstScreen(Some(Questions)).q.id == Basic1Id
  {
  }

  /** The component's state. `step == |Questions|` is the nickname step.
      Each pending timer holds the step it will set: the component captures
      the step at the click and sets the one after it. */
  datatype Form = Form(step: int, scores: map<string, Value>, answers: map<string, Value>,
                       nickname: string, pendingSteps: seq<int>, finished: bool)

  datatype Event =
    | PressScale(value: SurveyForm.ScaleValue)
    | PressOption(index: nat)
    | EditText(text: string)
    | PressNext
    | PressPrev
    | TimerFires
    | EditNickname(text: string)
    | PressSubmit(accepted: bool)

  const Initial := Form(0, map[], map[], "", [], false)

  predicate IsScaleId(k: string) {
    exists i :: 0 <= i < |Questions| && Questions[i].qtype == Scale && Questions[i].id == k
  }

  /** The invariant the form keeps: the step is a question or the nickname
      step and so is every pending timer's; scores hold button values for
      scale questions only, each mirrored in the answers; the answers are
      scores, texts or lists of options. */
  predicate Valid(f: Form) {
    && 0 <= f.step <= |Questions|
    && (forall i :: 0 <= i < |f.pendingSteps| ==> 1 <= f.pendingSteps[i] <= |Questions|)
    && SurveyForm.FormScores(f.scores)
    && SurveyForm.FormAnswers(f.answers)
    && (forall k :: k in f.scores ==> IsScaleId(k) && k in f.answers && f.answers[k] == f.scores[k])
  }

  /** Only the nickname step and the scale questions have no next button; a
      multiple-choice question needs a chosen option, a text question a
      non-empty text. */
  predicate NextEnabled(f: Form)
    requires 0 <= f.step < |Questions|
  {
    var q := Questions[f.step];
    match q.qtype
    case Scale => false
    case MultipleChoice => |SurveyForm.Choices(f.answers, q.id)| > 0
    case TextAnswer => q.id in f.answers && Truthy(f.answers[q.id])
  }

  /** `handleAnswer`: a scale answer goes to both maps and schedules the
      move to the next step; other answers go to the answers only. */
  function Answer(f: Form, v: Value): (r: Form)
    requires 0 <= f.step < |Questions|
    ensures var id := Questions[f.step].id;
      && r.answers == f.answers[id := v] && r.step == f.step
      && (Questions[f.step].qtype == Scale ==>
            r.scores == f.scores[id := v] && r.pendingSteps == f.pendingSteps + [f.step + 1])
      && (Questions[f.step].qtype != Scale ==> r.scores == f.scores && r.pendingSteps == f.pendingSteps)
  {
    var q := Questions[f.step];
    if q.qtype == Scale then
      f.(scores := f.scores[q.id := v], answers := f.answers[q.id := v],
         pendingSteps := f.pendingSteps + [f.step + 1])
    else f.(answers := f.answers[q.id := v])
  }

  /** The form's reaction to one event. A timer only moves the step; no
      event drops a score or an answer, only the shown question's answer ever
      changes, the nickname changes only on the nickname step, and a finished
      form ignores everything but timers. */
  function Step(f: Form, e: Event): (r: Form)
    ensures e.TimerFires? ==> r.scores == f.scores && r.answers == f.answers && r.nickname == f.nickname && r.finished == f.finished
    ensures f.scores.Keys <= r.scores.Keys && f.answers.Keys <= r.answers.Keys
    ensures forall k :: k in f.answers && (!(0 <= f.step < |Questions|) || k != Questions[f.step].id) ==> r.answers[k] == f.answers[k]
    ensures r.nickname != f.nickname ==> f.step == |Questions| && e.EditNickname?
    ensures f.finished && !e.TimerFires? ==> r == f
  {
    if e.TimerFires? then
      if f.pendingSteps == [] then f else f.(step := f.pendingSteps[0], pendingSteps := f.pendingSteps[1..])
    else if f.finished then f
    else if f.step == |Questions| then
      match e
      case EditNickname(s) => f.(nickname := s)
      case PressSubmit(accepted) =>
        if Text.Trim(f.nickname) == "" then f
        else if accepted then f.(finished := true)
        else f
      case _ => f
    else if !(0 <= f.step < |Questions|) then f
    else
      var q := Questions[f.step];
      match e
      case PressScale(v) => if q.qtype == Scale then Answer(f, Num(v as real)) else f
      case PressOption(i) =>
        if q.qtype == MultipleChoice && i < |q.options| then
          f.(answers := SurveyForm.ToggleAnswer(f.answers, q.id, q.options[i]))
        else f
      case EditText(t) => if q.qtype == TextAnswer then Answer(f, Str(t)) else f
      case PressNext => if NextEnabled(f) then f.(step := f.step + 1) else f
      case PressPrev => if f.step > 0 then f.(step := f.step - 1) else f
      case _ => f
  }

  function Run(f: Form, events: seq<Event>): Form
    decreases |events|
  {
    if events == [] then f else Run(Step(f, events[0]), events[1..])
  }

  lemma DistinctQuestionIds()
    ensures DistinctIds(Questions)
  {
    FriendTableHasTwelveDistinctIds();
  }

  lemma StepKeepsValid(f: Form, e: Event)
    requires Valid(f)
    ensures Valid(Step(f, e))
  {
    if e.TimerFires? {
      if f.pendingSteps != [] {
        assert forall i :: 0 <= i < |f.pendingSteps[1..]| ==> f.pendingSteps[1..][i] == f.pendingSteps[i + 1];
      }
    } else if !f.finished && 0 <= f.step < |Questions| {
      match e
      case PressOption(i) => OptionKeepsValid(f, i);
      case PressScale(v) => ScaleKeepsValid(f, v);
      case EditText(t) => TextKeepsValid(f, t);
      case _ =>
    }
  }

  /** Only the question on screen is answered, and a question that is not a
      scale question carries no scale id. */
  lemma OtherIdsNotScale(f: Form)
    requires 0 <= f.step < |Questions| && Questions[f.step].qtype != Scale
    ensures !IsScaleId(Questions[f.step].id)
  {
    DistinctQuestionIds();
    var q := Questions[f.step];
    forall i | 0 <= i < |Questions| && Questions[i].qtype == Scale
      ensures Questions[i].id != q.id
    {
      assert i != f.step;
    }
  }

  lemma OptionKeepsValid(f: Form, i: nat)
    requires Valid(f) && !f.finished && 0 <= f.step < |Questions|
    ensures Valid(Step(f, PressOption(i)))
  {
    var q := Questions[f.step];
    if q.qtype == MultipleChoice && i < |q.options| {
      ToggledFormValid(f, q.options[i]);
      assert Step(f, PressOption(i)) == f.(answers := SurveyForm.ToggleAnswer(f.answers, q.id, q.options[i]));
    } else {
      assert Step(f, PressOption(i)) == f;
    }
  }

  lemma ToggledFormValid(f: Form, option: string)
    requires Valid(f) && 0 <= f.step < |Questions| && Questions[f.step].qtype == MultipleChoice
    ensures Valid(f.(answers := SurveyForm.ToggleAnswer(f.answers, Questions[f.step].id, option)))
  {
    OtherIdsNotScale(f);
    SurveyForm.ToggleKeepsForm(f.answers, Questions[f.step].id, option);
  }

  lemma ScaleKeepsValid(f: Form, v: SurveyForm.ScaleValue)
    requires Valid(f) && !f.finished && 0 <= f.step < |Questions|
    ensures Valid(Step(f, PressScale(v)))
  {
    var q := Questions[f.step];
    if q.qtype == Scale {
      var r := Step(f, PressScale(v));
      assert IsScaleId(q.id);
      assert forall i :: 0 <= i < |r.pendingSteps| ==> r.pendingSteps[i] == (f.pendingSteps + [f.step + 1])[i];
    }
  }

  lemma TextKeepsValid(f: Form, t: string)
    requires Valid(f) && !f.finished && 0 <= f.step < |Questions|
    ensures Valid(Step(f, EditText(t)))
  {
    if Questions[f.step].qtype == TextAnswer {
      OtherIdsNotScale(f);
    }
  }

  lemma {:induction false} RunKeepsValid(f: Form, events: seq<Event>)
    requires Valid(f)
    ensures Valid(Run(f, events))
    decreases |events|
  {
    if events != [] {
      StepKeepsValid(f, events[0]);
      RunKeepsValid(Step(f, events[0]), events[1..]);
    }
  }

  /** Whatever the user and the timers do, the form shows a question or the
      nickname step. */
  lemma AnyRunStaysInRange(events: seq<Event>)
    ensures 0 <= Run(Initial, events).step <= |Questions|
  {
    RunKeepsValid(Initial, events);
  }

  /** The next button moves exactly one step on and keeps every answer; from
      the last question it opens the nickname step. The back button moves one
      step back except on the first question. */
  lemma NavigationMovesOneStep(f: Form)
    requires Valid(f) && !f.finished && 0 <= f.step < |Questions|
    ensures var r := Step(f, PressNext);
      && r.step == (if NextEnabled(f) then f.step + 1 else f.step)
      && r.scores == f.scores && r.answers == f.answers
    ensures f.step == |Questions| - 1 && NextEnabled(f) ==> Step(f, PressNext).step == |Questions|
    ensures Step(f, PressPrev).step == (if f.step > 0 then f.step - 1 else 0)
  {
  }

  /** A nickname that is empty once trimmed sends nothing and changes
      nothing. */
  lemma BlankNicknameIsRefused(f: Form, accepted: bool)
    requires f.step == |Questions| && !f.finished && Text.Trim(f.nickname) == ""
    ensures Step(f, PressSubmit(accepted)) == f
  {
  }

  /** `searchParams.get("code")`: the link's code, or `null` without one. */
  function CodeValue(code: Option<string>): Value {
    if code.Some? then Str(code.value) else Null
  }

  /** The body the nickname step posts. */
  function Payload(code: Option<string>, f: Form): Value {
    Obj(map[Feedback.InviteCodeKey := CodeValue(code), Feedback.RespondentNameKey := Str(f.nickname),
            Feedback.ScoresKey := Obj(f.scores), Feedback.AnswersKey := Obj(f.answers)])
  }

  lemma TrimmedNonEmpty(s: string)
    requires Text.Trim(s) != ""
    ensures s != ""
  {
    var i :| Text.InfixAt(s, Text.Trim(s), i);
  }

  /** The required fields the endpoint finds blank in the form's body: the
      invite code when the link had none or an empty one, nothing else. */
  lemma PayloadMissingFields(code: Option<string>, f: Form)
    requires f.nickname != ""
    ensures Validation.MissingFields(Feedback.BodyFields(Payload(code, f)), Feedback.RequiredFields)
      == if code.Some? && code.value != "" then [] else [Feedback.InviteCodeKey]
  {
    var fields := Feedback.BodyFields(Payload(code, f));
    var req := Feedback.RequiredFields;
    assert req[1..][1..][1..][1..] == [];
    assert Validation.MissingFields(fields, req[1..][1..][1..]) == [];
    assert Validation.MissingFields(fields, req[1..][1..]) == [];
    assert Validation.MissingFields(fields, req[1..]) == [];
  }

  /** A form with a nickname posts a body the feedback endpoint's validation
      accepts exactly when the link carried a non-empty invite code. */
  lemma PayloadValidIffCode(code: Option<string>, f: Form)
    requires Valid(f) && Text.Trim(f.nickname) != ""
    ensures Feedback.PassesValidation(Payload(code, f)) <==> code.Some? && code.value != ""
  {
    TrimmedNonEmpty(f.nickname);
    if code.Some? && code.value != "" {
      PayloadMissingFields(code, f);
      PayloadWithCodePasses(code, f);
    } else {
      PayloadWithoutCodeFails(code, f);
    }
  }

  lemma PayloadWithoutCodeFails(code: Option<string>, f: Form)
    requires f.nickname != "" && !(code.Some? && code.value != "")
    ensures !Feedback.PassesValidation(Payload(code, f))
  {
    PayloadMissingFields(code, f);
    assert Validation.MissingFields(Feedback.BodyFields(Payload(code, f)), Feedback.RequiredFields) != [];
  }

  lemma PayloadWithCodePasses(code: Option<string>, f: Form)
    requires Valid(f) && f.nickname != "" && code.Some? && code.value != ""
    requires Validation.MissingFields(Feedback.BodyFields(Payload(code, f)), Feedback.RequiredFields) == []
    ensures Feedback.ValidationFailure(Payload(code, f)).None?
  {
    var body := Payload(code, f);
    SurveyForm.FormScoresPassValidation(f.scores);
    SurveyForm.FormAnswersPassValidation(f.answers);
    assert Field(body, Feedback.ScoresKey) == Obj(f.scores);
    assert Field(body, Feedback.AnswersKey) == Obj(f.answers);
    assert Field(body, Feedback.RespondentNameKey) == Str(f.nickname);
    assert Field(body, Feedback.InviteCodeKey) == Str(code.value);
  }

  /** What the endpoint stores from an accepted post is the form's scores,
      and the peer view reads from it each answered scale question's button
      value, on the 1 to 5 scale, and 0 for every other key. */
  lemma StoredScoresAreFormScores(code: Option<string>, f: Form)
    requires Valid(f)
    ensures var stored := Field(Payload(code, f), Feedback.ScoresKey);
      && stored == Obj(f.scores)
      && (forall k :: k in f.scores ==> IsScaleId(k) && f.scores[k] == Num(Discover.PeerRead(stored, k)))
      && (forall k :: k in f.scores ==> 1.0 <= Discover.PeerRead(stored, k) <= 5.0)
      && forall k :: k !in f.scores ==> Discover.PeerRead(stored, k) == 0.0
  {
  }
}

=== FILE: invites.dfy ===
/** Invite codes: generation from an injected random source, the invite
    record the POST handler creates, and lookup by code. */
module Invites {
  import opened Js
  import opened Records

  /** The code alphabet: upper-case letters, then digits. */
  const Alphabet: string := "ABCDEFGHIJKLMNOPQRSTUVWXYZ0123456789"

  /** An index into the alphabet, as `Math.floor(Math.random() * 36)` yields. */
  type Draw = k: int | 0 <= k < 36

  /** The code length `generateCode` uses by default. */
  const DefaultCodeLength: int := 6

  /** Seven days in milliseconds, the lifetime of a new invite. */
  const InviteLifetimeMs: int := 7 * 24 * 60 * 60 * 1000

  predicate IsCodeChar(c: char) {
    'A' <= c <= 'Z' || '0' <= c <= '9'
  }

  /** Every letter of the alphabet may appear in a code. */
  lemma AlphabetIsCodeChars()
    ensures |Alphabet| == 36
    ensures forall k :: 0 <= k < 36 ==> IsCodeChar(Alphabet[k])
  {
  }

  /** `generateCode(length)`, with the random source given as the sequence
      of alphabet indices it would draw. A length of zero or less gives the
      empty code. */
  method GenerateCode(length: int, draws: seq<Draw>) returns (code: string)
    requires length <= |draws|
    ensures |code| == if length < 0 then 0 else length
    ensures forall i :: 0 <= i < |code| ==> code[i] == Alphabet[draws[i]]
    ensures forall i :: 0 <= i < |code| ==> IsCodeChar(code[i])
  {
    AlphabetIsCodeChars();
    code := "";
    var i := 0;
    while i < length
      invariant 0 <= i && (length >= 0 ==> i <= length) && (length < 0 ==> i == 0)
      invariant |code| == i
      invariant forall j :: 0 <= j < i ==> code[j] == Alphabet[draws[j]]
      invariant forall j :: 0 <= j < i ==> IsCodeChar(code[j])
    {
      var next := code + [Alphabet[draws[i]]];
      assert forall j :: 0 <= j < i ==> next[j] == code[j];
      code, i := next, i + 1;
    }
  }

  /** The code the first `n` draws spell. */
  function DrawnCode(draws: seq<Draw>, n: nat): string
    requires n <= |draws|
  {
    seq(n, i requires 0 <= i < n => Alphabet[draws[i]])
  }

  /** No two invites share a code, as the lookup by unique code presumes. */
  predicate CodesUnique(invites: seq<Invite>) {
    forall i, j :: 0 <= i < j < |invites| ==> invites[i].code != invites[j].code
  }

  /** The position of the invite with this code, if any. */
  function FindInvite(invites: seq<Invite>, code: string): (r: Option<nat>)
    ensures r.Some? ==> r.value < |invites| && invites[r.value].code == code
    ensures r.None? <==> forall i :: 0 <= i < |invites| ==> invites[i].code != code
  {
    if invites == [] then None
    else if invites[|invites| - 1].code == code then Some(|invites| - 1)
    else FindInvite(invites[..|invites| - 1], code)
  }

  /** What the invite POST handler answers. */
  datatype CreateResult = Created(code: string) | CreateFailed

  /** The user every invite is created for. */
  const MockUserId := "1"

  /** The invite POST handler: generate a six-character code, store an
      invite created by the caller that expires seven days from `now`, and
      return the code. The code is not checked against the stored invites
      first; a colliding code makes the insert fail and the handler answer
      500. `maxUses` is the column default of the invite table. */
  method CreateInvite(invites: seq<Invite>, now: int, draws: seq<Draw>, maxUses: int)
    returns (r: CreateResult, invites': seq<Invite>)
    requires DefaultCodeLength <= |draws|
    ensures r.Created? ==>
      && |r.code| == DefaultCodeLength
      && (forall i :: 0 <= i < |r.code| ==> r.code[i] == Alphabet[draws[i]])
      && invites' == invites + [Invite(r.code, MockUserId, Some(now + InviteLifetimeMs), 0, maxUses)]
    ensures r.CreateFailed? ==> invites' == invites
    ensures r.CreateFailed? <==> exists i :: 0 <= i < |invites| && invites[i].code == DrawnCode(draws, DefaultCodeLength)
    ensures CodesUnique(invites) ==> CodesUnique(invites')
  {
    var code := GenerateCode(DefaultCodeLength, draws);
    assert code == DrawnCode(draws, DefaultCodeLength);
    if FindInvite(invites, code).Some? {
      r, invites' := CreateFailed, invites;
    } else {
      r := Created(code);
      invites' := invites + [Invite(code, MockUserId, Some(now + InviteLifetimeMs), 0, maxUses)];
    }
  }
}

=== FILE: js.dfy ===
/** JavaScript values as the request handlers and components see them once a
    request body or a stored JSON column has been parsed. */
module Js {

  datatype Option<+T> = None | Some(value: T)

  /** A parsed JSON value, plus `undefined` for a property that is absent.
      Numbers are exact reals: NaN and the infinities are not modelled. */
  datatype Value =
    | Undefined
    | Null
    | Bool(b: bool)
    | Num(x: real)
    | Str(s: string)
    | Arr(elems: seq<Value>)
    | Obj(fields: map<string, Value>)

  /** JavaScript truthiness: `undefined`, `null`, `false`, `0` and `""` are
      falsy; every array and object is truthy. */
  predicate Truthy(v: Value) {
    match v
    case Undefined => false
    case Null => false
    case Bool(b) => b
    case Num(x) => x != 0.0
    case Str(s) => s != ""
    case Arr(_) => true
    case Obj(_) => true
  }

  /** `typeof v === 'object'`, which is also true of arrays and of `null`. */
  predicate IsObjectType(v: Value) {
    v.Null? || v.Arr? || v.Obj?
  }

  /** The named property read `v[k]` for the field names the handlers use.
      Only plain objects carry such properties; the indices and `length` of
      arrays and strings are not named by any of those reads. */
  function Field(v: Value, k: string): (r: Value)
    ensures r != Undefined ==> v.Obj? && k in v.fields && r == v.fields[k]
    ensures v.Obj? && k in v.fields ==> r == v.fields[k]
  {
    if v.Obj? && k in v.fields then v.fields[k] else Undefined
  }

  /** `Object.values(v).every(p)` for a value with `typeof v === 'object'`
      other than `null`: an array contributes its elements, a plain object
      its property values. */
  predicate EveryOwnValue(v: Value, p: Value -> bool)
    requires v.Arr? || v.Obj?
  {
    if v.Arr? then forall i :: 0 <= i < |v.elems| ==> p(v.elems[i])
    else forall k :: k in v.fields ==> p(v.fields[k])
  }

  /** A value that `Array.isArray` accepts and whose elements are all strings. */
  predicate IsStringArray(v: Value) {
    v.Arr? && forall i :: 0 <= i < |v.elems| ==> v.elems[i].Str?
  }

  /** The strings of a string array, in order. */
  function Strings(v: Value): (r: seq<string>)
    requires IsStringArray(v)
    ensures |r| == |v.elems|
    ensures forall i :: 0 <= i < |r| ==> v.elems[i] == Str(r[i])
  {
    seq(|v.elems|, i requires 0 <= i < |v.elems| => v.elems[i].s)
  }

  /** A string array built from strings. */
  function StrArr(xs: seq<string>): (r: Value)
    ensures IsStringArray(r) && Strings(r) == xs
  {
    Arr(seq(|xs|, i requires 0 <= i < |xs| => Str(xs[i])))
  }
}

=== FILE: peer_survey.dfy ===
/** The friends page: the friend list with a colour per position and the
    search box that narrows it. */
module PeerSurvey {
  import opened Js
  import opened Text

  /** A friend as the page reads it. Name, relation and tags may be missing
      from a row; the page reaches them through optional chaining. */
  datatype Friend = Friend(name: Option<string>, relation: Option<string>, tags: Option<seq<string>>, color: string)

  /** The five badge styles, used in turn. */
  const Palette: seq<string> := [
    "bg-blue-50 text-blue-600", "bg-purple-50 text-purple-600", "bg-orange-50 text-orange-600",
    "bg-rose-50 text-rose-600", "bg-teal-50 text-teal-600"
  ]

  /** The list as loaded: the i-th friend takes style `i % 5`; nothing else
      about a friend changes. */
  function Colored(friends: seq<Friend>): (r: seq<Friend>)
    ensures |r| == |friends|
    ensures forall i :: 0 <= i < |r| ==> r[i] == friends[i].(color := Palette[i % 5])
  {
    seq(|friends|, i requires 0 <= i < |friends| => friends[i].(color := Palette[i % 5]))
  }

  /** Friends five places apart share a style, and neighbours never do. */
  lemma ColorsRepeatEveryFive(friends: seq<Friend>, i: nat)
    requires i + 1 < |friends|
    ensures i + 5 < |friends| ==> Colored(friends)[i].color == Colored(friends)[i + 5].color
    ensures Colored(friends)[i].color != Colored(friends)[i + 1].color
  {
    assert (i + 5) % 5 == i % 5;
    assert (i + 1) % 5 != i % 5;
  }

  predicate SomeTagIncludes(tags: seq<string>, term: string) {
    exists k :: 0 <= k < |tags| && Includes(tags[k], term)
  }

  /** The search test: the name, the relation or one of the tags contains
      the term. A missing property never matches. */
  predicate Matches(f: Friend, term: string) {
    || (f.name.Some? && Includes(f.name.value, term))
    || (f.relation.Some? && Includes(f.relation.value, term))
    || (f.tags.Some? && SomeTagIncludes(f.tags.value, term))
  }

  /** `friends.filter(...)`: the matching friends, in list order. */
  function Filter(friends: seq<Friend>, term: string): (r: seq<Friend>)
    ensures |r| <= |friends|
    ensures forall f :: f in r <==> f in friends && Matches(f, term)
  {
    if friends == [] then []
    else (if Matches(friends[0], term) then [friends[0]] else []) + Filter(friends[1..], term)
  }

  lemma {:induction false} FilterAppend(a: seq<Friend>, b: seq<Friend>, term: string)
    ensures Filter(a + b, term) == Filter(a, term) + Filter(b, term)
  {
    if a == [] {
      assert a + b == b;
    } else {
      assert (a + b)[1..] == a[1..] + b;
      FilterAppend(a[1..], b, term);
    }
  }

  /** An empty search box keeps every friend with a name, a relation or at
      least one tag, and only those. */
  lemma EmptyTermKeepsDescribed(f: Friend)
    ensures Matches(f, "") <==>
      f.name.Some? || f.relation.Some? || (f.tags.Some? && |f.tags.value| > 0)
  {
    if f.name.Some? { IncludesEmpty(f.name.value); }
    if f.relation.Some? { IncludesEmpty(f.relation.value); }
    if f.tags.Some? && |f.tags.value| > 0 { IncludesEmpty(f.tags.value[0]); }
  }

  lemma IncludesTransitive(s: string, t: string, u: string)
    requires Includes(s, t) && Includes(t, u)
    ensures Includes(s, u)
  {
    var i :| 0 <= i <= |s| - |t| && InfixAt(s, t, i);
    var j :| 0 <= j <= |t| - |u| && InfixAt(t, u, j);
    forall k | 0 <= k < |u| ensures s[i + j + k] == u[k] {
      assert u[k] == t[j..j + |u|][k] == t[j + k];
      assert t[j + k] == s[i..i + |t|][j + k] == s[i + j + k];
    }
    assert s[i + j..i + j + |u|] == u;
    assert InfixAt(s, u, i + j);
  }

  lemma MatchesNarrow(f: Friend, term: string, longer: string)
    requires Includes(longer, term) && Matches(f, longer)
    ensures Matches(f, term)
  {
    if f.name.Some? && Includes(f.name.value, longer) {
      IncludesTransitive(f.name.value, longer, term);
    } else if f.relation.Some? && Includes(f.relation.value, longer) {
      IncludesTransitive(f.relation.value, longer, term);
    } else {
      var k :| 0 <= k < |f.tags.value| && Includes(f.tags.value[k], longer);
      IncludesTransitive(f.tags.value[k], longer, term);
    }
  }

  /** Typing more never brings a friend back: a term that contains the old
      one keeps a sub-list of the old result, in the same order. */
  lemma {:induction false} LongerTermNarrows(friends: seq<Friend>, term: string, longer: string)
    requires Includes(longer, term)
    ensures Filter(friends, longer) == Filter(Filter(friends, term), longer)
  {
    if friends != [] {
      LongerTermNarrows(friends[1..], term, longer);
      var f := friends[0];
      if Matches(f, longer) {
        MatchesNarrow(f, term, longer);
      }
      var narrowed := Filter(friends, term);
      if Matches(f, term) {
        assert narrowed == [f] + Filter(friends[1..], term);
        assert narrowed[1..] == Filter(friends[1..], term);
      } else {
        assert narrowed == Filter(friends[1..], term);
      }
    }
  }

  /** Colouring and searching commute up to the colours: the friends that
      match are the same before and after the styles are assigned. */
  lemma SearchIgnoresColor(f: Friend, c: string, term: string)
    ensures Matches(f.(color := c), term) <==> Matches(f, term)
  {
  }
}

=== FILE: rate_limit.dfy ===
/** The fixed-window rate limiter of the validation library. The limiter's
    map is passed in and handed back, and the clock is a parameter. */
module RateLimit {

  /** One identifier's window: requests counted so far and when it ends. */
  datatype Window = Window(count: int, resetAt: int)

  /** What a check reports to the caller. */
  datatype Decision = Decision(allowed: bool, remaining: int, resetAt: int)

  /** The defaults of `checkRateLimit`. */
  const DefaultMaxRequests: int := 60
  const DefaultWindowMs: int := 60000

  /** `checkRateLimit(id, maxRequests, windowMs)` at time `now`. A missing or
      elapsed window (now > resetAt) is replaced by a fresh one holding this
      request; otherwise the count grows by one, also past the limit, and the
      request is allowed while the count stays within `maxRequests`. */
  function Check(store: map<string, Window>, id: string, maxRequests: int, windowMs: int, now: int)
    : (r: (Decision, map<string, Window>))
    ensures r.1.Keys == store.Keys + {id}
    ensures forall k :: k in store && k != id ==> r.1[k] == store[k]
    ensures (id !in store || now > store[id].resetAt) ==>
      && r.1[id] == Window(1, now + windowMs)
      && r.0 == Decision(true, maxRequests - 1, now + windowMs)
    ensures id in store && now <= store[id].resetAt ==>
      && r.1[id] == Window(store[id].count + 1, store[id].resetAt)
      && r.0.resetAt == store[id].resetAt
      && (r.0.allowed <==> store[id].count + 1 <= maxRequests)
      && r.0.remaining == (if r.0.allowed then maxRequests - (store[id].count + 1) else 0)
  {
    if id !in store || now > store[id].resetAt then
      var resetAt := now + windowMs;
      (Decision(true, maxRequests - 1, resetAt), store[id := Window(1, resetAt)])
    else
      var w := store[id];
      var count := w.count + 1;
      var store' := store[id := Window(count, w.resetAt)];
      if count > maxRequests then (Decision(false, 0, w.resetAt), store')
      else (Decision(true, maxRequests - count, w.resetAt), store')
  }

  /** The first request of a window is allowed whatever the limit, even a
      limit of zero or less. */
  lemma FirstRequestAllowed(store: map<string, Window>, id: string, maxRequests: int, windowMs: int, now: int)
    requires id !in store || now > store[id].resetAt
    ensures Check(store, id, maxRequests, windowMs, now).0.allowed
  {
  }

  /** The periodic clean-up: drop every window that has elapsed by `now`. */
  function Sweep(store: map<string, Window>, now: int): (r: map<string, Window>)
    ensures forall k :: k in r <==> k in store && now <= store[k].resetAt
    ensures forall k :: k in r ==> r[k] == store[k]
  {
    map k | k in store && now <= store[k].resetAt :: store[k]
  }

  /** A sweep changes no later decision: a window it drops had already
      elapsed, and an elapsed window and a missing one both start afresh. */
  lemma SweepIsUnobservable(store: map<string, Window>, swept: int, id: string, maxRequests: int, windowMs: int, now: int)
    requires swept <= now
    ensures Check(Sweep(store, swept), id, maxRequests, windowMs, now).0 == Check(store, id, maxRequests, windowMs, now).0
    ensures Check(Sweep(store, swept), id, maxRequests, windowMs, now).1[id] == Check(store, id, maxRequests, windowMs, now).1[id]
  {
  }

  /** A run of checks of one identifier at the given times: how many were
      allowed, and the limiter's map afterwards. */
  function Run(store: map<string, Window>, id: string, maxRequests: int, windowMs: int, times: seq<int>)
    : (r: (nat, map<string, Window>))
    ensures r.0 <= |times|
    ensures times != [] ==> r.1.Keys == store.Keys + {id}
    ensures times == [] ==> r.1 == store
    ensures forall k :: k in store && k != id ==> k in r.1 && r.1[k] == store[k]
    decreases |times|
  {
    if times == [] then (0, store)
    else
      var (d, store') := Check(store, id, maxRequests, windowMs, times[0]);
      var (n, store'') := Run(store', id, maxRequests, windowMs, times[1..]);
      ((if d.allowed then 1 else 0) + n, store'')
  }

  /** How many of `k` further requests a window holding `count` allows. */
  function AllowedAfter(count: int, k: nat, maxRequests: int): nat {
    if maxRequests <= count then 0
    else if k <= maxRequests - count then k
    else maxRequests - count
  }

  /** Inside one window the count only grows: `k` requests at times that do
      not pass the window's end allow exactly the requests whose count stays
      within the limit, and leave the window's end where it was. */
  lemma {:induction false} RunInsideWindow(store: map<string, Window>, id: string, maxRequests: int, windowMs: int, times: seq<int>)
    requires id in store
    requires forall i :: 0 <= i < |times| ==> times[i] <= store[id].resetAt
    ensures Run(store, id, maxRequests, windowMs, times).0 == AllowedAfter(store[id].count, |times|, maxRequests)
    ensures Run(store, id, maxRequests, windowMs, times).1[id] == Window(store[id].count + |times|, store[id].resetAt)
  {
    if times != [] {
      var store' := Check(store, id, maxRequests, windowMs, times[0]).1;
      RunInsideWindow(store', id, maxRequests, windowMs, times[1..]);
    }
  }

  /** A window opened at `times[0]` admits at most max(1, maxRequests) of the
      requests that arrive before it ends, however many arrive. */
  lemma WindowAdmitsAtMostLimit(store: map<string, Window>, id: string, maxRequests: int, windowMs: int, times: seq<int>)
    requires times != []
    requires id !in store || times[0] > store[id].resetAt
    requires forall i :: 0 <= i < |times| ==> times[i] <= times[0] + windowMs
    ensures Run(store, id, maxRequests, windowMs, times).0 == 1 + AllowedAfter(1, |times| - 1, maxRequests)
    ensures Run(store, id, maxRequests, windowMs, times).0 <= if maxRequests >= 1 then maxRequests else 1
  {
    var store' := Check(store, id, maxRequests, windowMs, times[0]).1;
    assert forall i :: 0 <= i < |times[1..]| ==> times[1..][i] == times[i + 1];
    RunInsideWindow(store', id, maxRequests, windowMs, times[1..]);
  }
}

=== FILE: records.dfy ===
/** The stored entities and the shapes the handlers exchange, already parsed
    from their JSON columns. Database ids and timestamps other than an
    invite's expiry are not modelled. */
module Records {
  import opened Js

  /** One spoke of the radar chart: the self score `a`, the peer score `b`
      once it has been filled in, and the chart maximum. */
  datatype RadarItem = RadarItem(subject: string, a: real, fullMark: real, b: Option<real>)

  /** A quoted free-text answer and who wrote it. The text is whatever value
      the respondent stored under the question's key. */
  datatype PeerTextAnswer = PeerTextAnswer(text: Value, author: string)

  /** The quotes grouped by question: energy moment, thanks, challenge. */
  datatype PeerAnswers = PeerAnswers(q1: seq<PeerTextAnswer>, q2: seq<PeerTextAnswer>, q3: seq<PeerTextAnswer>)

  /** A self-survey submission: the radar snapshot and the raw answers. */
  datatype SurveyResponse = SurveyResponse(userId: string, radar: seq<RadarItem>, answers: Value)

  /** A peer's evaluation of `userId`. `scores` and `answers` are the stored
      JSON columns as parsed back: whatever value the endpoint was sent,
      normally objects keyed by question id. */
  datatype PeerFeedback = PeerFeedback(userId: string, respondentName: string, scores: Value, answers: Value)

  /** An invite code: its creator, its optional expiry (milliseconds since
      the epoch) and its use counter with the configured maximum. */
  datatype Invite = Invite(code: string, creatorId: string, expiresAt: Option<int>, usedCount: nat, maxUses: int)
}

=== FILE: registered_friend_survey.dfy ===
/** The survey a signed-in user fills in about a friend on their list: the
    peer questions one per step, and a post to the friend-feedback endpoint
    from the last step, with no invite involved. */
module RegisteredFriendSurvey {
  import opened Js
  import opened Records
  import opened SurveyQuestions
  import SurveyForm
  import Validation
  import Discover

  const Questions: seq<Question> := FriendEvaluationQuestions

  /** The component's state for the friend `friendId`. Each pending timer
      holds the step captured at the click. `posts` lists the bodies sent so
      far, oldest first. */
  datatype Form = Form(friendId: string, step: int, scores: map<string, Value>, answers: map<string, Value>,
                       pendingFrom: seq<int>, finished: bool, posts: seq<Value>)

  /** The user's and the timers' actions; `accepted` is how the endpoint
      answers a post that the event may send. Only text and multiple-choice
      questions show a next button, and it is never disabled. */
  datatype Event =
    | PressScale(value: SurveyForm.ScaleValue)
    | PressOption(index: nat)
    | EditText(text: string)
    | PressNext(accepted: bool)
    | TimerFires(accepted: bool)

  function Start(friendId: string): Form {
    Form(friendId, 0, map[], map[], [], false, [])
  }

  predicate IsScaleId(k: string) {
    exists i :: 0 <= i < |Questions| && Questions[i].qtype == Scale && Questions[i].id == k
  }

  /** The body's properties. */
  const TargetKey: string := "targetUserId"
  const ScoresKey: string := "scores"
  const AnswersKey: string := "answers"

  /** The body `handleSubmit` posts. */
  function Payload(f: Form): Value {
    Obj(map[TargetKey := Str(f.friendId), ScoresKey := Obj(f.scores), AnswersKey := Obj(f.answers)])
  }

  /** `handleSubmit`: post the answers; an accepted post finishes the form. */
  function Submit(f: Form, accepted: bool): (r: Form)
    ensures r.posts == f.posts + [Payload(f)]
    ensures r.finished <==> f.finished || accepted
    ensures r.step == f.step && r.scores == f.scores && r.answers == f.answers
  {
    f.(posts := f.posts + [Payload(f)], finished := f.finished || accepted)
  }

  predicate Valid(f: Form) {
    && 0 <= f.step < |Questions|
    && (forall i :: 0 <= i < |f.pendingFrom| ==> 0 <= f.pendingFrom[i] < |Questions|)
    && ScaledBefore(f.scores, f.step)
    && (forall i :: 0 <= i < |f.pendingFrom| ==> ScaledBefore(f.scores, f.pendingFrom[i] + 1))
    && SurveyForm.FormScores(f.scores)
    && SurveyForm.FormAnswers(f.answers)
    && (forall k :: k in f.scores ==> IsScaleId(k) && k in f.answers && f.answers[k] == f.scores[k])
    && (forall i :: 0 <= i < |f.posts| ==> PostOf(f.friendId, f.posts[i]))
  }

  /** Every scale question before step `n` has a score. */
  predicate ScaledBefore(scores: map<string, Value>, n: int) {
    forall j :: 0 <= j < n && j < |Questions| && Questions[j].qtype == Scale ==> Questions[j].id in scores
  }

  /** A body this form may have posted: the friend's id with scores and
      answers as the form collects them, a score for every scale question. */
  predicate PostOf(friendId: string, body: Value) {
    && body.Obj? && body.fields.Keys == {TargetKey, ScoresKey, AnswersKey}
    && body.fields[TargetKey] == Str(friendId)
    && body.fields[ScoresKey].Obj? && SurveyForm.FormScores(body.fields[ScoresKey].fields)
    && ScaledBefore(body.fields[ScoresKey].fields, |Questions|)
    && body.fields[AnswersKey].Obj? && SurveyForm.FormAnswers(body.fields[AnswersKey].fields)
  }

  /** The form's reaction to one event. The friend never changes, no event
      drops a score or an answer, only the shown question's answer ever
      changes, posts are only ever appended, one at a time, and a finished
      form ignores everything but timers. */
  function Step(f: Form, e: Event): (r: Form)
    ensures r.friendId == f.friendId
    ensures f.scores.Keys <= r.scores.Keys && f.answers.Keys <= r.answers.Keys
    ensures forall k :: k in f.answers && (!(0 <= f.step < |Questions|) || k != Questions[f.step].id) ==> r.answers[k] == f.answers[k]
    ensures |f.posts| <= |r.posts| <= |f.posts| + 1 && r.posts[..|f.posts|] == f.posts
    ensures f.finished && !e.TimerFires? ==> r == f
  {
    if e.TimerFires? then
      if f.pendingFrom == [] then f
      else
        var s := f.pendingFrom[0];
        var g := f.(pendingFrom := f.pendingFrom[1..]);
        // The component's timer calls the `handleSubmit` of the render at
        // the click, which would post the scores from before that click; here
        // the post carries the current ones. The branch is never taken: the
        // last question, future-text, is a text question, so no advance is
        // ever scheduled from it.
        if s < |Questions| - 1 then g.(step := s + 1) else Submit(g, e.accepted)
    else if f.finished || !(0 <= f.step < |Questions|) then f
    else
      var q := Questions[f.step];
      match e
      case PressScale(v) =>
        if q.qtype == Scale then
          f.(scores := f.scores[q.id := Num(v as real)], answers := f.answers[q.id := Num(v as real)],
             pendingFrom := f.pendingFrom + [f.step])
        else f
      case PressOption(i) =>
        if q.qtype == MultipleChoice && i < |q.options| then
          f.(answers := SurveyForm.ToggleAnswer(f.answers, q.id, q.options[i]))
        else f
      case EditText(t) => if q.qtype == TextAnswer then f.(answers := f.answers[q.id := Str(t)]) else f
      case PressNext(accepted) =>
        if q.qtype == Scale then f
        else if f.step < |Questions| - 1 then f.(step := f.step + 1) else Submit(f, accepted)
      case TimerFires(_) => f
  }

  function Run(f: Form, events: seq<Event>): Form
    decreases |events|
  {
    if events == [] then f else Run(Step(f, events[0]), events[1..])
  }

  lemma SubmitKeepsValid(f: Form, accepted: bool)
    requires Valid(f) && ScaledBefore(f.scores, |Questions|)
    ensures Valid(Submit(f, accepted))
  {
    var r := Submit(f, accepted);
    assert PostOf(f.friendId, Payload(f));
    forall i | 0 <= i < |r.posts| ensures PostOf(f.friendId, r.posts[i]) {
      if i < |f.posts| {
        assert r.posts[i] == f.posts[i];
      }
    }
  }

  /** More scores keep every scale question before a step scored. */
  lemma ScaledBeforeGrows(scores: map<string, Value>, more: map<string, Value>, n: int)
    requires ScaledBefore(scores, n) && scores.Keys <= more.Keys
    ensures ScaledBefore(more, n)
  {
  }

  lemma StepKeepsValid(f: Form, e: Event)
    requires Valid(f)
    ensures Valid(Step(f, e))
  {
    if e.TimerFires? {
      TimerKeepsValid(f, e.accepted);
    } else if !f.finished && 0 <= f.step < |Questions| {
      match e
      case PressOption(i) => OptionKeepsValid(f, i);
      case PressScale(v) => ScaleKeepsValid(f, v);
      case EditText(t) => TextKeepsValid(f, t);
      case PressNext(accepted) => NextKeepsValid(f, accepted);
      case _ =>
    }
  }

  lemma TimerKeepsValid(f: Form, accepted: bool)
    requires Valid(f)
    ensures Valid(Step(f, TimerFires(accepted)))
  {
    TimerStep(f, accepted);
    if f.pendingFrom != [] {
      AdvanceValid(f, accepted);
    }
  }

  /** Taking the oldest pending advance keeps the form valid. */
  lemma AdvanceValid(f: Form, accepted: bool)
    requires Valid(f) && f.pendingFrom != []
    ensures var g := f.(pendingFrom := f.pendingFrom[1..]);
      Valid(if f.pendingFrom[0] < |Questions| - 1 then g.(step := f.pendingFrom[0] + 1) else Submit(g, accepted))
  {
    var g := f.(pendingFrom := f.pendingFrom[1..]);
    assert forall i :: 0 <= i < |g.pendingFrom| ==> g.pendingFrom[i] == f.pendingFrom[i + 1];
    assert Valid(g);
    if f.pendingFrom[0] >= |Questions| - 1 {
      SubmitKeepsValid(g, accepted);
    }
  }

  /** A timer takes the oldest pending advance: it moves one step on from
      the step it was scheduled at, or posts when that was the last
      question. */
  lemma TimerStep(f: Form, accepted: bool)
    ensures Step(f, TimerFires(accepted))
      == if f.pendingFrom == [] then f
         else
           var g := f.(pendingFrom := f.pendingFrom[1..]);
           if f.pendingFrom[0] < |Questions| - 1 then g.(step := f.pendingFrom[0] + 1) else Submit(g, accepted)
  {
  }

  /** A question that is not a scale question carries no scale id. */
  lemma OtherIdsNotScale(f: Form)
    requires 0 <= f.step < |Questions| && Questions[f.step].qtype != Scale
    ensures !IsScaleId(Questions[f.step].id)
  {
    FriendTableHasTwelveDistinctIds();
    var q := Questions[f.step];
    forall i | 0 <= i < |Questions| && Questions[i].qtype == Scale
      ensures Questions[i].id != q.id
    {
      assert i != f.step;
    }
  }

  lemma OptionKeepsValid(f: Form, i: nat)
    requires Valid(f) && !f.finished && 0 <= f.step < |Questions|
    ensures Valid(Step(f, PressOption(i)))
  {
    var q := Questions[f.step];
    OptionStep(f, i);
    if q.qtype == MultipleChoice && i < |q.options| {
      ToggledFormValid(f, q.options[i]);
    }
  }

  /** An option click on a shown multiple-choice question toggles that
      option in its answer, and any other click changes nothing. */
  lemma OptionStep(f: Form, i: nat)
    requires !f.finished && 0 <= f.step < |Questions|
    ensures var q := Questions[f.step];
      Step(f, PressOption(i))
      == if q.qtype == MultipleChoice && i < |q.options|
         then f.(answers := SurveyForm.ToggleAnswer(f.answers, q.id, q.options[i]))
         else f
  {
  }

  lemma ToggledFormValid(f: Form, option: string)
    requires Valid(f) && 0 <= f.step < |Questions| && Questions[f.step].qtype == MultipleChoice
    ensures Valid(f.(answers := SurveyForm.ToggleAnswer(f.answers, Questions[f.step].id, option)))
  {
    OtherIdsNotScale(f);
    SurveyForm.ToggleKeepsForm(f.answers, Questions[f.step].id, option);
  }

  lemma ScaleKeepsValid(f: Form, v: SurveyForm.ScaleValue)
    requires Valid(f) && !f.finished && 0 <= f.step < |Questions|
    ensures Valid(Step(f, PressScale(v)))
  {
    ScaleStep(f, v);
    if Questions[f.step].qtype == Scale {
      ScoredFormValid(f, v);
    }
  }

  /** A button on a shown scale question records its value as both score and
      answer and schedules an advance from this step; on any other question
      it changes nothing. */
  lemma ScaleStep(f: Form, v: SurveyForm.ScaleValue)
    requires !f.finished && 0 <= f.step < |Questions|
    ensures var q := Questions[f.step];
      Step(f, PressScale(v))
      == if q.qtype == Scale
         then f.(scores := f.scores[q.id := Num(v as real)], answers := f.answers[q.id := Num(v as real)],
                 pendingFrom := f.pendingFrom + [f.step])
         else f
  {
  }

  lemma ScoredFormValid(f: Form, v: SurveyForm.ScaleValue)
    requires Valid(f) && 0 <= f.step < |Questions| && Questions[f.step].qtype == Scale
    ensures var id := Questions[f.step].id;
      Valid(f.(scores := f.scores[id := Num(v as real)], answers := f.answers[id := Num(v as real)],
               pendingFrom := f.pendingFrom + [f.step]))
  {
    var q := Questions[f.step];
    var r := f.(scores := f.scores[q.id := Num(v as real)], answers := f.answers[q.id := Num(v as real)],
                pendingFrom := f.pendingFrom + [f.step]);
    assert IsScaleId(q.id);
    ScaledBeforeGrows(f.scores, r.scores, f.step);
    PendingStillScaled(f.scores, r.scores, f.pendingFrom, f.step);
    assert r.posts == f.posts && r.friendId == f.friendId;
  }

  /** Scheduling the advance from step `s`, once its scale question is
      scored, keeps every pending advance's earlier scale questions scored. */
  lemma PendingStillScaled(scores: map<string, Value>, more: map<string, Value>, pending: seq<int>, s: int)
    requires scores.Keys <= more.Keys
    requires ScaledBefore(scores, s) && 0 <= s < |Questions| && Questions[s].id in more
    requires forall i :: 0 <= i < |pending| ==> 0 <= pending[i] < |Questions| && ScaledBefore(scores, pending[i] + 1)
    ensures forall i :: 0 <= i < |pending + [s]| ==>
      0 <= (pending + [s])[i] < |Questions| && ScaledBefore(more, (pending + [s])[i] + 1)
  {
    forall i | 0 <= i < |pending + [s]|
      ensures 0 <= (pending + [s])[i] < |Questions| && ScaledBefore(more, (pending + [s])[i] + 1)
    {
      if i < |pending| {
        assert (pending + [s])[i] == pending[i];
        ScaledBeforeGrows(scores, more, pending[i] + 1);
      } else {
        assert (pending + [s])[i] == s;
        ScaledBeforeGrows(scores, more, s);
      }
    }
  }

  lemma TextKeepsValid(f: Form, t: string)
    requires Valid(f) && !f.finished && 0 <= f.step < |Questions|
    ensures Valid(Step(f, EditText(t)))
  {
    if Questions[f.step].qtype == TextAnswer {
      OtherIdsNotScale(f);
    }
  }

  lemma NextKeepsValid(f: Form, accepted: bool)
    requires Valid(f) && !f.finished && 0 <= f.step < |Questions|
    ensures Valid(Step(f, PressNext(accepted)))
  {
    NavigationStep(f, accepted);
    if Questions[f.step].qtype != Scale {
      MoveOnValid(f, accepted);
    }
  }

  /** Leaving a question that is not a scale question, by a step or a post,
      keeps the form valid. */
  lemma MoveOnValid(f: Form, accepted: bool)
    requires Valid(f) && 0 <= f.step < |Questions| && Questions[f.step].qtype != Scale
    ensures Valid(if f.step < |Questions| - 1 then f.(step := f.step + 1) else Submit(f, accepted))
  {
    assert ScaledBefore(f.scores, f.step + 1);
    if f.step >= |Questions| - 1 {
      SubmitKeepsValid(f, accepted);
    }
  }

  /** The next button, shown on text and multiple-choice questions only,
      moves one step on before the last question and posts at it. */
  lemma NavigationStep(f: Form, accepted: bool)
    requires !f.finished && 0 <= f.step < |Questions|
    ensures Step(f, PressNext(accepted))
      == if Questions[f.step].qtype == Scale then f
         else if f.step < |Questions| - 1 then f.(step := f.step + 1)
         else Submit(f, accepted)
  {
  }

  lemma {:induction false} RunKeepsValid(f: Form, events: seq<Event>)
    requires Valid(f)
    ensures Valid(Run(f, events)) && Run(f, events).friendId == f.friendId
    decreases |events|
  {
    if events != [] {
      StepKeepsValid(f, events[0]);
      RunKeepsValid(Step(f, events[0]), events[1..]);
    }
  }

  /** Whatever happens, the form stays on its questions, and everything it
      has posted names the friend and carries scores on the 1 to 5 scale. */
  lemma AnyRunStaysOnQuestions(friendId: string, events: seq<Event>)
    ensures var f := Run(Start(friendId), events);
      && 0 <= f.step < |Questions|
      && forall i :: 0 <= i < |f.posts| ==> PostOf(friendId, f.posts[i])
  {
    RunKeepsValid(Start(friendId), events);
  }

  /** A scale question is left only by answering it: at every step each
      scale question before it has a score, and every post carries a score
      for each of the eight scale questions. */
  lemma ScaleQuestionsAnsweredBeforeLeaving(friendId: string, events: seq<Event>)
    ensures var f := Run(Start(friendId), events);
      && f.step < |Questions|
      && (forall j :: 0 <= j < f.step && Questions[j].qtype == Scale ==> Questions[j].id in f.scores)
      && forall i, k :: 0 <= i < |f.posts| && k in IdsOfType(Questions, Scale) ==> Field(Field(f.posts[i], ScoresKey), k).Num?
  {
    var f := Run(Start(friendId), events);
    RunKeepsValid(Start(friendId), events);
    FriendTableHasTwelveDistinctIds();
    forall i, k | 0 <= i < |f.posts| && k in IdsOfType(Questions, Scale)
      ensures Field(Field(f.posts[i], ScoresKey), k).Num?
    {
      IdsOfTypeMembers(Questions, Scale, k);
      var j :| 0 <= j < |Questions| && Questions[j].qtype == Scale && Questions[j].id == k;
      assert PostOf(friendId, f.posts[i]);
    }
  }

  /** On a text or multiple-choice question the next button posts exactly at
      the last question and otherwise moves one step on; on a scale question,
      which shows no next button, it does nothing. */
  lemma NextPostsOnlyAtLastStep(f: Form, accepted: bool)
    requires Valid(f) && !f.finished
    ensures var r := Step(f, PressNext(accepted));
      && (Questions[f.step].qtype == Scale ==> r == f)
      && (Questions[f.step].qtype != Scale && f.step < |Questions| - 1 ==> r.step == f.step + 1 && r.posts == f.posts)
      && (Questions[f.step].qtype != Scale && f.step == |Questions| - 1 ==>
            r.step == f.step && r.posts == f.posts + [Payload(f)] && r.finished == accepted)
  {
  }

  // ----- the friend-feedback endpoint -----

  /** The name the endpoint records as the respondent, for every post. */
  const RespondentName := "지수"

  datatype RouteResult = MissingTarget | Stored(feedback: PeerFeedback) | StoreFailed

  /** The friend-feedback POST: a falsy target is refused with 400; anything
      else is stored for that target, with the scores and answers exactly as
      sent and neither validated. A `null` or `undefined` body throws on
      destructuring, and a target that is not a string is refused by the
      store; both end in the 500 branch. */
  function FriendFeedback(body: Value): (r: RouteResult)
    ensures r.MissingTarget? <==> !body.Null? && !body.Undefined? && !Truthy(Field(body, TargetKey))
    ensures r.StoreFailed? <==>
      body.Null? || body.Undefined? || (Truthy(Field(body, TargetKey)) && !Field(body, TargetKey).Str?)
    ensures r.Stored? ==>
      && Field(body, TargetKey) == Str(r.feedback.userId) && r.feedback.respondentName == RespondentName
      && r.feedback.scores == Field(body, ScoresKey) && r.feedback.answers == Field(body, AnswersKey)
  {
    if body.Null? || body.Undefined? then StoreFailed
    else
      var target := Field(body, TargetKey);
      if !Truthy(target) then MissingTarget
      else if !target.Str? then StoreFailed
      else Stored(PeerFeedback(target.s, RespondentName, Field(body, ScoresKey), Field(body, AnswersKey)))
  }

  /** A post of this form is stored for the friend exactly when the friend id
      is not empty, with the form's scores, one on the 1 to 5 scale for every
      scale question. */
  lemma PostStoredForFriend(f: Form)
    requires Valid(f) && ScaledBefore(f.scores, |Questions|)
    ensures FriendFeedback(Payload(f)).MissingTarget? <==> f.friendId == ""
    ensures FriendFeedback(Payload(f)).Stored? <==> f.friendId != ""
    ensures FriendFeedback(Payload(f)).Stored? ==>
      var fb := FriendFeedback(Payload(f)).feedback;
      && fb.userId == f.friendId
      && fb.scores == Obj(f.scores)
      && (forall k :: Field(fb.scores, k) != Undefined ==> Validation.InScale(Field(fb.scores, k)))
      && forall j :: 0 <= j < |Questions| && Questions[j].qtype == Scale ==> Field(fb.scores, Questions[j].id).Num?
  {
    assert Field(Payload(f), TargetKey) == Str(f.friendId);
    assert Field(Payload(f), ScoresKey) == Obj(f.scores);
  }

  /** The endpoint stores whatever it is sent: a post whose answers are
      `null` is accepted, and from then on the target's discover view fails
      with the 500 instead of showing its radar. */
  lemma NullAnswersBreakDiscover(target: string, latest: SurveyResponse)
    requires target != ""
    ensures var r := FriendFeedback(Obj(map[TargetKey := Str(target), ScoresKey := Obj(map[]), AnswersKey := Null]));
      && r.Stored?
      && Discover.GetDiscover(Some(latest), [r.feedback]) == Discover.FetchFailed
  {
    var body := Obj(map[TargetKey := Str(target), ScoresKey := Obj(map[]), AnswersKey := Null]);
    assert Field(body, TargetKey) == Str(target);
    assert Field(body, AnswersKey) == Null;
    var fb := FriendFeedback(body).feedback;
    assert !Discover.Readable([fb][0]);
  }
}

=== FILE: self_survey.dfy ===
/** The self-survey form: one question per step, answers kept by question
    id, a scale answer that moves on by itself after a short delay, and a
    final step that sends the answers to the discover endpoint. */
module SelfSurvey {
  import opened Js
  import opened Records
  import opened SurveyQuestions
  import SurveyForm
  import Discover

  const Questions: seq<Question> := SelfSurveyQuestions

  /** How the final request fares: it reaches the server, or the network
      refuses it. */
  datatype Delivery = Delivered | Unreachable

  /** The component's state. `pendingAdvances` counts the delayed step
      changes scheduled by scale answers that have not fired yet; `step` is
      an integer so that a step outside the table can be stated. */
  datatype Form = Form(step: int, answers: map<string, Value>, pendingAdvances: nat,
                       completed: bool, result: Option<seq<RadarItem>>)

  /** The user's and the timer's actions. Buttons that are not on screen or
      disabled cannot be pressed: such an event changes nothing. */
  datatype Event =
    | PressScale(value: SurveyForm.ScaleValue)
    | PressOption(index: nat)
    | EditText(text: string)
    | PressNext(delivery: Delivery)
    | PressPrev
    | TimerFires
    | ReviseAnswers

  const Initial := Form(0, map[], 0, false, None)

  predicate OnQuestion(f: Form) {
    0 <= f.step < |Questions|
  }

  /** The invariant the form keeps: it shows one of its questions and its
      answers are scores, texts or lists of options. */
  predicate Valid(f: Form) {
    OnQuestion(f) && SurveyForm.FormAnswers(f.answers)
  }

  /** `updateAnswer`: records the answer to the shown question only; a scale
      answer before the last question schedules one advance. */
  function UpdateAnswer(f: Form, v: Value): (r: Form)
    requires OnQuestion(f)
    ensures r.answers.Keys == f.answers.Keys + {Questions[f.step].id}
    ensures r.answers[Questions[f.step].id] == v
    ensures forall k :: k in f.answers && k != Questions[f.step].id ==> r.answers[k] == f.answers[k]
    ensures r.step == f.step && r.completed == f.completed
    ensures r.pendingAdvances == f.pendingAdvances + 1 <==>
      Questions[f.step].qtype == Scale && f.step < |Questions| - 1
    ensures r.pendingAdvances == f.pendingAdvances || r.pendingAdvances == f.pendingAdvances + 1
  {
    var q := Questions[f.step];
    var advance := if q.qtype == Scale && f.step < |Questions| - 1 then 1 else 0;
    f.(answers := f.answers[q.id := v], pendingAdvances := f.pendingAdvances + advance)
  }

  /** `isCurrentStepValid`: a multiple-choice question needs a non-empty
      answer; any other question needs an answer other than the empty text. */
  function IsCurrentStepValid(f: Form): (r: bool)
    requires OnQuestion(f)
    ensures Questions[f.step].qtype == MultipleChoice ==>
      (r <==> Questions[f.step].id in f.answers && Truthy(f.answers[Questions[f.step].id])
              && ((f.answers[Questions[f.step].id].Arr? && |f.answers[Questions[f.step].id].elems| > 0)
                  || f.answers[Questions[f.step].id].Str?))
    ensures Questions[f.step].qtype != MultipleChoice ==>
      (r <==> Questions[f.step].id in f.answers
              && f.answers[Questions[f.step].id] != Undefined && f.answers[Questions[f.step].id] != Str(""))
  {
    var q := Questions[f.step];
    var answer := if q.id in f.answers then f.answers[q.id] else Undefined;
    if q.qtype == MultipleChoice then
      Truthy(answer) && match answer
        case Arr(xs) => |xs| > 0
        case Str(s) => |s| > 0
        case _ => false
    else answer != Undefined && answer != Str("")
  }

  /** The body the last step posts. */
  function Payload(answers: map<string, Value>): Value {
    Obj(map["answers" := Obj(answers)])
  }

  /** `handleNext`: one step on, or at the last question the submission. A
      stored survey completes the form with the server's radar; a refused
      store leaves the form as it is; an unreachable server completes it
      without a radar. */
  function Next(f: Form, delivery: Delivery): (r: Form)
    requires OnQuestion(f)
    ensures f.step < |Questions| - 1 ==> r == f.(step := f.step + 1)
    ensures f.step == |Questions| - 1 && delivery == Unreachable ==> r == f.(completed := true)
    ensures f.step == |Questions| - 1 && delivery == Delivered ==>
      r == f.(completed := true, result := Some(Discover.SelfRadar(Obj(f.answers))))
  {
    if f.step < |Questions| - 1 then f.(step := f.step + 1)
    else match delivery
      case Unreachable => f.(completed := true)
      case Delivered =>
        match Discover.SubmitSelfSurvey(Payload(f.answers))
        case Saved(radar, _) => f.(completed := true, result := Some(radar))
        case SaveFailed => f
  }

  /** One scheduled advance fires. The step moves on only while a later
      question exists (see `FireAsWritten` for the unguarded original). */
  function Fire(f: Form): (r: Form)
    ensures f.pendingAdvances == 0 ==> r == f
    ensures f.pendingAdvances > 0 ==> r.pendingAdvances == f.pendingAdvances - 1
    ensures f.pendingAdvances > 0 && f.step < |Questions| - 1 ==> r.step == f.step + 1
    ensures f.step >= |Questions| - 1 ==> r.step == f.step
  {
    if f.pendingAdvances == 0 then f
    else f.(step := if f.step < |Questions| - 1 then f.step + 1 else f.step,
            pendingAdvances := f.pendingAdvances - 1)
  }

  /** The delayed advance as the component schedules it: `prev + 1` with no
      bound, read when the timer fires. */
  function FireAsWritten(f: Form): (r: Form)
    ensures f.pendingAdvances > 0 ==> r.step == f.step + 1
  {
    if f.pendingAdvances == 0 then f
    else f.(step := f.step + 1, pendingAdvances := f.pendingAdvances - 1)
  }

  /** The form's reaction to one event, with the guarded timer. No event
      moves more than one step or drops an answer, only the shown question's
      answer ever changes, and a completed form only reopens. */
  function Step(f: Form, e: Event): (r: Form)
    ensures f.step - 1 <= r.step <= f.step + 1
    ensures f.answers.Keys <= r.answers.Keys
    ensures forall k :: k in f.answers && (!OnQuestion(f) || k != Questions[f.step].id) ==> r.answers[k] == f.answers[k]
    ensures f.completed && !e.TimerFires? ==> r == (if e.ReviseAnswers? then f.(completed := false) else f)
  {
    if e.TimerFires? then Fire(f)
    else if f.completed then (if e.ReviseAnswers? then f.(completed := false) else f)
    else if !OnQuestion(f) then f
    else
      var q := Questions[f.step];
      match e
      case PressScale(v) => if q.qtype == Scale then UpdateAnswer(f, Num(v as real)) else f
      case PressOption(i) =>
        if q.qtype == MultipleChoice && i < |q.options| then
          UpdateAnswer(f, StrArr(SurveyForm.Toggle(SurveyForm.Choices(f.answers, q.id), q.options[i])))
        else f
      case EditText(t) => if q.qtype == TextAnswer then UpdateAnswer(f, Str(t)) else f
      case PressNext(d) => if IsCurrentStepValid(f) then Next(f, d) else f
      case PressPrev => if f.step > 0 then f.(step := f.step - 1) else f
      case TimerFires => f
      case ReviseAnswers => f
  }

  /** The same reaction with the timer as the component writes it. */
  function StepAsWritten(f: Form, e: Event): Form {
    if e.TimerFires? then FireAsWritten(f) else Step(f, e)
  }

  function Run(f: Form, events: seq<Event>): Form
    decreases |events|
  {
    if events == [] then f else Run(Step(f, events[0]), events[1..])
  }

  function RunAsWritten(f: Form, events: seq<Event>): Form
    decreases |events|
  {
    if events == [] then f else RunAsWritten(StepAsWritten(f, events[0]), events[1..])
  }

  /** Every event keeps the form on one of its questions with well-formed
      answers. */
  lemma StepKeepsValid(f: Form, e: Event)
    requires Valid(f)
    ensures Valid(Step(f, e))
  {
    if !e.TimerFires? && !f.completed {
      var q := Questions[f.step];
      match e
      case PressOption(i) =>
        if q.qtype == MultipleChoice && i < |q.options| {
          SurveyForm.ToggleKeepsForm(f.answers, q.id, q.options[i]);
        }
      case _ =>
    }
  }

  lemma {:induction false} RunKeepsValid(f: Form, events: seq<Event>)
    requires Valid(f)
    ensures Valid(Run(f, events))
    decreases |events|
  {
    if events != [] {
      StepKeepsValid(f, events[0]);
      RunKeepsValid(Step(f, events[0]), events[1..]);
    }
  }

  /** Whatever the user does, the form never leaves its question table. */
  lemma AnyRunStaysOnQuestions(events: seq<Event>)
    ensures OnQuestion(Run(Initial, events))
  {
    RunKeepsValid(Initial, events);
  }

  /** A submission that is stored completes the form with the radar scored
      from exactly its answers, each self score on the 1 to 5 scale. */
  lemma SubmittedRadarInScale(f: Form)
    requires Valid(f) && !f.completed && f.step == |Questions| - 1 && IsCurrentStepValid(f)
    ensures var r := Step(f, PressNext(Delivered));
      && r.completed && r.result == Some(Discover.SelfRadar(Obj(f.answers)))
      && forall i :: 0 <= i < 6 ==> 1.0 <= r.result.value[i].a <= 5.0
  {
    SurveyForm.FormAnswersScoreInScale(f.answers);
  }

  /** The unguarded timer leaves the table: two quick answers on the
      second-to-last question, a scale question, schedule two advances, and
      the second lands one step past the last question, where the component
      reads a question that does not exist. */
  lemma AsWrittenDoubleAnswerOvershoots(f: Form)
    requires Valid(f) && !f.completed && f.step == |Questions| - 2 && f.pendingAdvances == 0
    ensures RunAsWritten(f, [PressScale(5), PressScale(5), TimerFires, TimerFires]).step == |Questions|
    ensures !OnQuestion(RunAsWritten(f, [PressScale(5), PressScale(5), TimerFires, TimerFires]))
  {
    var e := [PressScale(5), PressScale(5), TimerFires, TimerFires];
    var f1 := StepAsWritten(f, e[0]);
    assert f1.step == f.step && f1.pendingAdvances == 1;
    var f2 := StepAsWritten(f1, e[1]);
    assert f2.step == f.step && f2.pendingAdvances == 2;
    var f3 := StepAsWritten(f2, e[2]);
    assert f3.step == f.step + 1 && f3.pendingAdvances == 1;
    var f4 := StepAsWritten(f3, e[3]);
    assert f4.step == f.step + 2;
    assert e[1..][1..][1..][1..] == [];
    assert RunAsWritten(f, e) == RunAsWritten(f1, e[1..]);
    assert RunAsWritten(f1, e[1..]) == RunAsWritten(f2, e[1..][1..]);
    assert RunAsWritten(f2, e[1..][1..]) == RunAsWritten(f3, e[1..][1..][1..]);
    assert RunAsWritten(f3, e[1..][1..][1..]) == f4;
  }

  /** The same two answers under the guarded timer stay on the last
      question. */
  lemma GuardedDoubleAnswerStays(f: Form)
    requires Valid(f) && !f.completed && f.step == |Questions| - 2 && f.pendingAdvances == 0
    ensures Run(f, [PressScale(5), PressScale(5), TimerFires, TimerFires]).step == |Questions| - 1
  {
    var e := [PressScale(5), PressScale(5), TimerFires, TimerFires];
    var f1 := Step(f, e[0]);
    var f2 := Step(f1, e[1]);
    var f3 := Step(f2, e[2]);
    assert f3.step == |Questions| - 1 && f3.pendingAdvances == 1;
    var f4 := Step(f3, e[3]);
    assert f4.step == |Questions| - 1;
    assert e[1..][1..][1..][1..] == [];
    assert Run(f, e) == Run(f1, e[1..]);
    assert Run(f1, e[1..]) == Run(f2, e[1..][1..]);
    assert Run(f2, e[1..][1..]) == Run(f3, e[1..][1..][1..]);
    assert Run(f3, e[1..][1..][1..]) == f4;
  }

  lemma {:induction false} RunAsWrittenAppend(f: Form, a: seq<Event>, b: seq<Event>)
    ensures RunAsWritten(f, a + b) == RunAsWritten(RunAsWritten(f, a), b)
    decreases |a|
  {
    if a == [] {
      assert a + b == b;
    } else {
      assert (a + b)[1..] == a[1..] + b;
      RunAsWrittenAppend(StepAsWritten(f, a[0]), a[1..], b);
    }
  }

  /** A form at rest on a question before the last one, waiting for input. */
  predicate Waiting(f: Form) {
    Valid(f) && !f.completed && f.pendingAdvances == 0 && f.step < |Questions| - 1
  }

  lemma AnswerScale(f: Form)
    requires Waiting(f) && Questions[f.step].qtype == Scale
    ensures var g := RunAsWritten(f, [PressScale(3), TimerFires]);
      Valid(g) && !g.completed && g.pendingAdvances == 0 && g.step == f.step + 1
      && g.answers.Keys == f.answers.Keys + {Questions[f.step].id}
  {
    var e: seq<Event> := [PressScale(3), TimerFires];
    StepKeepsValid(f, e[0]);
    assert e[1..][1..] == [];
  }

  lemma AnswerText(f: Form)
    requires Waiting(f) && Questions[f.step].qtype == TextAnswer
    ensures var g := RunAsWritten(f, [EditText("a"), PressNext(Delivered)]);
      Valid(g) && !g.completed && g.pendingAdvances == 0 && g.step == f.step + 1
      && g.answers.Keys == f.answers.Keys + {Questions[f.step].id}
  {
    var e: seq<Event> := [EditText("a"), PressNext(Delivered)];
    StepKeepsValid(f, e[0]);
    StepKeepsValid(Step(f, e[0]), e[1]);
    assert e[1..][1..] == [];
  }

  lemma AnswerOption(f: Form)
    requires Waiting(f) && Questions[f.step].qtype == MultipleChoice && |Questions[f.step].options| > 0
    requires Questions[f.step].id !in f.answers
    ensures var g := RunAsWritten(f, [PressOption(0), PressNext(Delivered)]);
      Valid(g) && !g.completed && g.pendingAdvances == 0 && g.step == f.step + 1
      && g.answers.Keys == f.answers.Keys + {Questions[f.step].id}
  {
    var e: seq<Event> := [PressOption(0), PressNext(Delivered)];
    var q := Questions[f.step];
    var choice := SurveyForm.Toggle(SurveyForm.Choices(f.answers, q.id), q.options[0]);
    assert q.options[0] in choice;
    var f1 := UpdateAnswer(f, StrArr(choice));
    assert Step(f, e[0]) == f1;
    StepKeepsValid(f, e[0]);
    assert f1.answers[q.id] == StrArr(choice);
    assert IsCurrentStepValid(f1);
    StepKeepsValid(f1, e[1]);
    assert e[1..][1..] == [];
  }

  /** The clicks that answer a question of each type. */
  function Answering(q: Question): seq<Event> {
    match q.qtype
    case Scale => [PressScale(3), TimerFires]
    case MultipleChoice => [PressOption(0), PressNext(Delivered)]
    case TextAnswer => [EditText("a"), PressNext(Delivered)]
  }

  /** Answering the first `k` questions in order. */
  function WalkTo(k: nat): seq<Event>
    requires k <= |Questions|
  {
    if k == 0 then [] else WalkTo(k - 1) + Answering(Questions[k - 1])
  }

  const DoubleClick: seq<Event> := [PressScale(5), PressScale(5), TimerFires, TimerFires]

  lemma EveryChoiceQuestionHasOptions()
    ensures forall i :: 0 <= i < |Questions| && Questions[i].qtype == MultipleChoice ==> |Questions[i].options| > 0
  {
  }

  lemma {:induction false} WalkReaches(k: nat)
    requires k < |Questions| - 1
    ensures var g := RunAsWritten(Initial, WalkTo(k));
      && Waiting(g) && g.step == k
      && forall j :: k <= j < |Questions| ==> Questions[j].id !in g.answers
  {
    if k == 0 {
      assert RunAsWritten(Initial, WalkTo(0)) == Initial;
      InitialWaits();
    } else {
      WalkReaches(k - 1);
      var g := RunAsWritten(Initial, WalkTo(k - 1));
      assert WalkTo(k) == WalkTo(k - 1) + Answering(Questions[g.step]);
      RunAsWrittenAppend(Initial, WalkTo(k - 1), Answering(Questions[g.step]));
      var h := RunAsWritten(Initial, WalkTo(k));
      assert h == RunAsWritten(g, Answering(Questions[g.step]));
      AnswerCurrent(g);
      assert Waiting(h) && h.step == k;
      SelfIdsDistinct();
      forall j | k <= j < |Questions|
        ensures Questions[j].id !in h.answers
      {
        assert Questions[j].id != Questions[k - 1].id;
      }
    }
  }

  /** A fresh form waits on the first question with nothing answered. */
  lemma InitialWaits()
    ensures Waiting(Initial) && Initial.step == 0 && Initial.answers == map[]
  {
  }

  /** Answering the question on screen, whatever its type, moves one step on
      and records exactly that question's answer. */
  lemma AnswerCurrent(f: Form)
    requires Waiting(f) && Questions[f.step].id !in f.answers
    ensures var g := RunAsWritten(f, Answering(Questions[f.step]));
      Valid(g) && !g.completed && g.pendingAdvances == 0 && g.step == f.step + 1
      && g.answers.Keys == f.answers.Keys + {Questions[f.step].id}
  {
    EveryChoiceQuestionHasOptions();
    match Questions[f.step].qtype
    case Scale => AnswerScale(f);
    case MultipleChoice => AnswerOption(f);
    case TextAnswer => AnswerText(f);
  }

  /** The self table's ids are pairwise distinct, as the peer table's are. */
  lemma SelfIdsDistinct()
    ensures DistinctIds(Questions)
  {
    FriendTableHasTwelveDistinctIds();
    SelfTableMatchesFriendTable();
  }

  /** From a fresh form, a user who answers the questions in order and then
      double-clicks a scale button on the second-to-last question leaves the
      table. */
  lemma AsWrittenLeavesTableFromStart()
    ensures RunAsWritten(Initial, WalkTo(|Questions| - 2) + DoubleClick).step == |Questions|
  {
    WalkReaches(|Questions| - 2);
    RunAsWrittenAppend(Initial, WalkTo(|Questions| - 2), DoubleClick);
    AsWrittenDoubleAnswerOvershoots(RunAsWritten(Initial, WalkTo(|Questions| - 2)));
  }
}

=== FILE: survey_form.dfy ===
/** What the three question-by-question forms share: the scale buttons, the
    multiple-choice toggle and the shape of the answers they collect. */
module SurveyForm {
  import opened Js
  import Validation
  import Discover

  /** A scale button's value: the buttons are labelled 1 to 5. */
  type ScaleValue = v: int | 1 <= v <= 5 witness 1

  /** `current.filter(o => o !== option)`. */
  function Remove(current: seq<string>, option: string): (r: seq<string>)
    ensures |r| <= |current|
    ensures forall y :: y in r <==> y in current && y != option
  {
    if current == [] then []
    else (if current[0] == option then [] else [current[0]]) + Remove(current[1..], option)
  }

  lemma {:induction false} RemoveAppend(a: seq<string>, b: seq<string>, option: string)
    ensures Remove(a + b, option) == Remove(a, option) + Remove(b, option)
  {
    if a == [] {
      assert a + b == b;
    } else {
      assert (a + b)[1..] == a[1..] + b;
      RemoveAppend(a[1..], b, option);
    }
  }

  lemma {:induction false} RemoveAbsent(current: seq<string>, option: string)
    requires option !in current
    ensures Remove(current, option) == current
  {
    if current != [] {
      RemoveAbsent(current[1..], option);
      assert current == [current[0]] + current[1..];
    }
  }

  /** Clicking an option: a chosen option is unchosen, any other is chosen
      last. Every other option keeps its state. */
  function Toggle(current: seq<string>, option: string): (r: seq<string>)
    ensures option in r <==> option !in current
    ensures forall y :: y != option ==> (y in r <==> y in current)
  {
    if option in current then Remove(current, option) else current + [option]
  }

  predicate Distinct(xs: seq<string>) {
    forall i, j :: 0 <= i < j < |xs| ==> xs[i] != xs[j]
  }

  lemma {:induction false} RemoveKeepsDistinct(current: seq<string>, option: string)
    requires Distinct(current)
    ensures Distinct(Remove(current, option))
  {
    if current != [] {
      assert Distinct(current[1..]) by {
        forall i, j | 0 <= i < j < |current[1..]| ensures current[1..][i] != current[1..][j] {
          assert current[1..][i] == current[i + 1] && current[1..][j] == current[j + 1];
        }
      }
      RemoveKeepsDistinct(current[1..], option);
      assert current[0] !in current[1..] by {
        forall k | 0 <= k < |current[1..]| ensures current[1..][k] != current[0] {
          assert current[1..][k] == current[k + 1];
        }
      }
    }
  }

  /** An option is never listed twice. */
  lemma ToggleKeepsDistinct(current: seq<string>, option: string)
    requires Distinct(current)
    ensures Distinct(Toggle(current, option))
  {
    if option in current {
      RemoveKeepsDistinct(current, option);
    }
  }

  /** Choosing an unchosen option and unchoosing it again restores the list
      exactly. */
  lemma ToggleTwiceRestores(current: seq<string>, option: string)
    requires option !in current
    ensures Toggle(Toggle(current, option), option) == current
  {
    RemoveAppend(current, [option], option);
    RemoveAbsent(current, option);
    assert Remove([option], option) == [];
  }

  /** `answers[id] || []` for a multiple-choice question, whose answer is only
      ever written as a list of options. */
  function Choices(answers: map<string, Value>, id: string): (r: seq<string>)
    ensures id !in answers ==> r == []
  {
    if id in answers && IsStringArray(answers[id]) then Strings(answers[id]) else []
  }

  /** The answer a multiple-choice click leaves at `id`. */
  function ToggleAnswer(answers: map<string, Value>, id: string, option: string): (r: map<string, Value>)
    ensures r.Keys == answers.Keys + {id}
    ensures forall k :: k in answers && k != id ==> r[k] == answers[k]
    ensures IsStringArray(r[id]) && Strings(r[id]) == Toggle(Choices(answers, id), option)
  {
    answers[id := StrArr(Toggle(Choices(answers, id), option))]
  }

  /** A value the forms write: a button's score, a text, or a list of options. */
  predicate FormAnswer(v: Value) {
    Validation.InScale(v) || v.Str? || IsStringArray(v)
  }

  predicate FormAnswers(answers: map<string, Value>) {
    forall k :: k in answers ==> FormAnswer(answers[k])
  }

  predicate FormScores(scores: map<string, Value>) {
    forall k :: k in scores ==> Validation.InScale(scores[k])
  }

  /** Every form's answers pass the server's answer validation. */
  lemma FormAnswersPassValidation(answers: map<string, Value>)
    requires FormAnswers(answers)
    ensures Validation.ValidateSurveyAnswers(Obj(answers))
  {
    forall k | k in answers ensures Validation.IsAnswerValue(answers[k]) {
      assert FormAnswer(answers[k]);
    }
  }

  /** Every form's scores pass the server's score validation. */
  lemma FormScoresPassValidation(scores: map<string, Value>)
    requires FormScores(scores)
    ensures Validation.ValidateScores(Obj(scores))
  {
  }

  /** The self scores computed from a form's answers lie on the scale. */
  lemma FormAnswersScoreInScale(answers: map<string, Value>)
    requires FormAnswers(answers)
    ensures forall i :: 0 <= i < 6 ==> 1.0 <= Discover.SelfRadar(Obj(answers))[i].a <= 5.0
  {
    forall i | 0 <= i < |Discover.SelfScoreKeys| ensures Discover.ReadsInScale(Obj(answers), Discover.SelfScoreKeys[i]) {
      var k := Discover.SelfScoreKeys[i];
      if k in answers {
        assert FormAnswer(answers[k]);
      }
    }
    Discover.SelfScoresInScale(Obj(answers));
  }

  /** Recording a button's score keeps the answers well formed. */
  lemma WithScoreKeepsForm(answers: map<string, Value>, id: string, v: ScaleValue)
    requires FormAnswers(answers)
    ensures FormAnswers(answers[id := Num(v as real)])
  {
  }

  /** A multiple-choice click keeps the answers well formed. */
  lemma ToggleKeepsForm(answers: map<string, Value>, id: string, option: string)
    requires FormAnswers(answers)
    ensures FormAnswers(ToggleAnswer(answers, id, option))
  {
  }
}

=== FILE: survey_questions.dfy ===
/** The fixed question tables: the peer-evaluation table shared by the two
    friend surveys and the self-survey's own table. Display text, scale labels
    and placeholders are presentation and are left out; ids, sections, types
    and options are what the scoring code and the stored answers depend on. */
module SurveyQuestions {

  datatype Section = Basic | Past | Present | Future

  datatype QuestionType = Scale | MultipleChoice | TextAnswer

  /** A question; `options` is empty for the questions that have none. */
  datatype Question = Question(id: string, section: Section, qtype: QuestionType, options: seq<string>)

  /** The question ids, shared by both tables and by the stored answers. */
  const Basic1Id: string := "basic1"
  const Past1Id: string := "past1"
  const Past2Id: string := "past2"
  const PastSelectId: string := "past-select"
  const PastTextId: string := "past-text"
  const Present1Id: string := "present1"
  const Present2Id: string := "present2"
  const PresentSelectId: string := "present-select"
  const PresentTextId: string := "present-text"
  const Future1Id: string := "future1"
  const Future2Id: string := "future2"
  const FutureTextId: string := "future-text"

  /** The options of `past-select`, worded about the friend and about oneself. */
  const FriendPastOptions: seq<string> := ["운이나 타이밍", "주변 사람들의 도움", "본인의 노력과 역량"]
  const SelfPastOptions: seq<string> := ["운이나 좋은 타이밍", "주변 사람들의 도움", "나의 노력과 역량"]

  /** The peer-evaluation table, in survey order. */
  const FriendEvaluationQuestions: seq<Question> := [
    Question(Basic1Id, Basic, Scale, []),
    Question(Past1Id, Past, Scale, []),
    Question(Past2Id, Past, Scale, []),
    Question(PastSelectId, Past, MultipleChoice, FriendPastOptions),
    Question(PastTextId, Past, TextAnswer, []),
    Question(Present1Id, Present, Scale, []),
    Question(Present2Id, Present, Scale, []),
    Question(PresentSelectId, Present, Scale, []),
    Question(PresentTextId, Present, TextAnswer, []),
    Question(Future1Id, Future, Scale, []),
    Question(Future2Id, Future, Scale, []),
    Question(FutureTextId, Future, TextAnswer, [])
  ]

  /** The self-survey's table: the same ids, sections and types, with the
      multiple-choice options worded for oneself. */
  const SelfSurveyQuestions: seq<Question> := [
    Question(Basic1Id, Basic, Scale, []),
    Question(Past1Id, Past, Scale, []),
    Question(Past2Id, Past, Scale, []),
    Question(PastSelectId, Past, MultipleChoice, SelfPastOptions),
    Question(PastTextId, Past, TextAnswer, []),
    Question(Present1Id, Present, Scale, []),
    Question(Present2Id, Present, Scale, []),
    Question(PresentSelectId, Present, Scale, []),
    Question(PresentTextId, Present, TextAnswer, []),
    Question(Future1Id, Future, Scale, []),
    Question(Future2Id, Future, Scale, []),
    Question(FutureTextId, Future, TextAnswer, [])
  ]

  /** The ids of the questions of type `t`, in table order. */
  function IdsOfType(qs: seq<Question>, t: QuestionType): (r: seq<string>)
    ensures |r| <= |qs|
  {
    IdsOfTypeIn(qs, t, |qs|)
  }

  /** The ids of type `t` among the first `n` questions. */
  function IdsOfTypeIn(qs: seq<Question>, t: QuestionType, n: nat): (r: seq<string>)
    requires n <= |qs|
    ensures |r| <= n
  {
    if n == 0 then []
    else IdsOfTypeIn(qs, t, n - 1) + (if qs[n - 1].qtype == t then [qs[n - 1].id] else [])
  }

  /** An id is listed for type `t` among the first `n` questions exactly when
      one of them has type `t` and carries that id. */
  lemma {:induction false} IdsOfTypeInMembers(qs: seq<Question>, t: QuestionType, n: nat, k: string)
    requires n <= |qs|
    ensures k in IdsOfTypeIn(qs, t, n) <==> exists i :: 0 <= i < n && qs[i].qtype == t && qs[i].id == k
  {
    if n > 0 {
      IdsOfTypeInMembers(qs, t, n - 1, k);
    }
  }

  /** An id is listed for type `t` exactly when some question of type `t`
      carries it. */
  lemma IdsOfTypeMembers(qs: seq<Question>, t: QuestionType, k: string)
    ensures k in IdsOfType(qs, t) <==> exists i :: 0 <= i < |qs| && qs[i].qtype == t && qs[i].id == k
  {
    IdsOfTypeInMembers(qs, t, |qs|, k);
  }

  /** No two questions share an id. */
  predicate DistinctIds(qs: seq<Question>) {
    forall i, j :: 0 <= i < j < |qs| ==> qs[i].id != qs[j].id
  }

  /** The peer table has twelve questions with pairwise distinct ids. */
  lemma FriendTableHasTwelveDistinctIds()
    ensures |FriendEvaluationQuestions| == 12
    ensures DistinctIds(FriendEvaluationQuestions)
  {
  }

  /** The SCALE ids of the peer table; `present-select` is a SCALE question
      despite its name. */
  lemma FriendTableScaleIds()
    ensures IdsOfType(FriendEvaluationQuestions, Scale)
         == [Basic1Id, Past1Id, Past2Id, Present1Id, Present2Id, PresentSelectId, Future1Id, Future2Id]
  {
    FriendScaleIdsOfFirstSix();
    assert IdsOfTypeIn(FriendEvaluationQuestions, Scale, 7) == [Basic1Id, Past1Id, Past2Id, Present1Id, Present2Id];
    assert IdsOfTypeIn(FriendEvaluationQuestions, Scale, 8) == [Basic1Id, Past1Id, Past2Id, Present1Id, Present2Id, PresentSelectId];
    assert IdsOfTypeIn(FriendEvaluationQuestions, Scale, 9) == [Basic1Id, Past1Id, Past2Id, Present1Id, Present2Id, PresentSelectId];
    assert IdsOfTypeIn(FriendEvaluationQuestions, Scale, 10) == [Basic1Id, Past1Id, Past2Id, Present1Id, Present2Id, PresentSelectId, Future1Id];
    assert IdsOfTypeIn(FriendEvaluationQuestions, Scale, 11) == [Basic1Id, Past1Id, Past2Id, Present1Id, Present2Id, PresentSelectId, Future1Id, Future2Id];
    assert IdsOfTypeIn(FriendEvaluationQuestions, Scale, 12) == [Basic1Id, Past1Id, Past2Id, Present1Id, Present2Id, PresentSelectId, Future1Id, Future2Id];
  }

  /** The SCALE ids among the first six questions of the peer table. */
  lemma FriendScaleIdsOfFirstSix()
    ensures IdsOfTypeIn(FriendEvaluationQuestions, Scale, 6) == [Basic1Id, Past1Id, Past2Id, Present1Id]
  {
    assert IdsOfTypeIn(FriendEvaluationQuestions, Scale, 1) == [Basic1Id];
    assert IdsOfTypeIn(FriendEvaluationQuestions, Scale, 2) == [Basic1Id, Past1Id];
    assert IdsOfTypeIn(FriendEvaluationQuestions, Scale, 3) == [Basic1Id, Past1Id, Past2Id];
    assert IdsOfTypeIn(FriendEvaluationQuestions, Scale, 4) == [Basic1Id, Past1Id, Past2Id];
    assert IdsOfTypeIn(FriendEvaluationQuestions, Scale, 5) == [Basic1Id, Past1Id, Past2Id];
  }

  /** The TEXT ids of the peer table. */
  lemma FriendTableTextIds()
    ensures IdsOfType(FriendEvaluationQuestions, TextAnswer) == [PastTextId, PresentTextId, FutureTextId]
  {
    FriendTextIdsOfFirstSix();
    assert IdsOfTypeIn(FriendEvaluationQuestions, TextAnswer, 7) == [PastTextId];
    assert IdsOfTypeIn(FriendEvaluationQuestions, TextAnswer, 8) == [PastTextId];
    assert IdsOfTypeIn(FriendEvaluationQuestions, TextAnswer, 9) == [PastTextId, PresentTextId];
    assert IdsOfTypeIn(FriendEvaluationQuestions, TextAnswer, 10) == [PastTextId, PresentTextId];
    assert IdsOfTypeIn(FriendEvaluationQuestions, TextAnswer, 11) == [PastTextId, PresentTextId];
    assert IdsOfTypeIn(FriendEvaluationQuestions, TextAnswer, 12) == [PastTextId, PresentTextId, FutureTextId];
  }

  /** The TEXT ids among the first six questions of the peer table. */
  lemma FriendTextIdsOfFirstSix()
    ensures IdsOfTypeIn(FriendEvaluationQuestions, TextAnswer, 6) == [PastTextId]
  {
    assert IdsOfTypeIn(FriendEvaluationQuestions, TextAnswer, 1) == [];
    assert IdsOfTypeIn(FriendEvaluationQuestions, TextAnswer, 2) == [];
    assert IdsOfTypeIn(FriendEvaluationQuestions, TextAnswer, 3) == [];
    assert IdsOfTypeIn(FriendEvaluationQuestions, TextAnswer, 4) == [];
    assert IdsOfTypeIn(FriendEvaluationQuestions, TextAnswer, 5) == [PastTextId];
  }

  /** The only MULTIPLE_CHOICE question of the peer table is `past-select`,
      with three options. */
  lemma FriendTableChoiceIds()
    ensures IdsOfType(FriendEvaluationQuestions, MultipleChoice) == [PastSelectId]
    ensures FriendEvaluationQuestions[3].id == PastSelectId && |FriendEvaluationQuestions[3].options| == 3
  {
    FriendChoiceIdsOfFirstSix();
    assert IdsOfTypeIn(FriendEvaluationQuestions, MultipleChoice, 7) == [PastSelectId];
    assert IdsOfTypeIn(FriendEvaluationQuestions, MultipleChoice, 8) == [PastSelectId];
    assert IdsOfTypeIn(FriendEvaluationQuestions, MultipleChoice, 9) == [PastSelectId];
    assert IdsOfTypeIn(FriendEvaluationQuestions, MultipleChoice, 10) == [PastSelectId];
    assert IdsOfTypeIn(FriendEvaluationQuestions, MultipleChoice, 11) == [PastSelectId];
    assert IdsOfTypeIn(FriendEvaluationQuestions, MultipleChoice, 12) == [PastSelectId];
  }

  /** The MULTIPLE_CHOICE ids among the first six questions of the peer table. */
  lemma FriendChoiceIdsOfFirstSix()
    ensures IdsOfTypeIn(FriendEvaluationQuestions, MultipleChoice, 6) == [PastSelectId]
  {
    assert IdsOfTypeIn(FriendEvaluationQuestions, MultipleChoice, 1) == [];
    assert IdsOfTypeIn(FriendEvaluationQuestions, MultipleChoice, 2) == [];
    assert IdsOfTypeIn(FriendEvaluationQuestions, MultipleChoice, 3) == [];
    assert IdsOfTypeIn(FriendEvaluationQuestions, MultipleChoice, 4) == [PastSelectId];
    assert IdsOfTypeIn(FriendEvaluationQuestions, MultipleChoice, 5) == [PastSelectId];
  }

  /** The self-survey asks the same questions, of the same types, in the same
      order as the peer table. */
  lemma SelfTableMatchesFriendTable()
    ensures |SelfSurveyQuestions| == |FriendEvaluationQuestions|
    ensures forall i :: 0 <= i < |SelfSurveyQuestions| ==>
      SelfSurveyQuestions[i].id == FriendEvaluationQuestions[i].id
      && SelfSurveyQuestions[i].qtype == FriendEvaluationQuestions[i].qtype
      && SelfSurveyQuestions[i].section == FriendEvaluationQuestions[i].section
  {
  }

  /** Two tables with the same ids and types in the same order list the same
      ids for every type. */
  lemma SameTypesSameIds(qs: seq<Question>, ps: seq<Question>, t: QuestionType)
    requires |qs| == |ps|
    requires forall i :: 0 <= i < |qs| ==> qs[i].id == ps[i].id && qs[i].qtype == ps[i].qtype
    ensures IdsOfType(qs, t) == IdsOfType(ps, t)
  {
    SameTypesSameIdsIn(qs, ps, t, |qs|);
  }

  lemma {:induction false} SameTypesSameIdsIn(qs: seq<Question>, ps: seq<Question>, t: QuestionType, n: nat)
    requires n <= |qs| == |ps|
    requires forall i :: 0 <= i < |qs| ==> qs[i].id == ps[i].id && qs[i].qtype == ps[i].qtype
    ensures IdsOfTypeIn(qs, t, n) == IdsOfTypeIn(ps, t, n)
  {
    if n > 0 {
      SameTypesSameIdsIn(qs, ps, t, n - 1);
    }
  }
}

=== FILE: text.dfy ===
/** String helpers shared by the validators, the CSV writer and the search
    filter. Strings are sequences of Unicode scalar values. */
module Text {

  /** The characters JavaScript's `String.prototype.trim` strips and the
      regular-expression class `\s` matches: the ECMAScript WhiteSpace and
      LineTerminator characters. */
  predicate IsJsSpace(c: char) {
    || c == ' ' || c == '\t' || c == '\n' || c == '\r'
    || c == '\U{000B}' || c == '\U{000C}' || c == '\U{00A0}' || c == '\U{FEFF}'
    || c == '\U{1680}' || ('\U{2000}' <= c <= '\U{200A}')
    || c == '\U{2028}' || c == '\U{2029}' || c == '\U{202F}' || c == '\U{205F}'
    || c == '\U{3000}'
  }

  predicate NoSpace(s: string) {
    forall i :: 0 <= i < |s| ==> !IsJsSpace(s[i])
  }

  /** `s.trimStart()`. */
  function TrimStart(s: string): (r: string)
    ensures |r| <= |s| && r == s[|s| - |r|..]
    ensures r == [] || !IsJsSpace(r[0])
    ensures forall i :: 0 <= i < |s| - |r| ==> IsJsSpace(s[i])
  {
    if |s| > 0 && IsJsSpace(s[0]) then TrimStart(s[1..]) else s
  }

  /** `s.trimEnd()`. */
  function TrimEnd(s: string): (r: string)
    ensures |r| <= |s| && r == s[..|r|]
    ensures r == [] || !IsJsSpace(r[|r| - 1])
    ensures forall i :: |r| <= i < |s| ==> IsJsSpace(s[i])
  {
    if |s| > 0 && IsJsSpace(s[|s| - 1]) then TrimEnd(s[..|s| - 1]) else s
  }

  /** `t` occurs in `s` starting at index `i`. */
  predicate InfixAt(s: string, t: string, i: int) {
    0 <= i <= |s| - |t| && s[i..i + |t|] == t
  }

  /** `s.trim()`: the longest infix of `s` that neither starts nor ends with
      white space, so only white space lies around it. */
  function Trim(s: string): (r: string)
    ensures exists i :: InfixAt(s, r, i)
    ensures exists i ::
      && InfixAt(s, r, i)
      && (forall j :: 0 <= j < i ==> IsJsSpace(s[j]))
      && (forall j :: i + |r| <= j < |s| ==> IsJsSpace(s[j]))
    ensures r == [] || (!IsJsSpace(r[0]) && !IsJsSpace(r[|r| - 1]))
    ensures NoSpace(s) ==> r == s
  {
    TrimSurroundsWithSpace(s);
    var r := TrimEnd(TrimStart(s));
    assert InfixAt(s, r, |s| - |TrimStart(s)|);
    r
  }

  /** Trimming the start and then the end leaves only white space around the
      result, and leaves a string without white space as it is. */
  lemma TrimSurroundsWithSpace(s: string)
    ensures var r := TrimEnd(TrimStart(s));
      && InfixAt(s, r, |s| - |TrimStart(s)|)
      && (forall j :: 0 <= j < |s| - |TrimStart(s)| ==> IsJsSpace(s[j]))
      && (forall j :: |s| - |TrimStart(s)| + |r| <= j < |s| ==> IsJsSpace(s[j]))
      && (r == [] || (!IsJsSpace(r[0]) && !IsJsSpace(r[|r| - 1])))
      && (NoSpace(s) ==> r == s)
  {
    var t := TrimStart(s);
    var r := TrimEnd(t);
    TrimSurroundedBySpace(s, t, r, |s| - |t|);
    assert NoSpace(s) ==> t == s && r == t;
  }

  lemma TrimSurroundedBySpace(s: string, t: string, r: string, i: int)
    requires t == TrimStart(s) && r == TrimEnd(t) && i == |s| - |t|
    ensures InfixAt(s, r, i)
    ensures forall j :: 0 <= j < i ==> IsJsSpace(s[j])
    ensures forall j :: i + |r| <= j < |s| ==> IsJsSpace(s[j])
  {
    InfixOfSuffix(s, t, r, i);
    SpacesAfterInfix(s, t, |r|, i);
  }

  lemma InfixOfSuffix(s: string, t: string, r: string, i: int)
    requires 0 <= i <= |s| && t == s[i..] && |r| <= |t| && r == t[..|r|]
    ensures InfixAt(s, r, i)
  {
  }

  lemma SpacesAfterInfix(s: string, t: string, n: int, i: int)
    requires 0 <= i <= |s| && t == s[i..] && 0 <= n
    requires forall k :: n <= k < |t| ==> IsJsSpace(t[k])
    ensures forall j :: i + n <= j < |s| ==> IsJsSpace(s[j])
  {
    forall j | i + n <= j < |s| ensures IsJsSpace(s[j]) {
      assert s[j] == t[j - i];
    }
  }

  /** The characters of `s` that are not in `drop`, in order
      (`s.replace(/[...]/g, '')`). */
  function RemoveChars(s: string, drop: set<char>): (r: string)
    ensures |r| <= |s|
    ensures forall i :: 0 <= i < |r| ==> r[i] !in drop
    ensures forall c :: c in s && c !in drop ==> c in r
    ensures forall c :: c in r ==> c in s
    decreases |s|
  {
    if s == [] then []
    else if s[0] in drop then RemoveChars(s[1..], drop)
    else [s[0]] + RemoveChars(s[1..], drop)
  }

  /** `parts.join(sep)`. */
  function Join(parts: seq<string>, sep: string): (r: string)
    ensures parts == [] ==> r == []
    ensures |parts| == 1 ==> r == parts[0]
  {
    if parts == [] then []
    else if |parts| == 1 then parts[0]
    else parts[0] + sep + Join(parts[1..], sep)
  }

  /** `s.includes(t)`: `t` occurs in `s` as a contiguous infix. */
  predicate Includes(s: string, t: string) {
    exists i | 0 <= i <= |s| - |t| :: InfixAt(s, t, i)
  }

  /** Every string includes the empty string. */
  lemma IncludesEmpty(s: string)
    ensures Includes(s, [])
  {
    assert InfixAt(s, [], 0);
  }

  /** `n` occurrences of `c`. */
  function Count(s: string, c: char): (r: nat)
    ensures r <= |s|
    ensures r == 0 <==> c !in s
    decreases |s|
  {
    if s == [] then 0
    else (if s[0] == c then 1 else 0) + Count(s[1..], c)
  }
}

=== FILE: validation.dfy ===
/** The request validators and the string sanitiser. */
module Validation {
  import opened Js
  import opened Text

  // ----- sanitizeString -----

  /** The most characters a sanitised string keeps. */
  const MaxSanitizedLength: nat := 10000

  /** The characters removed to prevent HTML injection. */
  const AngleBrackets: set<char> := {'<', '>'}

  /** `sanitizeString`: trim, drop every '<' and '>', keep at most the first
      10000 characters; anything but a string becomes the empty string. */
  function SanitizeString(input: Value): (r: string)
    ensures !input.Str? ==> r == ""
    ensures |r| <= MaxSanitizedLength
    ensures '<' !in r && '>' !in r
    ensures input.Str? ==>
      var cleaned := RemoveChars(Trim(input.s), AngleBrackets);
      && r <= cleaned
      && |r| == if |cleaned| <= MaxSanitizedLength then |cleaned| else MaxSanitizedLength
  {
    if !input.Str? then ""
    else
      var cleaned := RemoveChars(Trim(input.s), AngleBrackets);
      if |cleaned| <= MaxSanitizedLength then cleaned else cleaned[..MaxSanitizedLength]
  }

  /** A string with no surrounding white space, no angle brackets and at most
      10000 characters passes through the sanitiser unchanged. */
  lemma {:induction false} SanitizeKeepsCleanText(s: string)
    requires |s| <= MaxSanitizedLength
    requires s == [] || (!IsJsSpace(s[0]) && !IsJsSpace(s[|s| - 1]))
    requires '<' !in s && '>' !in s
    ensures SanitizeString(Str(s)) == s
  {
    TrimOfTrimmed(s);
    RemoveNothing(s, AngleBrackets);
  }

  /** Sanitizing is not idempotent: trimming happens before the brackets
      are removed, so a bracket that shielded white space leaves that space
      at the edge of the result, and a second pass strips it. */
  lemma SanitizeIsNotIdempotent()
    ensures SanitizeString(Str("< a")) == " a"
    ensures SanitizeString(Str(SanitizeString(Str("< a")))) == "a"
  {
    BracketShieldsSpace();
    SpaceTrimmed();
  }

  lemma BracketShieldsSpace()
    ensures SanitizeString(Str("< a")) == " a"
  {
    var s := "< a";
    assert s[1..] == " a" && " a"[1..] == "a" && "a"[1..] == [];
    TrimOfTrimmed(s);
    RemoveCharsStep(s, AngleBrackets);
    RemoveCharsStep(" a", AngleBrackets);
    RemoveCharsStep("a", AngleBrackets);
    assert RemoveChars(Trim(s), AngleBrackets) == " a";
    SanitizeShort(s);
  }

  lemma SpaceTrimmed()
    ensures SanitizeString(Str(" a")) == "a"
  {
    assert " a"[1..] == "a" && "a"[1..] == [];
    TrimSkipsLeadingSpace(" a");
    TrimOfTrimmed("a");
    RemoveCharsStep("a", AngleBrackets);
    assert RemoveChars(Trim(" a"), AngleBrackets) == "a";
    SanitizeShort(" a");
  }

  /** A string that stays within the length bound is sanitised to its
      trimmed text without brackets. */
  lemma SanitizeShort(s: string)
    requires |RemoveChars(Trim(s), AngleBrackets)| <= MaxSanitizedLength
    ensures SanitizeString(Str(s)) == RemoveChars(Trim(s), AngleBrackets)
  {
  }

  /** One step of `RemoveChars`. */
  lemma RemoveCharsStep(s: string, drop: set<char>)
    requires s != []
    ensures RemoveChars(s, drop) == (if s[0] in drop then [] else [s[0]]) + RemoveChars(s[1..], drop)
  {
  }

  /** Leading white space is dropped by trimming. */
  lemma TrimSkipsLeadingSpace(s: string)
    requires s != [] && IsJsSpace(s[0])
    ensures Trim(s) == Trim(s[1..])
  {
    assert TrimStart(s) == TrimStart(s[1..]);
  }

  lemma TrimOfTrimmed(s: string)
    requires s == [] || (!IsJsSpace(s[0]) && !IsJsSpace(s[|s| - 1]))
    ensures Trim(s) == s
  {
  }

  lemma {:induction false} RemoveNothing(s: string, drop: set<char>)
    requires forall i :: 0 <= i < |s| ==> s[i] !in drop
    ensures RemoveChars(s, drop) == s
    decreases |s|
  {
    if s != [] {
      RemoveNothing(s[1..], drop);
    }
  }

  // ----- isValidEmail -----

  /** The longest address accepted. */
  const MaxEmailLength: nat := 254

  /** A non-empty run of characters matched by `[^\s@]+`. */
  predicate EmailAtom(a: string) {
    |a| > 0 && NoSpace(a) && '@' !in a
  }

  /** The shape `/^[^\s@]+@[^\s@]+\.[^\s@]+$/` describes: three atoms
      joined by '@' and then by '.'. */
  ghost predicate EmailShape(s: string) {
    exists a, b, c :: s == a + "@" + b + "." + c && EmailAtom(a) && EmailAtom(b) && EmailAtom(c)
  }

  /** The executable test of the address pattern: no white space, exactly
      one '@' that is not first, and after it a '.' with at least one
      character on each side. */
  predicate MatchesEmailPattern(s: string) {
    && NoSpace(s)
    && Count(s, '@') == 1
    && exists at, dot | 0 < at && at + 2 <= dot <= |s| - 2 :: s[at] == '@' && s[dot] == '.'
  }

  /** `isValidEmail`: a string that matches the pattern and has at most 254
      characters. */
  predicate IsValidEmail(email: Value) {
    email.Str? && MatchesEmailPattern(email.s) && |email.s| <= MaxEmailLength
  }

  lemma {:induction false} CountAppend(x: string, y: string, c: char)
    ensures Count(x + y, c) == Count(x, c) + Count(y, c)
    decreases |x|
  {
    if x == [] {
      assert x + y == y;
    } else {
      assert (x + y)[1..] == x[1..] + y;
      CountAppend(x[1..], y, c);
    }
  }

  /** A string with one `c` has no other occurrence of `c`. */
  lemma OnlyOccurrence(s: string, c: char, at: int)
    requires 0 <= at < |s| && s[at] == c && Count(s, c) == 1
    ensures forall i :: 0 <= i < |s| && i != at ==> s[i] != c
  {
    forall i | 0 <= i < |s| && i != at
      ensures s[i] != c
    {
      var lo, hi := if i < at then i else at, if i < at then at else i;
      assert s == s[..lo] + s[lo..hi] + s[hi..];
      CountAppend(s[..lo] + s[lo..hi], s[hi..], c);
      CountAppend(s[..lo], s[lo..hi], c);
      assert s[lo..hi][0] == s[lo];
      assert s[hi..][0] == s[hi];
    }
  }

  /** A matching string has the pattern's shape. */
  lemma MatchImpliesShape(s: string)
    requires MatchesEmailPattern(s)
    ensures EmailShape(s)
  {
    var at, dot :| 0 < at && at + 2 <= dot <= |s| - 2 && s[at] == '@' && s[dot] == '.';
    OnlyOccurrence(s, '@', at);
    var a, b, c := s[..at], s[at + 1..dot], s[dot + 1..];
    SplitTwice(s, at, dot);
    assert [s[at]] == "@" && [s[dot]] == ".";
    SliceIsAtom(s, at, 0, at);
    SliceIsAtom(s, at, at + 1, dot);
    SliceIsAtom(s, at, dot + 1, |s|);
    AtomsMakeShape(a, b, c);
  }

  /** A string cut around two of its positions. */
  lemma SplitTwice(s: string, i: int, j: int)
    requires 0 <= i < j < |s|
    ensures s == s[..i] + [s[i]] + s[i + 1..j] + [s[j]] + s[j + 1..]
  {
  }

  lemma AtomsMakeShape(a: string, b: string, c: string)
    requires EmailAtom(a) && EmailAtom(b) && EmailAtom(c)
    ensures EmailShape(a + "@" + b + "." + c)
  {
  }

  /** A non-empty slice of a string without white space that avoids the
      only '@' is an atom. */
  lemma SliceIsAtom(s: string, at: int, lo: int, hi: int)
    requires NoSpace(s)
    requires 0 <= lo < hi <= |s|
    requires forall i :: 0 <= i < |s| && i != at ==> s[i] != '@'
    requires at < lo || hi <= at
    ensures EmailAtom(s[lo..hi])
  {
    var t := s[lo..hi];
    assert forall i :: 0 <= i < |t| ==> t[i] == s[lo + i];
  }

  /** Atoms joined by '@' and '.' contain no white space. */
  lemma ShapeHasNoSpace(a: string, b: string, c: string)
    requires EmailAtom(a) && EmailAtom(b) && EmailAtom(c)
    ensures NoSpace(a + "@" + b + "." + c)
  {
    var s := a + "@" + b + "." + c;
    forall i | 0 <= i < |s|
      ensures !IsJsSpace(s[i])
    {
      if i < |a| {
        assert s[i] == a[i];
      } else if |a| < i < |a| + 1 + |b| {
        assert s[i] == b[i - |a| - 1];
      } else if |a| + 1 + |b| < i {
        assert s[i] == c[i - |a| - |b| - 2];
      }
    }
  }

  /** Atoms joined by '@' and '.' contain exactly one '@'. */
  lemma ShapeHasOneAt(a: string, b: string, c: string)
    requires EmailAtom(a) && EmailAtom(b) && EmailAtom(c)
    ensures Count(a + "@" + b + "." + c, '@') == 1
  {
    CountAppend(a, "@", '@');
    CountAppend(a + "@", b, '@');
    CountAppend(a + "@" + b, ".", '@');
    CountAppend(a + "@" + b + ".", c, '@');
  }

  /** A string of the pattern's shape matches. */
  lemma ShapeImpliesMatch(s: string)
    requires EmailShape(s)
    ensures MatchesEmailPattern(s)
  {
    var a, b, c :| s == a + "@" + b + "." + c && EmailAtom(a) && EmailAtom(b) && EmailAtom(c);
    ShapeHasNoSpace(a, b, c);
    ShapeHasOneAt(a, b, c);
    var at, dot := |a|, |a| + 1 + |b|;
    assert s[at] == '@' && s[dot] == '.';
  }

  /** The executable test accepts exactly the strings of the pattern's shape. */
  lemma EmailPatternIsShape(s: string)
    ensures MatchesEmailPattern(s) <==> EmailShape(s)
  {
    if MatchesEmailPattern(s) {
      MatchImpliesShape(s);
    }
    if EmailShape(s) {
      ShapeImpliesMatch(s);
    }
  }

  /** An accepted address has at most 254 characters, exactly one '@', no
      white space, non-empty text before the '@', and after it a '.' with
      non-empty text on both sides; and every such address is accepted. */
  lemma ValidEmailIff(s: string)
    ensures IsValidEmail(Str(s)) <==> EmailShape(s) && |s| <= MaxEmailLength
  {
    EmailPatternIsShape(s);
  }

  /** Anything but a string is rejected. */
  lemma NonStringEmailRejected(v: Value)
    requires !v.Str?
    ensures !IsValidEmail(v)
  {
  }

  // ----- validateRequired -----

  /** A value `validateRequired` treats as missing. */
  predicate IsBlank(v: Value) {
    v.Undefined? || v.Null? || v == Str("")
  }

  datatype RequiredCheck = RequiredCheck(valid: bool, missing: seq<string>)

  /** The required fields that are blank, in the order they were asked for. */
  function MissingFields(data: map<string, Value>, fields: seq<string>): (r: seq<string>)
    ensures |r| <= |fields|
  {
    if fields == [] then []
    else (if IsBlank(Field(Obj(data), fields[0])) then [fields[0]] else []) + MissingFields(data, fields[1..])
  }

  /** `validateRequired`. */
  function ValidateRequired(data: map<string, Value>, fields: seq<string>): (r: RequiredCheck)
    ensures r.missing == MissingFields(data, fields)
    ensures r.valid <==> r.missing == []
  {
    var missing := MissingFields(data, fields);
    RequiredCheck(missing == [], missing)
  }

  /** A field is reported missing exactly when it was asked for and is blank. */
  lemma {:induction false} MissingFieldsMembers(data: map<string, Value>, fields: seq<string>, f: string)
    ensures f in MissingFields(data, fields) <==> f in fields && IsBlank(Field(Obj(data), f))
  {
    if fields != [] {
      MissingFieldsMembers(data, fields[1..], f);
      assert fields == [fields[0]] + fields[1..];
    }
  }

  /** The report keeps the order of the request: it distributes over a split
      of the field list. */
  lemma {:induction false} MissingFieldsAppend(data: map<string, Value>, xs: seq<string>, ys: seq<string>)
    ensures MissingFields(data, xs + ys) == MissingFields(data, xs) + MissingFields(data, ys)
  {
    if xs == [] {
      assert xs + ys == ys;
    } else {
      assert (xs + ys)[1..] == xs[1..] + ys;
      MissingFieldsAppend(data, xs[1..], ys);
    }
  }

  /** `0` and `false` count as present. */
  lemma ZeroAndFalseArePresent(data: map<string, Value>, f: string)
    requires f in data && (data[f] == Num(0.0) || data[f] == Bool(false))
    ensures f !in MissingFields(data, [f])
  {
  }

  // ----- validateObject -----

  datatype ObjectCheck = ObjectCheck(valid: bool, errors: seq<string>)

  /** The error `validateObject` reports for a failing field. */
  function FieldError(key: string): string {
    "Invalid value for field: " + key
  }

  /** The keys of the validator whose test rejects the data's field, in the
      validator's order. */
  function FailingKeys(data: Value, validator: seq<(string, Value -> bool)>): (r: seq<string>)
    ensures |r| <= |validator|
    ensures forall k :: k in r ==> exists i :: 0 <= i < |validator| && validator[i].0 == k && !validator[i].1(Field(data, k))
    ensures forall i :: 0 <= i < |validator| && !validator[i].1(Field(data, validator[i].0)) ==> validator[i].0 in r
  {
    if validator == [] then []
    else
      var rest := FailingKeys(data, validator[1..]);
      assert forall i :: 1 <= i < |validator| ==> validator[i] == validator[1..][i - 1];
      (if validator[0].1(Field(data, validator[0].0)) then [] else [validator[0].0]) + rest
  }

  /** `validateObject`: anything that is not an object (or is `null`) fails
      with one error; otherwise one error per failing field, in order. */
  function ValidateObject(data: Value, validator: seq<(string, Value -> bool)>): (r: ObjectCheck)
    ensures !(data.Arr? || data.Obj?) ==> r == ObjectCheck(false, ["Data must be an object"])
    ensures (data.Arr? || data.Obj?) ==>
      && |r.errors| == |FailingKeys(data, validator)|
      && (forall i :: 0 <= i < |r.errors| ==> r.errors[i] == FieldError(FailingKeys(data, validator)[i]))
    ensures r.valid <==> r.errors == []
    ensures (data.Arr? || data.Obj?) ==>
      (r.valid <==> forall i :: 0 <= i < |validator| ==> validator[i].1(Field(data, validator[i].0)))
  {
    if !IsObjectType(data) || data.Null? then ObjectCheck(false, ["Data must be an object"])
    else
      var keys := FailingKeys(data, validator);
      var errors := seq(|keys|, i requires 0 <= i < |keys| => FieldError(keys[i]));
      assert errors == [] <==> keys == [];
      assert keys != [] ==> keys[0] in keys;
      ObjectCheck(errors == [], errors)
  }

  // ----- validateSurveyAnswers / validateScores -----

  /** An answer value the survey validator admits: a string, a number or an
      array of strings. */
  predicate IsAnswerValue(v: Value) {
    v.Str? || v.Num? || IsStringArray(v)
  }

  /** `validateSurveyAnswers`: an object (arrays included, whose elements
      are then its values) all of whose values are answer values. */
  function ValidateSurveyAnswers(answers: Value): (r: bool)
    ensures r <==>
      || (answers.Obj? && forall k :: k in answers.fields ==> IsAnswerValue(answers.fields[k]))
      || (answers.Arr? && forall i :: 0 <= i < |answers.elems| ==> IsAnswerValue(answers.elems[i]))
  {
    IsObjectType(answers) && !answers.Null? && EveryOwnValue(answers, IsAnswerValue)
  }

  /** A score `validateScores` admits: a number in [1, 5]. */
  predicate InScale(v: Value) {
    v.Num? && 1.0 <= v.x <= 5.0
  }

  /** `validateScores`: an object (arrays included) all of whose values are
      numbers in [1, 5]; the empty object passes. */
  function ValidateScores(scores: Value): (r: bool)
    ensures r <==>
      || (scores.Obj? && forall k :: k in scores.fields ==> InScale(scores.fields[k]))
      || (scores.Arr? && forall i :: 0 <= i < |scores.elems| ==> InScale(scores.elems[i]))
  {
    IsObjectType(scores) && !scores.Null? && EveryOwnValue(scores, InScale)
  }

  /** The empty scores object passes. */
  lemma EmptyScoresPass()
    ensures ValidateScores(Obj(map[]))
  {
  }
}
